=== FILE: README.md ===
# Pepino invoices in Dafny

A model of the pure core of the Pepino invoice app: the invoice document and
its schema, the totals, the free-text item parser behind the "magic input box",
the editor's state transitions (group and item CRUD, merging parsed text,
drag-and-drop reordering), the invoice list's row normalisation and titles, and
the layout of the generated PDF. The model treats the layout as a state machine
over `(pages, cursor, trace of text draws)`. Everything is written as
immutable datatypes and pure functions, and the properties are proved about
them.

Modules follow the program:

- `Schema`: `Money`, `LineItem`, `Group` and `Invoice`, with `ValidInvoice` for
  the schema's constraints and the demo invoice.
- `Totals`: `groupTotalQ` and `invoiceTotalsQ`.
- `Text`: the JavaScript string primitives the code relies on. These are the
  `\s` class, `trim`, `split`, `join`, and `split(/\s+/)` into words. A
  string is a sequence of code points, not of UTF-16 code units (see
  "Left out").
- `Wrap`: `wrapText`, `breakTokenByWidth` and `wrapByWidth`.
- `Format`: `formatDate`, `hexToRgb`, `splitParagraphs`, `isBulletLine` and
  `String(n)`.
- `Patterns`: the item regular expressions of the parser. Each is written as
  an explicit search that tries the choices in the regex engine's order.
- `Parse`: `toNum` and `parseFreeText`.
- `Items`: what the patterns make of whole item lines.
- `Layout`: `generateInvoicePdf` as a trace of draws.
- `Editor`: the handlers of the create page.
- `Rows`: the invoice list.

Parameters and abstractions:

- Text width (`measure`), `toFixed(2)` and `String(x)` for a float are
  parameters. Every layout property holds for every choice of them.
- New ids come from a supply `uid: nat -> string` and a counter.
- The lower-casing used to compare group titles is a parameter
  `lower: string -> string` on whole strings.

The code was followed in two places where its own comments, or a casual
reading, suggest otherwise:

- The parser's doc comment lists `Transporte Q2000` as an example input
  (src/lib/parse.ts:25). As written, the currency pattern `\b(Q|…)\b` does not
  remove a `Q` glued to digits, so no numeric pattern matches. The line becomes
  the fallback item: description `Transporte Q2000`, quantity 1, no price
  (`Items.TransporteLine`).
- The only page check before each unit (group header, item row, line of
  notes or terms) is `cursorY < contentMinY`. A row's full height is never
  compared with the space left, so a tall row can run into the footer area. The
  model states no more than that check (`Layout.NewPageIfNeeded`,
  `Layout.ItemRowHeight`).

## Model

| member | source | states |
|---|---|---|
| Schema.ExampleInvoice | src/lib/invoiceSchema.ts:77-111 | the demo invoice meets every schema constraint: amounts non-negative, whole non-negative quantities, rate in [0, 0.25], currency GTQ, secondary currency USD; it has two groups of two and one items |
| Totals.GroupTotalSum | src/lib/totals.ts:3-5 | the left fold of `groupTotalQ` equals the plain sum of quantity times unit price over the group's items, and is 0 for a group without items |
| Totals.FoldGroupsSum | src/lib/totals.ts:12 | folding group totals from an accumulator adds the sum over every item of every group |
| Totals.SubtotalSum | src/lib/totals.ts:12 | the subtotal is the unrounded sum of quantity times price over all items of all groups |
| Totals.Tax | src/lib/totals.ts:13 | the tax is a whole number of cents and lies within half a cent of subtotal times rate |
| Totals.InvoiceTotals | src/lib/totals.ts:7-16 | only the tax is rounded (to cents, within half a cent of subtotal times rate); the total is exactly subtotal plus tax |
| Totals.TotalsNonNegative | src/lib/totals.ts:3-16 | for a schema-valid invoice, subtotal, tax and total are non-negative and the total is at least the subtotal |
| Totals.ZeroRate | src/lib/totals.ts:13-14 | a zero rate gives zero tax and a total equal to the subtotal |
| Totals.TwelvePercent | src/lib/totals.ts:13-14 | a subtotal of 1000 at rate 0.12 gives tax 120 and total 1120 |
| Totals.ExampleTotals | src/lib/invoiceSchema.ts:82-99 | the demo invoice's totals are 4100, 0 and 4100 |
| Text.WordsOfJoin | src/lib/pdf.ts:299 | splitting words joined by single spaces on `\s+` gives back the same words |
| Text.WordsConcat | src/lib/pdf.ts:299 | the words of a text glued together are exactly its non-blank characters in order |
| Text.WordsEmpty | src/lib/pdf.ts:45 | a text has no words exactly when it is blank |
| Text.WordsSqueeze | src/lib/pdf.ts:664 | collapsing blank runs and trimming keeps the words of a text |
| Text.SplitJoin | src/lib/parse.ts:32 | joining the pieces of a split with the separator rebuilds the text, when it holds no carriage return |
| Wrap.WrapTextNonEmptyLines | src/lib/pdf.ts:44-60 | `wrapText` never emits an empty line |
| Wrap.WrapTextJoin | src/lib/pdf.ts:44-60 | the lines joined by single spaces equal the text's words joined by single spaces |
| Wrap.WrapTextEmpty | src/lib/pdf.ts:44-60 | `wrapText` gives no lines exactly when the text is blank |
| Wrap.WrapTextBound | src/lib/pdf.ts:50-53 | a line longer than `maxChars` is a single word of the text |
| Wrap.WrapTextGreedy | src/lib/pdf.ts:50-56 | each line, a space and the first word of the next line together exceed `maxChars` |
| Wrap.WrapTextSqueeze | src/lib/pdf.ts:704 | collapsing whitespace before wrapping never changes the lines |
| Wrap.BreakTokenSpec | src/lib/pdf.ts:271-291 | the pieces concatenate to the token and are never an empty list; each piece fits the width or is one character; a piece ends only where the next character would not fit |
| Wrap.WrapByWidthLines | src/lib/pdf.ts:293-338 | the result is `[""]` exactly for blank input; otherwise every line is non-empty and fits the width or is one character |
| Wrap.WrapByWidthInk | src/lib/pdf.ts:303-336 | removing blanks from the concatenated lines gives the input's non-blank characters in their original order |
| Format.FormatDateIso | src/lib/pdf.ts:239-243 | "Y-M-D" with non-empty dash-free parts is shown as "D/M/Y" |
| Format.FormatDateNoDash | src/lib/pdf.ts:241-242 | a date without a dash comes back unchanged |
| Format.FormatDateTwoParts | src/lib/pdf.ts:241-242 | "Y-M" without a day part comes back unchanged |
| Format.NatToStringRoundTrip | src/lib/pdf.ts:382 | the digits printed for a page number read back as that number |
| Format.HexRoundTrip | src/lib/pdf.ts:27-42 | parsing a colour written as "#rrggbb" gives back its three byte components |
| Format.HexToRgbSix | src/lib/pdf.ts:28-40 | "#" and six hex digits give the three bytes of the 24-bit number they denote |
| Format.HexShortForm | src/lib/pdf.ts:30-35 | the three-digit form "#abc" is the same colour as "#aabbcc" |
| Format.DefaultHeaderColor | src/lib/pdf.ts:166 | the default header colour "#161616" is the grey (22, 22, 22) |
| Format.SplitParagraphsJoin | src/lib/pdf.ts:62-64 | paragraphs joined with a blank line give the text back when it uses plain line feeds |
| Format.IsBulletLineShape | src/lib/pdf.ts:66-68 | a line is a bullet line exactly when it is optional blanks, a marker (`-`, `*`, `•` or digits and a full stop) and a blank |
| Format.StripBullet | src/lib/pdf.ts:692 | removing the marker leaves a proper suffix of a bullet line that is empty or starts with a non-blank, and leaves other lines unchanged |
| Format.BulletExamples | src/lib/pdf.ts:66-68 | "1) Text" is not a bullet line; "1. Text" and "- Text" are, and both lose their marker to leave "Text" |
| Layout.AddPage | src/lib/pdf.ts:387-392 | a new page is added, its header title drawn on it, and the cursor set to the top of the content area; earlier draws are kept |
| Layout.NewPageIfNeeded | src/lib/pdf.ts:396-400 | a page is added exactly when the cursor is below `contentMinY` (106), setting the cursor to `contentTopY`; otherwise nothing changes; afterwards the cursor is at least `contentMinY` |
| Layout.PutRight | src/lib/pdf.ts:224-236 | the text is drawn so that its measured width ends exactly at the right edge given |
| Layout.MetaBlock | src/lib/pdf.ts:246-268 | the meta block lowers the cursor by 12 points per present line (number, issue date, due date) plus 10 |
| Layout.RightLines | src/lib/pdf.ts:262-266 | the i-th meta line is drawn right-aligned at `right`, 12 i points below the start |
| Layout.BelowColumns | src/lib/pdf.ts:475 | the cursor after the two columns is 8 points below the lower of the two column ends |
| Layout.ClientEvent | src/lib/pdf.ts:406-475 | the client and event block stays on the page and lowers the cursor by at least the heading, one line and the gap |
| Layout.GroupHeader | src/lib/pdf.ts:508-530 | a group header starts after the page check and lowers the cursor by 16 plus 14 points |
| Layout.DescLinesFit | src/lib/pdf.ts:538-542 | every description line fits the description column (`unitRight - descX - 8`) or is one character; a blank description is one empty line |
| Layout.ItemRowAt | src/lib/pdf.ts:535-566 | an item row draws the quantity, right-aligns the line total `qty * unit.amount` at `right` on the row's first baseline, and the description lines 14 points apart |
| Layout.ItemRowHeight | src/lib/pdf.ts:532-566 | each item row lowers the cursor by exactly 14 points per description line, at least one line, below where the page check left it |
| Layout.LabelRight | src/lib/pdf.ts:597-605 | the totals labels end 16 points before the widest amount starts, so before every amount |
| Layout.TotalsRows | src/lib/pdf.ts:607-619 | subtotal, tax and total rows each put the label at least 16 points before the amount on the same baseline, and lower the cursor by 6, 14, 16 and 16 |
| Layout.BankBlock | src/lib/pdf.ts:633-656 | without any bank account nothing is drawn and the cursor stays |
| Layout.NotesBlock | src/lib/pdf.ts:658-670 | absent or blank notes draw nothing |
| Layout.TermsBlock | src/lib/pdf.ts:672-714 | absent or blank terms draw nothing |
| Layout.ProseKeepsWords | src/lib/pdf.ts:704-709 | a prose paragraph is drawn as non-empty lines that together hold exactly its words |
| Layout.BulletModeExamples | src/lib/pdf.ts:682-683 | a paragraph numbered "1)" is prose; one containing a "1." line is in bullet mode |
| Layout.FooterLoopSize | src/lib/pdf.ts:367-384 | the footer pass draws one text per page, two when there is a footer note |
| Layout.FootersNumberPages | src/lib/pdf.ts:756-758 | after the footer pass every page i of n carries the label "i+1 / n" |
| Layout.GenerateNumbersPages | src/lib/pdf.ts:394-758 | the generated document has at least one page, every draw is on an existing page, and every page is numbered |
| Patterns.NumEnd | src/lib/parse.ts:71 | `\d+(?:[.,]\d+)?` matches at a position exactly when a digit is there, and ends at the end of the longest match |
| Patterns.LazyEndSpec | src/lib/parse.ts:71 | the lazy description group stops at the first end after which the rest matches, and finds none only when no end does |
| Patterns.FirstMatchSpec | src/lib/parse.ts:70-72 | the unanchored search returns the leftmost start and, at it, the shortest description; when it finds nothing there is no match |
| Patterns.GiveBackSpec | src/lib/parse.ts:84 | after the leading quantity the description keeps the longest blank run it can and gives blanks back only when needed |
| Patterns.TrailSpec | src/lib/parse.ts:96 | `trail` matches exactly when some description from the start is followed by blanks and a final number, and takes the shortest |
| Patterns.UsdFrom | src/lib/parse.ts:10 | the dollar pattern is found exactly when it matches at some position |
| Parse.ToNumWhole | src/lib/parse.ts:12-16 | a string of digits reads as its decimal value |
| Parse.ToNumComma | src/lib/parse.ts:14 | a comma is the decimal mark: "a,b" reads as a plus the fraction b |
| Parse.ToNumDot | src/lib/parse.ts:14 | every dot is dropped, so "a.b" reads as the whole number ab |
| Parse.ToNumGrouped | src/lib/parse.ts:14 | thousands dots before a decimal comma are dropped: "a.b,c" reads as "ab,c" |
| Parse.ToNumSeesNoDots | src/lib/parse.ts:14 | two texts that agree once their dots are removed read the same |
| Parse.ReplaceFirstAt | src/lib/parse.ts:14 | only the first comma becomes a decimal point |
| Parse.ItemOf | src/lib/parse.ts:56-108 | every item has a currency, USD exactly when the dollar pattern matches the raw line and GTQ otherwise |
| Parse.ParseFreeText | src/lib/parse.ts:112 | no returned group is empty |
| Parse.ParseItemsInOrder | src/lib/parse.ts:42-109 | headings give no item and every other line exactly one: the items of all groups, in order, are the items of the item lines |
| Parse.ParseEmpty | src/lib/parse.ts:36-112 | the parse is empty exactly when no line is an item line, in particular when there is no non-blank line |
| Parse.ParseBlank | src/lib/parse.ts:31-36 | blank input parses to no groups |
| Parse.RunItemLines | src/lib/parse.ts:69-108 | item lines only append their items, in order, to the most recently opened group |
| Parse.HeadingOpensGroup | src/lib/parse.ts:44-54 | a heading with a non-empty title opens a new group that collects the item lines after it |
| Parse.EmptyHeadingSkipped | src/lib/parse.ts:49-53 | a heading whose stripped title is empty is skipped, so later items stay in the current group |
| Parse.RunKeepsFirst | src/lib/parse.ts:38-40 | the implicit first group keeps its title and only grows |
| Parse.FirstGroupIsItems | src/lib/parse.ts:38-40 | when the first line is an item line, the first group is "Items" and starts with that line's item |
| Parse.HeadingShape | src/lib/parse.ts:44 | a trimmed line is a heading exactly when it ends in `:` or `：`, or starts with `#` and a blank |
| Parse.ColonHeadingTitle | src/lib/parse.ts:45-48 | the title of "w:" is w trimmed |
| Items.CleanTidy | src/lib/parse.ts:64-67 | a line with no currency token, no double blank and no blank at either end passes cleaning unchanged |
| Items.MatchTimesShape | src/lib/parse.ts:70-72 | on "d q x p" (one-word d, digits q and p) `times` captures d, q and p |
| Items.MatchTrailShape | src/lib/parse.ts:84-96 | on "d p" (d not starting with a digit) neither `times` nor `lead` matches, and `trail` captures d and p |
| Items.NoPatternMatches | src/lib/parse.ts:70-96 | on two words neither starting with a digit no item pattern matches |
| Items.ItemTimes | src/lib/parse.ts:70-81 | a times line becomes its description, quantity and price |
| Items.ItemTrail | src/lib/parse.ts:96-105 | a "desc price" line gets quantity 1 and that price |
| Items.ItemFallback | src/lib/parse.ts:107-108 | a line no pattern matches keeps its raw text as description, with quantity 1 and no price |
| Items.SillasLine | src/lib/parse.ts:70-81 | "Sillas 100 x 15" is 100 "Sillas" at 15 quetzales |
| Items.MesaLine | src/lib/parse.ts:95-105 | "Mesa 50" is one "Mesa" at 50 quetzales |
| Items.TransporteLine | src/lib/parse.ts:107-108 | "Transporte Q2000" keeps its whole text as description, quantity 1 and no price |
| Editor.AddGroup | src/app/create/page.tsx:44-47 | one empty group "Nuevo grupo" is appended and the existing groups are unchanged |
| Editor.AddGroupUndo | src/app/create/page.tsx:44-59 | removing the group just added gives the invoice back |
| Editor.RenameGroup | src/app/create/page.tsx:48-53 | only the title of group gi changes |
| Editor.RemoveGroup | src/app/create/page.tsx:54-59 | group gi is removed and the others keep their order; an index out of range changes nothing |
| Editor.AddItem | src/app/create/page.tsx:62-75 | the default item (qty 1, "Nuevo ítem", Q0) is appended to group gi only |
| Editor.AddItemUndo | src/app/create/page.tsx:62-96 | removing the item just added gives the invoice back |
| Editor.AddItemCount | src/app/create/page.tsx:62-75 | adding an item grows the invoice by exactly one item when the group exists, and none otherwise |
| Editor.UpdateItem | src/app/create/page.tsx:76-88 | only item ii of group gi changes, to the patched item |
| Editor.PatchLaws | src/app/create/page.tsx:83 | an empty patch changes nothing and a patch applied twice is the same as once |
| Editor.RemoveItem | src/app/create/page.tsx:89-96 | only item ii of group gi is removed |
| Editor.RemoveItemCount | src/app/create/page.tsx:89-96 | removing takes away exactly one item when both indices exist, and none otherwise |
| Editor.FindTitle | src/app/create/page.tsx:105-107 | the index found is the first group whose title key matches, and none is found only when no group matches |
| Editor.ApplyParsed | src/app/create/page.tsx:99-101 | text that parses to no group leaves the invoice and the id counter unchanged |
| Editor.MergeGroupSpec | src/app/create/page.tsx:104-119 | merging one parsed group keeps every existing group in place, adds exactly its items, with fresh ids, at the end of the group that answers to its title; a matching title adds no group, and otherwise exactly one group with the parsed title and a fresh id is appended last |
| Editor.MergeGroupContents | src/app/create/page.tsx:104-119 | ids aside, one merge adds the items the parsed group describes (quantity 1, price 0 and quetzales by default) and no others |
| Editor.MergeAllSpec | src/app/create/page.tsx:104-120 | merging all parsed groups keeps every existing group and item in place; ids aside, the items afterwards are the items before together with the parsed items, counted with repetition |
| Editor.ApplyParsedSpec | src/app/create/page.tsx:99-122 | applying parsed text keeps every group and its items in place, grows the item count by exactly the number of parsed items, and, ids aside, adds exactly the parsed items |
| Editor.MergeSameTitle | src/app/create/page.tsx:105-119 | two parsed groups whose titles agree once trimmed and lower-cased and that match no existing group end up in one new group, in order |
| Editor.MoveMultiset | src/app/create/page.tsx:145-146 | a splice move is a permutation |
| Editor.MoveBack | src/app/create/page.tsx:145-146 | moving back undoes a move |
| Editor.MoveRest | src/app/create/page.tsx:145-146 | with the moved element taken out the others are in their old order |
| Editor.IndexOf | src/app/create/page.tsx:140-141 | the first index of the id, or -1 exactly when it is absent |
| Editor.OnDragEnd | src/app/create/page.tsx:131-133 | no drop target, or a drop on itself, changes nothing; no drag changes the number of groups |
| Editor.DragGroup | src/app/create/page.tsx:136-149 | dropping one group on another puts it at the other's place and keeps the rest in order |
| Editor.DecodePair | src/app/create/page.tsx:153-158 | an item drag id "g::i" decodes to the group and item ids |
| Editor.DragWithinGroup | src/app/create/page.tsx:152-172 | dropping an item on another of its group moves it to that place, keeps the other items in order and changes no other group |
| Editor.DragAcrossGroups | src/app/create/page.tsx:156-159 | dropping an item on an item of another group changes nothing |
| Editor.DragUnknownGroup | src/app/create/page.tsx:159-166 | the model's chosen outcome where the source throws: item ids whose group names no group leave the invoice unchanged |
| Editor.DragItemFrame | src/app/create/page.tsx:152-172 | the item drag keeps every group's id and title and every group's items up to order |
| Editor.DragKeepsItems | src/app/create/page.tsx:131-173 | no drag adds, loses or duplicates an item |
| Rows.NormalizeRowsSpec | src/app/app/page.tsx:57-65 | normalising keeps the rows, their order and every column; only a missing status becomes "draft" |
| Rows.NormalizeRowsRoundTrip | src/app/app/page.tsx:57-65 | rows with their status present normalise back to themselves |
| Rows.StatusLabels | src/app/app/page.tsx:25-30 | every status has its own label and the label gives the status back |
| Rows.DisplayTitle | src/app/app/page.tsx:86-90 | the title is never empty and never starts or ends with a blank |
| Rows.DisplayTitleChain | src/app/app/page.tsx:86-89 | the title is the trimmed event name, else client name, else number, each used only when non-blank |
| Rows.DisplayTitleUntitled | src/app/app/page.tsx:90 | with all three null or blank the title is "Sin título" |

## Left out

- Floating point: amounts, quantities and rates are reals. `toFixed(2)` and
  `String(x)` for non-integers are parameters of the layout, and `Math.round`
  is `floor(x + 0.5)` on reals.
- Format.HexToRgb: reads `parseInt(m, 16)` as an exact integer and takes it
  modulo 2^32 before splitting it into bytes. The source gets a double, which
  is exact only up to 2^53 (13 hex digits). Beyond that it is rounded before
  `>>` and `&` apply ToInt32. From about 256 digits it is `Infinity`, which
  ToInt32 turns into 0. So "#ffffffffffffffff" is (0, 0, 0) in the source
  (2^64 after rounding) and (255, 255, 255) in the model. The hex lemmas
  cover six digits or fewer, where the two agree.
- `parseFloat`: exponents, `Infinity` and the `isFinite` test of `toNum` are
  not modelled. The model reads only digits with an optional fraction, as an
  exact real. A run of about 310 or more digits overflows to `Infinity` in
  the source, and `toNum` then returns `undefined`
  (src/lib/parse.ts:14-15). The model reads such a run as a large real.
- pdf-lib: rectangles, images, colours, fonts and `pdf.save` are foreign
  library calls. Only text draws enter the trace, and rectangles and images
  only move the cursor. Whether a signature image could be embedded is a
  boolean option.
- `measure` and the font files: text width is an uninterpreted parameter.
- `dataUrlToBytes`, `downloadInvoicePdf` and `openInvoicePdf`: base64
  decoding and browser I/O.
- `uid`: it is random; ids come from a supply function and a counter.
- UTF-16: JavaScript's `length` counts UTF-16 code units and `split("")`
  cuts a string into code units, splitting surrogate pairs. The model counts
  and cuts code points. The two agree only on text within the Basic
  Multilingual Plane. Outside it, `Wrap.WrapWords` (`candidate.length >
  maxChars`), `Wrap.BreakChars` (`token.split("")`) and `Format.ExpandShort`
  (`m.length === 3`) can differ from the source. An emoji counts 1 in the model
  and 2 in the source, so a line the source wraps can stay whole in the model.
- `toLowerCase`: Unicode case mapping is the parameter `lower`, a function
  on whole strings. Mappings that change the length ("İ" to "i̇") or depend
  on context (final sigma) can be expressed with it, and the merge lemmas hold
  for every such function. The `i` flag of the item patterns folds ASCII
  letters only, which is all those patterns can meet.
- Editor.DragUnknownGroup and Editor.DragItem: when the group id of an item
  drag names no group, the source's updater reads `groups[-1]` and throws a
  `TypeError` (src/app/create/page.tsx:163), so it promises no outcome.
  `DragItem` leaves the invoice unchanged instead, and `DragUnknownGroup`
  states that choice.
- Editor.UpdateItem: a `Partial<LineItem>` patch is a record of options. A
  field explicitly set to `undefined` is not distinguished from an absent one.
- Layout: the client address and the due date are read by the layout but are
  not declared by the schema. They are passed separately as `Extras`.
- The status chip styles and `toLocaleString` of the creation date in the
  invoice list are presentation only.
- Parse.ToNumGrouped: states that "a.b,c" reads as "ab,c" does, not the number
  itself. `Parse.ToNumComma` gives that number.
- Items: the whole-line lemmas cover one-word descriptions and quantities and
  prices written as plain digits. Longer descriptions and decimal numbers are
  covered by the `Patterns` search lemmas only.
- Authentication, persistence, the React components, dnd-kit wiring,
  react-pdf rendering and the constant texts of the defaults file have no logic
  to model. This includes the `setQuickText("")` that clears the text box after
  `applyParsedText`, which is UI state outside the invoice.

=== FILE: editor.dfy ===
/** The state transitions of the invoice editor: adding, renaming and removing
    groups, adding, patching and removing items, merging parsed free text into
    the groups, and drag-and-drop reordering. Each is a pure function from the
    invoice before to the invoice after. New ids come from `uid`, a supply of
    fresh strings indexed by a counter the caller threads through. */
module Editor {
  import opened Wrappers
  import opened Text
  import opened Schema
  import opened Parse
  import Totals

  // ---------------------------------------------------------------------------
  // sequence helpers: `map` with one index changed, `filter` of one index

  /** `s.map((x, i) => i === k ? f(x) : x)`. */
  function MapAt<T>(s: seq<T>, k: int, f: T -> T): (r: seq<T>)
    ensures |r| == |s|
    ensures forall i :: 0 <= i < |s| ==> r[i] == (if i == k then f(s[i]) else s[i])
    decreases |s|
  {
    if |s| == 0 then [] else [if k == 0 then f(s[0]) else s[0]] + MapAt(s[1..], k - 1, f)
  }

  /** `s.filter((_, i) => i !== k)`. */
  function RemoveAt<T>(s: seq<T>, k: int): (r: seq<T>)
    ensures 0 <= k < |s| ==> r == s[..k] + s[k + 1..]
    ensures !(0 <= k < |s|) ==> r == s
    decreases |s|
  {
    if |s| == 0 then []
    else if k == 0 then s[1..]
    else
      var r := [s[0]] + RemoveAt(s[1..], k - 1);
      assert 0 < k < |s| ==> r == s[..k] + s[k + 1..] by {
        if 0 < k < |s| {
          assert s[1..][..k - 1] == s[1..k];
          assert s[1..][k..] == s[k + 1..];
          assert s[..k] == [s[0]] + s[1..k];
        }
      }
      r
  }

  // ---------------------------------------------------------------------------
  // groups

  const NewGroupTitle: string := "Nuevo grupo"

  /** `addGroup()`: one empty group "Nuevo grupo" appended. */
  function AddGroup(inv: Invoice, id: string): (r: Invoice)
    ensures r == inv.(groups := r.groups)
    ensures |r.groups| == |inv.groups| + 1 && r.groups[..|inv.groups|] == inv.groups
    ensures r.groups[|inv.groups|] == Group(id, NewGroupTitle, [])
  {
    inv.(groups := inv.groups + [Group(id, NewGroupTitle, [])])
  }

  /** `renameGroup(gi, title)`: only group `gi` changes, and only its title. */
  function RenameGroup(inv: Invoice, gi: int, title: string): (r: Invoice)
    ensures r == inv.(groups := r.groups) && |r.groups| == |inv.groups|
    ensures forall i :: 0 <= i < |inv.groups| ==>
      r.groups[i] == (if i == gi then inv.groups[i].(title := title) else inv.groups[i])
  {
    inv.(groups := MapAt(inv.groups, gi, (g: Group) => g.(title := title)))
  }

  /** `removeGroup(gi)`: group `gi` removed, the others kept in order. */
  function RemoveGroup(inv: Invoice, gi: int): (r: Invoice)
    ensures r == inv.(groups := r.groups)
    ensures 0 <= gi < |inv.groups| ==> r.groups == inv.groups[..gi] + inv.groups[gi + 1..]
    ensures !(0 <= gi < |inv.groups|) ==> r == inv
  {
    inv.(groups := RemoveAt(inv.groups, gi))
  }

  // ---------------------------------------------------------------------------
  // items

  /** The item `addItem` creates. */
  function NewItem(id: string): LineItem {
    LineItem(id, 1.0, "Nuevo ítem", Money(0.0, GTQ), None)
  }

  /** `addItem(gi)`: a default item appended to group `gi` only. */
  function AddItem(inv: Invoice, gi: int, id: string): (r: Invoice)
    ensures r == inv.(groups := r.groups) && |r.groups| == |inv.groups|
    ensures forall i :: 0 <= i < |inv.groups| ==>
      r.groups[i] == (if i == gi then inv.groups[i].(items := inv.groups[i].items + [NewItem(id)]) else inv.groups[i])
  {
    inv.(groups := MapAt(inv.groups, gi, (g: Group) => g.(items := g.items + [NewItem(id)])))
  }

  /** `Partial<LineItem>`: the fields a patch sets. */
  datatype ItemPatch = ItemPatch(
    id: Option<string>,
    qty: Option<real>,
    desc: Option<string>,
    unit: Option<Money>,
    notes: Option<string>)

  /** `{ ...it, ...patch }`. */
  function Patch(it: LineItem, p: ItemPatch): LineItem {
    LineItem(
      p.id.GetOr(it.id),
      p.qty.GetOr(it.qty),
      p.desc.GetOr(it.desc),
      p.unit.GetOr(it.unit),
      if p.notes.Some? then p.notes else it.notes)
  }

  /** `updateItem(gi, ii, patch)`: only item `ii` of group `gi` changes. */
  function UpdateItem(inv: Invoice, gi: int, ii: int, p: ItemPatch): (r: Invoice)
    ensures r == inv.(groups := r.groups) && |r.groups| == |inv.groups|
    ensures forall i :: 0 <= i < |inv.groups| && i != gi ==> r.groups[i] == inv.groups[i]
    ensures 0 <= gi < |inv.groups| ==>
      var g := inv.groups[gi];
      var g' := r.groups[gi];
      g'.id == g.id && g'.title == g.title && |g'.items| == |g.items|
      && forall j :: 0 <= j < |g.items| ==> g'.items[j] == (if j == ii then Patch(g.items[j], p) else g.items[j])
  {
    inv.(groups := MapAt(inv.groups, gi, (g: Group) => g.(items := MapAt(g.items, ii, (it: LineItem) => Patch(it, p)))))
  }

  /** `removeItem(gi, ii)`: only item `ii` of group `gi` goes. */
  function RemoveItem(inv: Invoice, gi: int, ii: int): (r: Invoice)
    ensures r == inv.(groups := r.groups) && |r.groups| == |inv.groups|
    ensures forall i :: 0 <= i < |inv.groups| && i != gi ==> r.groups[i] == inv.groups[i]
    ensures 0 <= gi < |inv.groups| ==>
      r.groups[gi] == inv.groups[gi].(items := RemoveAt(inv.groups[gi].items, ii))
  {
    inv.(groups := MapAt(inv.groups, gi, (g: Group) => g.(items := RemoveAt(g.items, ii))))
  }

  // ---------------------------------------------------------------------------
  // merging parsed text

  /** The title as the merge compares it: trimmed, then lower-cased by
      `lower`, which stands for `toLowerCase` on whole strings (so it may
      change the length or look at context, as Unicode case mapping does). */
  function TitleKey(lower: string -> string, title: string): string {
    lower(Trim(title))
  }

  /** How a title is compared when merging. */
  type KeyOf = string -> string

  /** `groups.findIndex((x) => key(x.title) === k)`. */
  function FindTitle(gs: seq<Group>, key: KeyOf, k: string): (r: Option<nat>)
    ensures r.Some? ==> r.value < |gs| && key(gs[r.value].title) == k
    ensures r.Some? ==> forall j :: 0 <= j < r.value ==> key(gs[j].title) != k
    ensures r.None? ==> forall j :: 0 <= j < |gs| ==> key(gs[j].title) != k
    decreases |gs|
  {
    if |gs| == 0 then None
    else if key(gs[0].title) == k then Some(0)
    else
      match FindTitle(gs[1..], key, k)
      case None => None
      case Some(i) => Some(i + 1)
  }

  /** The item a parsed item becomes: quantity 1, price 0 and quetzales when
      the parse left them out. */
  function FromParsed(p: ParsedItem, id: string): LineItem {
    LineItem(id, p.qty.GetOr(1.0), p.desc, Money(p.price.GetOr(0.0), p.currency.GetOr(GTQ)), None)
  }

  /** The parsed items as line items, the `j`-th with id `uid(k + j)`. */
  function FromParsedAll(ps: seq<ParsedItem>, uid: nat -> string, k: nat): (r: seq<LineItem>)
    ensures |r| == |ps|
    ensures forall j :: 0 <= j < |ps| ==> r[j] == FromParsed(ps[j], uid(k + j))
  {
    seq(|ps|, j requires 0 <= j < |ps| => FromParsed(ps[j], uid(k + j)))
  }

  /** One parsed group merged into the groups: its items go to the end of
      the first group with the same key, or into a new group appended at the
      end. Returns the groups and the next unused id index. */
  function MergeGroup(gs: seq<Group>, p: ParsedGroup, key: KeyOf, uid: nat -> string, k: nat): (r: (seq<Group>, nat))
  {
    match FindTitle(gs, key, key(p.title))
    case Some(gi) =>
      (gs[gi := gs[gi].(items := gs[gi].items + FromParsedAll(p.items, uid, k))], k + |p.items|)
    case None =>
      (gs + [Group(uid(k), p.title, FromParsedAll(p.items, uid, k + 1))], k + 1 + |p.items|)
  }

  function MergeAll(gs: seq<Group>, ps: seq<ParsedGroup>, key: KeyOf, uid: nat -> string, k: nat): (r: (seq<Group>, nat))
    decreases |ps|
  {
    if |ps| == 0 then (gs, k)
    else
      var (gs', k') := MergeGroup(gs, ps[0], key, uid, k);
      MergeAll(gs', ps[1..], key, uid, k')
  }

  /** `applyParsedText()`: nothing happens when the text parses to no group;
      otherwise every parsed group is merged in order. */
  function ApplyParsed(inv: Invoice, text: string, lower: string -> string, uid: nat -> string, k: nat): (r: (Invoice, nat))
    ensures ParseFreeText(text) == [] ==> r == (inv, k)
    ensures r.0 == inv.(groups := r.0.groups)
  {
    var ps := ParseFreeText(text);
    if |ps| == 0 then (inv, k)
    else
      var (gs, k') := MergeAll(inv.groups, ps, (t: string) => TitleKey(lower, t), uid, k);
      (inv.(groups := gs), k')
  }

  // ---------------------------------------------------------------------------
  // drag and drop

  /** `const [moved] = s.splice(from, 1); s.splice(to, 0, moved)`. */
  function Move<T>(s: seq<T>, from: nat, to: nat): (r: seq<T>)
    requires from < |s| && to < |s|
    ensures |r| == |s| && r[to] == s[from]
  {
    var rest := s[..from] + s[from + 1..];
    rest[..to] + [s[from]] + rest[to..]
  }

  /** `ids.indexOf(x)`: the first index, or -1. */
  function IndexOf(ids: seq<string>, x: string): (r: int)
    ensures -1 <= r < |ids|
    ensures r >= 0 ==> ids[r] == x && forall j :: 0 <= j < r ==> ids[j] != x
    ensures r == -1 ==> x !in ids
    decreases |ids|
  {
    if |ids| == 0 then -1
    else if ids[0] == x then 0
    else
      var i := IndexOf(ids[1..], x);
      if i < 0 then -1 else i + 1
  }

  /** `s.map(id)`: the ids of groups or of items, in order. */
  function Ids<T>(s: seq<T>, id: T -> string): (r: seq<string>)
    ensures |r| == |s| && forall i :: 0 <= i < |s| ==> r[i] == id(s[i])
  {
    seq(|s|, i requires 0 <= i < |s| => id(s[i]))
  }

  function GroupId(g: Group): string { g.id }

  function ItemId(it: LineItem): string { it.id }

  /** `id.includes("::")`. */
  predicate HasPair(id: string) {
    exists i :: 0 <= i < |id| - 1 && id[i] == ':' && id[i + 1] == ':'
  }

  /** `const [g, i] = id.split("::")`: the group id and, when there is one,
      the item id. */
  function Decode(id: string): (string, Option<string>) {
    var parts := Split(id, DoubleColon);
    (parts[0], if |parts| >= 2 then Some(parts[1]) else None)
  }

  /** The item branch of `onDragEnd`: both ids name items of the same group,
      and the item dropped on moves to where the other one was. A group id
      that names no group is left without effect. */
  function DragItem(inv: Invoice, a: string, b: string): (r: Invoice)
    ensures r == inv.(groups := r.groups) && |r.groups| == |inv.groups|
  {
    var (gA, iA) := Decode(a);
    var (gB, iB) := Decode(b);
    if gA != gB || iA.None? || iB.None? then inv
    else
      var gi := IndexOf(Ids(inv.groups, GroupId), gA);
      if gi < 0 then inv
      else
        var items := inv.groups[gi].items;
        var from := IndexOf(Ids(items, ItemId), iA.value);
        var to := IndexOf(Ids(items, ItemId), iB.value);
        if from < 0 || to < 0 || from == to then inv
        else inv.(groups := inv.groups[gi := inv.groups[gi].(items := Move(items, from, to))])
  }

  /** `onDragEnd({ active, over })`. */
  function OnDragEnd(inv: Invoice, active: string, over: Option<string>): (r: Invoice)
    ensures over.None? || over.value == active ==> r == inv
    ensures r == inv.(groups := r.groups) && |r.groups| == |inv.groups|
  {
    if over.None? || active == over.value then inv
    else
      var ids := Ids(inv.groups, GroupId);
      var b := over.value;
      if active in ids && b in ids then
        var from := IndexOf(ids, active);
        var to := IndexOf(ids, b);
        if from == to then inv else inv.(groups := Move(inv.groups, from, to))
      else if HasPair(active) && HasPair(b) then DragItem(inv, active, b)
      else inv
  }

  // ---------------------------------------------------------------------------
  // lemmas: undo, counts and frames

  /** Removing the group just added gives the invoice back. */
  lemma AddGroupUndo(inv: Invoice, id: string)
    ensures RemoveGroup(AddGroup(inv, id), |inv.groups|) == inv
  {
    var gs := AddGroup(inv, id).groups;
    assert gs[..|inv.groups|] + gs[|inv.groups| + 1..] == inv.groups;
  }

  lemma {:induction false} MapAtInRange<T>(s: seq<T>, k: int, f: T -> T)
    requires 0 <= k < |s|
    ensures MapAt(s, k, f) == s[k := f(s[k])]
    decreases |s|
  {
    if k > 0 {
      MapAtInRange(s[1..], k - 1, f);
      assert s[k := f(s[k])] == [s[0]] + s[1..][k - 1 := f(s[k])];
    }
  }

  lemma MapAtOutOfRange<T>(s: seq<T>, k: int, f: T -> T)
    requires !(0 <= k < |s|)
    ensures MapAt(s, k, f) == s
  {
  }

  /** Removing the item just added gives the invoice back. */
  lemma AddItemUndo(inv: Invoice, gi: int, id: string)
    requires 0 <= gi < |inv.groups|
    ensures RemoveItem(AddItem(inv, gi, id), gi, |inv.groups[gi].items|) == inv
  {
    var a := AddItem(inv, gi, id);
    var r := RemoveItem(a, gi, |inv.groups[gi].items|);
    var items := inv.groups[gi].items;
    assert (items + [NewItem(id)])[..|items|] == items;
    assert r.groups[gi] == inv.groups[gi];
    assert r.groups == inv.groups;
  }

  /** Replacing one group changes the number of items by the difference of
      the two groups' item counts. */
  lemma {:induction false} CountUpdate(gs: seq<Group>, i: nat, g: Group)
    requires i < |gs|
    ensures |Totals.AllItems(gs[i := g])| + |gs[i].items| == |Totals.AllItems(gs)| + |g.items|
    decreases |gs|
  {
    if i > 0 {
      assert gs[i := g][1..] == gs[1..][i - 1 := g];
      CountUpdate(gs[1..], i - 1, g);
    } else {
      assert gs[i := g][1..] == gs[1..];
    }
  }

  /** `addItem` adds exactly one item to the invoice when the group exists,
      and none otherwise. */
  lemma AddItemCount(inv: Invoice, gi: int, id: string)
    ensures |Totals.AllItems(AddItem(inv, gi, id).groups)|
      == |Totals.AllItems(inv.groups)| + (if 0 <= gi < |inv.groups| then 1 else 0)
  {
    var f := (g: Group) => g.(items := g.items + [NewItem(id)]);
    if 0 <= gi < |inv.groups| {
      MapAtInRange(inv.groups, gi, f);
      CountUpdate(inv.groups, gi, f(inv.groups[gi]));
    } else {
      MapAtOutOfRange(inv.groups, gi, f);
    }
  }

  /** `removeItem` takes exactly one item away when both indices exist, and
      none otherwise. */
  lemma RemoveItemCount(inv: Invoice, gi: int, ii: int)
    ensures |Totals.AllItems(RemoveItem(inv, gi, ii).groups)|
      == |Totals.AllItems(inv.groups)| - (if 0 <= gi < |inv.groups| && 0 <= ii < |inv.groups[gi].items| then 1 else 0)
  {
    var f := (g: Group) => g.(items := RemoveAt(g.items, ii));
    if 0 <= gi < |inv.groups| {
      MapAtInRange(inv.groups, gi, f);
      CountUpdate(inv.groups, gi, f(inv.groups[gi]));
    } else {
      MapAtOutOfRange(inv.groups, gi, f);
    }
  }

  /** An empty patch changes nothing, and applying a patch twice is the same
      as applying it once. */
  lemma PatchLaws(it: LineItem, p: ItemPatch)
    ensures Patch(it, ItemPatch(None, None, None, None, None)) == it
    ensures Patch(Patch(it, p), p) == Patch(it, p)
  {
  }

  // ---------------------------------------------------------------------------
  // lemmas: merging parsed text

  lemma {:induction false} AllItemsAppend(a: seq<Group>, b: seq<Group>)
    ensures Totals.AllItems(a + b) == Totals.AllItems(a) + Totals.AllItems(b)
    decreases |a|
  {
    if |a| > 0 {
      assert (a + b)[1..] == a[1..] + b;
      AllItemsAppend(a[1..], b);
    } else {
      assert a + b == b;
    }
  }

  /** The groups `gs` had keep their place, id and title in `gs'`, and their
      items are a prefix of the items they have there. */
  predicate Extends(gs: seq<Group>, gs': seq<Group>) {
    |gs| <= |gs'| && forall i :: 0 <= i < |gs| ==>
      gs'[i].id == gs[i].id && gs'[i].title == gs[i].title && gs[i].items <= gs'[i].items
  }

  /** `findIndex` only looks at titles. */
  lemma {:induction false} FindTitleTitles(a: seq<Group>, b: seq<Group>, key: KeyOf, k: string)
    requires |a| == |b| && forall i :: 0 <= i < |a| ==> a[i].title == b[i].title
    ensures FindTitle(a, key, k) == FindTitle(b, key, k)
    decreases |a|
  {
    if |a| > 0 {
      FindTitleTitles(a[1..], b[1..], key, k);
    }
  }

  /** A group appended after no match is found first by its own key. */
  lemma {:induction false} FindTitleSnoc(gs: seq<Group>, g: Group, key: KeyOf, k: string)
    requires FindTitle(gs, key, k).None?
    ensures FindTitle(gs + [g], key, k) == if key(g.title) == k then Some(|gs|) else None
    decreases |gs|
  {
    if |gs| > 0 {
      assert (gs + [g])[1..] == gs[1..] + [g];
      FindTitleSnoc(gs[1..], g, key, k);
    } else {
      assert gs + [g] == [g];
    }
  }

  /** An item's content: the item with its id left out. */
  function Content(it: LineItem): LineItem { it.(id := "") }

  /** The contents of some items, counted with repetition. */
  function Contents(items: seq<LineItem>): (r: multiset<LineItem>)
    ensures |r| == |items|
    decreases |items|
  {
    if |items| == 0 then multiset{} else multiset{Content(items[0])} + Contents(items[1..])
  }

  /** The contents the parsed items become, whatever ids they are given. */
  function ParsedContents(ps: seq<ParsedItem>): (r: multiset<LineItem>)
    ensures |r| == |ps|
    decreases |ps|
  {
    if |ps| == 0 then multiset{} else multiset{FromParsed(ps[0], "")} + ParsedContents(ps[1..])
  }

  lemma {:induction false} ContentsAppend(a: seq<LineItem>, b: seq<LineItem>)
    ensures Contents(a + b) == Contents(a) + Contents(b)
    decreases |a|
  {
    if |a| > 0 {
      assert (a + b)[1..] == a[1..] + b;
      ContentsAppend(a[1..], b);
    } else {
      assert a + b == b;
    }
  }

  lemma {:induction false} ParsedContentsAppend(a: seq<ParsedItem>, b: seq<ParsedItem>)
    ensures ParsedContents(a + b) == ParsedContents(a) + ParsedContents(b)
    decreases |a|
  {
    if |a| > 0 {
      assert (a + b)[1..] == a[1..] + b;
      ParsedContentsAppend(a[1..], b);
    } else {
      assert a + b == b;
    }
  }

  /** Fresh ids aside, the items made from a parse are its parsed contents. */
  lemma {:induction false} FromParsedContents(ps: seq<ParsedItem>, uid: nat -> string, k: nat)
    ensures Contents(FromParsedAll(ps, uid, k)) == ParsedContents(ps)
    decreases |ps|
  {
    if |ps| > 0 {
      var r := FromParsedAll(ps, uid, k);
      assert r[1..] == FromParsedAll(ps[1..], uid, k + 1);
      FromParsedContents(ps[1..], uid, k + 1);
    }
  }

  /** Appending items to one group adds their contents to the invoice's. */
  lemma ContentsAppendToGroup(gs: seq<Group>, gi: nat, extra: seq<LineItem>)
    requires gi < |gs|
    ensures Contents(Totals.AllItems(gs[gi := gs[gi].(items := gs[gi].items + extra)]))
      == Contents(Totals.AllItems(gs)) + Contents(extra)
  {
    var g' := gs[gi].(items := gs[gi].items + extra);
    SplitAt(gs, gi);
    assert gs[gi := g'] == gs[..gi] + [g'] + gs[gi + 1..];
    AllItemsAround(gs[..gi], gs[gi], gs[gi + 1..]);
    AllItemsAround(gs[..gi], g', gs[gi + 1..]);
    var a := Totals.AllItems(gs[..gi]);
    var b := Totals.AllItems(gs[gi + 1..]);
    ContentsAppend(a + gs[gi].items, b);
    ContentsAppend(a, gs[gi].items);
    ContentsAppend(a + g'.items, b);
    ContentsAppend(a, g'.items);
    ContentsAppend(gs[gi].items, extra);
  }

  /** Appending a new group adds its items' contents to the invoice's. */
  lemma ContentsAppendGroup(gs: seq<Group>, g: Group)
    ensures Contents(Totals.AllItems(gs + [g])) == Contents(Totals.AllItems(gs)) + Contents(g.items)
  {
    AllItemsAppend(gs, [g]);
    assert Totals.AllItems([g]) == g.items + Totals.AllItems([]);
    assert g.items + [] == g.items;
    ContentsAppend(Totals.AllItems(gs), g.items);
  }

  /** One merge adds the contents of the parsed items and nothing else. */
  lemma MergeGroupContents(gs: seq<Group>, p: ParsedGroup, key: KeyOf, uid: nat -> string, k: nat)
    ensures Contents(Totals.AllItems(MergeGroup(gs, p, key, uid, k).0))
      == Contents(Totals.AllItems(gs)) + ParsedContents(p.items)
  {
    var r := MergeGroup(gs, p, key, uid, k);
    match FindTitle(gs, key, key(p.title))
    case Some(gi) =>
      var added := FromParsedAll(p.items, uid, k);
      assert r.0 == gs[gi := gs[gi].(items := gs[gi].items + added)];
      ContentsAppendToGroup(gs, gi, added);
      FromParsedContents(p.items, uid, k);
    case None =>
      var g := Group(uid(k), p.title, FromParsedAll(p.items, uid, k + 1));
      assert r.0 == gs + [g];
      ContentsAppendGroup(gs, g);
      FromParsedContents(p.items, uid, k + 1);
  }

  /** Merging every parsed group adds the contents of every parsed item and
      nothing else. */
  lemma {:induction false} MergeAllContents(gs: seq<Group>, ps: seq<ParsedGroup>, key: KeyOf, uid: nat -> string, k: nat)
    ensures Contents(Totals.AllItems(MergeAll(gs, ps, key, uid, k).0))
      == Contents(Totals.AllItems(gs)) + ParsedContents(Flatten(ps))
    decreases |ps|
  {
    if |ps| > 0 {
      var m := MergeGroup(gs, ps[0], key, uid, k);
      MergeGroupContents(gs, ps[0], key, uid, k);
      MergeAllContents(m.0, ps[1..], key, uid, m.1);
      assert Flatten(ps) == ps[0].items + Flatten(ps[1..]);
      ParsedContentsAppend(ps[0].items, Flatten(ps[1..]));
    }
  }

  /** A matching title adds no group; otherwise exactly one group, with the
      parsed title and a fresh id, is appended last. */
  lemma MergeGroupShape(gs: seq<Group>, p: ParsedGroup, key: KeyOf, uid: nat -> string, k: nat)
    ensures FindTitle(gs, key, key(p.title)).Some? ==> |MergeGroup(gs, p, key, uid, k).0| == |gs|
    ensures FindTitle(gs, key, key(p.title)).None? ==>
      MergeGroup(gs, p, key, uid, k).0 == gs + [Group(uid(k), p.title, FromParsedAll(p.items, uid, k + 1))]
  {
  }

  /** One merge keeps every existing group, adds exactly the parsed items,
      uses at least one fresh id per item, and leaves them at the end of the
      group that now answers to the parsed title. A matching title adds no
      group; otherwise exactly one group, with the parsed title, is appended
      last. */
  lemma MergeGroupSpec(gs: seq<Group>, p: ParsedGroup, key: KeyOf, uid: nat -> string, k: nat)
    ensures var r := MergeGroup(gs, p, key, uid, k);
      Extends(gs, r.0)
      && |Totals.AllItems(r.0)| == |Totals.AllItems(gs)| + |p.items|
      && r.1 >= k + |p.items|
    ensures var r := MergeGroup(gs, p, key, uid, k);
      var gi := FindTitle(r.0, key, key(p.title));
      gi.Some? && r.0[gi.value].items == r.0[gi.value].items[..|r.0[gi.value].items| - |p.items|] + FromParsedAll(p.items, uid, r.1 - |p.items|)
    ensures FindTitle(gs, key, key(p.title)).Some? ==> |MergeGroup(gs, p, key, uid, k).0| == |gs|
    ensures FindTitle(gs, key, key(p.title)).None? ==>
      MergeGroup(gs, p, key, uid, k).0 == gs + [Group(uid(k), p.title, FromParsedAll(p.items, uid, k + 1))]
  {
    MergeGroupShape(gs, p, key, uid, k);
    if FindTitle(gs, key, key(p.title)).Some? {
      MergeGroupSpecMatched(gs, p, key, uid, k);
    } else {
      MergeGroupSpecUnmatched(gs, p, key, uid, k);
    }
  }

  lemma MergeGroupSpecMatched(gs: seq<Group>, p: ParsedGroup, key: KeyOf, uid: nat -> string, k: nat)
    requires FindTitle(gs, key, key(p.title)).Some?
    ensures var r := MergeGroup(gs, p, key, uid, k);
      Extends(gs, r.0)
      && |Totals.AllItems(r.0)| == |Totals.AllItems(gs)| + |p.items|
      && r.1 >= k + |p.items|
    ensures var r := MergeGroup(gs, p, key, uid, k);
      var gi := FindTitle(r.0, key, key(p.title));
      gi.Some? && r.0[gi.value].items == r.0[gi.value].items[..|r.0[gi.value].items| - |p.items|] + FromParsedAll(p.items, uid, r.1 - |p.items|)
  {
    var gi := FindTitle(gs, key, key(p.title)).value;
    var added := FromParsedAll(p.items, uid, k);
    assert MergeGroup(gs, p, key, uid, k) == (gs[gi := gs[gi].(items := gs[gi].items + added)], k + |p.items|);
    MergeMatched(gs, gi, added, key, key(p.title));
  }

  lemma MergeGroupSpecUnmatched(gs: seq<Group>, p: ParsedGroup, key: KeyOf, uid: nat -> string, k: nat)
    requires FindTitle(gs, key, key(p.title)).None?
    ensures var r := MergeGroup(gs, p, key, uid, k);
      Extends(gs, r.0)
      && |Totals.AllItems(r.0)| == |Totals.AllItems(gs)| + |p.items|
      && r.1 >= k + |p.items|
    ensures var r := MergeGroup(gs, p, key, uid, k);
      var gi := FindTitle(r.0, key, key(p.title));
      gi.Some? && r.0[gi.value].items == r.0[gi.value].items[..|r.0[gi.value].items| - |p.items|] + FromParsedAll(p.items, uid, r.1 - |p.items|)
  {
    MergeUnmatchedFrame(gs, p, key, uid, k);
    MergeUnmatchedTarget(gs, p, key, uid, k);
  }

  lemma MergeUnmatchedFrame(gs: seq<Group>, p: ParsedGroup, key: KeyOf, uid: nat -> string, k: nat)
    requires FindTitle(gs, key, key(p.title)).None?
    ensures var r := MergeGroup(gs, p, key, uid, k);
      Extends(gs, r.0)
      && |Totals.AllItems(r.0)| == |Totals.AllItems(gs)| + |p.items|
      && r.1 >= k + |p.items|
  {
    var g := Group(uid(k), p.title, FromParsedAll(p.items, uid, k + 1));
    assert MergeGroup(gs, p, key, uid, k) == (gs + [g], k + 1 + |p.items|);
    MergeUnmatched(gs, g, key);
  }

  lemma MergeUnmatchedTarget(gs: seq<Group>, p: ParsedGroup, key: KeyOf, uid: nat -> string, k: nat)
    requires FindTitle(gs, key, key(p.title)).None?
    ensures var r := MergeGroup(gs, p, key, uid, k);
      var gi := FindTitle(r.0, key, key(p.title));
      gi.Some? && r.0[gi.value].items == r.0[gi.value].items[..|r.0[gi.value].items| - |p.items|] + FromParsedAll(p.items, uid, r.1 - |p.items|)
  {
    var added := FromParsedAll(p.items, uid, k + 1);
    var g := Group(uid(k), p.title, added);
    var r := MergeGroup(gs, p, key, uid, k);
    assert r.0 == gs + [g] && r.1 - |p.items| == k + 1;
    MergeUnmatched(gs, g, key);
    assert FindTitle(r.0, key, key(p.title)) == Some(|gs|);
    assert r.0[|gs|].items == r.0[|gs|].items[..0] + added;
  }

  /** Items appended to the group that answers to the key: the groups are
      extended, and that group still answers first and ends with them. */
  lemma MergeMatched(gs: seq<Group>, gi: nat, added: seq<LineItem>, key: KeyOf, t: string)
    requires FindTitle(gs, key, t) == Some(gi)
    ensures var gs' := gs[gi := gs[gi].(items := gs[gi].items + added)];
      Extends(gs, gs')
      && |Totals.AllItems(gs')| == |Totals.AllItems(gs)| + |added|
      && FindTitle(gs', key, t) == Some(gi)
      && gs'[gi].items == gs'[gi].items[..|gs'[gi].items| - |added|] + added
  {
    var g' := gs[gi].(items := gs[gi].items + added);
    var gs' := gs[gi := g'];
    CountUpdate(gs, gi, g');
    FindTitleTitles(gs, gs', key, t);
    assert g'.items[..|g'.items| - |added|] == gs[gi].items;
  }

  /** A group appended when no title matches: the groups are extended, and
      the new group is the one that answers to its key, holding its items. */
  lemma MergeUnmatched(gs: seq<Group>, g: Group, key: KeyOf)
    requires FindTitle(gs, key, key(g.title)).None?
    ensures Extends(gs, gs + [g])
      && |Totals.AllItems(gs + [g])| == |Totals.AllItems(gs)| + |g.items|
      && FindTitle(gs + [g], key, key(g.title)) == Some(|gs|)
      && (gs + [g])[|gs|].items == (gs + [g])[|gs|].items[..|g.items| - |g.items|] + g.items
  {
    AllItemsAppend(gs, [g]);
    assert Totals.AllItems([g]) == g.items + Totals.AllItems([]);
    FindTitleSnoc(gs, g, key, key(g.title));
    assert g.items[..0] + g.items == g.items;
  }

  /** Merging every parsed group keeps every existing group and adds exactly
      the parsed items, one fresh id at least for each: ids aside, the items
      afterwards are the items before together with the parsed ones. */
  lemma {:induction false} MergeAllSpec(gs: seq<Group>, ps: seq<ParsedGroup>, key: KeyOf, uid: nat -> string, k: nat)
    ensures var r := MergeAll(gs, ps, key, uid, k);
      Extends(gs, r.0)
      && |Totals.AllItems(r.0)| == |Totals.AllItems(gs)| + |Flatten(ps)|
      && r.1 >= k + |Flatten(ps)|
    ensures Contents(Totals.AllItems(MergeAll(gs, ps, key, uid, k).0))
      == Contents(Totals.AllItems(gs)) + ParsedContents(Flatten(ps))
    decreases |ps|
  {
    MergeAllContents(gs, ps, key, uid, k);
    if |ps| > 0 {
      var m := MergeGroup(gs, ps[0], key, uid, k);
      MergeGroupSpec(gs, ps[0], key, uid, k);
      MergeAllSpec(m.0, ps[1..], key, uid, m.1);
      var r := MergeAll(m.0, ps[1..], key, uid, m.1);
      assert Flatten(ps) == ps[0].items + Flatten(ps[1..]);
      forall i | 0 <= i < |gs|
        ensures r.0[i].id == gs[i].id && r.0[i].title == gs[i].title && gs[i].items <= r.0[i].items
      {
        assert gs[i].items <= m.0[i].items;
      }
    }
  }

  /** `applyParsedText` keeps every group the invoice had, in place and with
      its items first, and adds exactly the items the text parses to. */
  lemma ApplyParsedSpec(inv: Invoice, text: string, lower: string -> string, uid: nat -> string, k: nat)
    ensures var r := ApplyParsed(inv, text, lower, uid, k);
      Extends(inv.groups, r.0.groups)
      && |Totals.AllItems(r.0.groups)| == |Totals.AllItems(inv.groups)| + |Flatten(ParseFreeText(text))|
    ensures Contents(Totals.AllItems(ApplyParsed(inv, text, lower, uid, k).0.groups))
      == Contents(Totals.AllItems(inv.groups)) + ParsedContents(Flatten(ParseFreeText(text)))
  {
    var ps := ParseFreeText(text);
    if |ps| > 0 {
      MergeAllSpec(inv.groups, ps, (t: string) => TitleKey(lower, t), uid, k);
    }
  }

  /** Two parsed groups whose titles agree once trimmed and lower-cased, and
      that match no existing group, end up in one new group. */
  lemma MergeSameTitle(gs: seq<Group>, p: ParsedGroup, q: ParsedGroup, key: KeyOf, uid: nat -> string, k: nat)
    requires FindTitle(gs, key, key(p.title)).None? && key(q.title) == key(p.title)
    ensures MergeAll(gs, [p, q], key, uid, k).0
      == gs + [Group(uid(k), p.title, FromParsedAll(p.items, uid, k + 1) + FromParsedAll(q.items, uid, k + 1 + |p.items|))]
  {
    var g := Group(uid(k), p.title, FromParsedAll(p.items, uid, k + 1));
    var m := MergeGroup(gs, p, key, uid, k);
    assert m == (gs + [g], k + 1 + |p.items|);
    FindTitleSnoc(gs, g, key, key(p.title));
    assert [p, q][1..] == [q];
    assert MergeAll(gs, [p, q], key, uid, k) == MergeAll(m.0, [q], key, uid, m.1);
    var g' := g.(items := g.items + FromParsedAll(q.items, uid, m.1));
    var m2 := MergeGroup(m.0, q, key, uid, m.1);
    assert (gs + [g])[|gs|] == g;
    assert m2.0 == (gs + [g])[|gs| := g'];
    assert (gs + [g])[|gs| := g'] == gs + [g'];
    assert [q][1..] == [];
    assert MergeAll(m.0, [q], key, uid, m.1) == MergeAll(m2.0, [], key, uid, m2.1);
  }

  // ---------------------------------------------------------------------------
  // lemmas: moving

  /** With the moved element taken out, the others are in their old order. */
  lemma MoveRest<T>(s: seq<T>, from: nat, to: nat)
    requires from < |s| && to < |s|
    ensures RemoveAt(Move(s, from, to), to) == RemoveAt(s, from)
  {
    var rest := s[..from] + s[from + 1..];
    var r := Move(s, from, to);
    assert r[..to] == rest[..to];
    assert r[to + 1..] == rest[to..];
    assert rest[..to] + rest[to..] == rest;
  }

  /** A move is a permutation. */
  lemma MoveMultiset<T>(s: seq<T>, from: nat, to: nat)
    requires from < |s| && to < |s|
    ensures multiset(Move(s, from, to)) == multiset(s)
  {
    var rest := s[..from] + s[from + 1..];
    var x := s[from];
    assert s == s[..from] + [x] + s[from + 1..];
    assert multiset(s) == multiset(s[..from]) + multiset([x]) + multiset(s[from + 1..]);
    assert multiset(rest) == multiset(s[..from]) + multiset(s[from + 1..]);
    assert rest == rest[..to] + rest[to..];
    assert multiset(rest) == multiset(rest[..to]) + multiset(rest[to..]);
    assert Move(s, from, to) == rest[..to] + [x] + rest[to..];
    assert multiset(Move(s, from, to)) == multiset(rest[..to]) + multiset([x]) + multiset(rest[to..]);
    assert multiset(Move(s, from, to)) == multiset(rest) + multiset([x]);
  }

  /** Moving back undoes a move. */
  lemma MoveBack<T>(s: seq<T>, from: nat, to: nat)
    requires from < |s| && to < |s|
    ensures Move(Move(s, from, to), to, from) == s
  {
    var rest := s[..from] + s[from + 1..];
    var r := Move(s, from, to);
    assert r[..to] + r[to + 1..] == rest by {
      assert r[..to] == rest[..to];
      assert r[to + 1..] == rest[to..];
      assert rest[..to] + rest[to..] == rest;
    }
    assert rest[..from] == s[..from];
    assert rest[from..] == s[from + 1..];
    assert s == s[..from] + [s[from]] + s[from + 1..];
  }

  lemma AllItemsAround(a: seq<Group>, g: Group, b: seq<Group>)
    ensures Totals.AllItems(a + [g] + b) == Totals.AllItems(a) + g.items + Totals.AllItems(b)
  {
    assert a + [g] + b == a + ([g] + b);
    AllItemsAppend(a, [g] + b);
    assert ([g] + b)[1..] == b;
  }

  lemma AllItemsAroundMultiset(a: seq<Group>, g: Group, b: seq<Group>)
    ensures multiset(Totals.AllItems(a + [g] + b)) == multiset(Totals.AllItems(a + b)) + multiset(g.items)
  {
    AllItemsAround(a, g, b);
    AllItemsAppend(a, b);
    var x := Totals.AllItems(a);
    var y := Totals.AllItems(b);
    assert multiset(x + g.items + y) == multiset(x) + multiset(g.items) + multiset(y);
    assert multiset(x + y) == multiset(x) + multiset(y);
  }

  lemma SplitAt<T>(s: seq<T>, i: nat)
    requires i < |s|
    ensures s == s[..i] + [s[i]] + s[i + 1..]
  {
  }

  lemma AllItemsTakeOut(gs: seq<Group>, from: nat)
    requires from < |gs|
    ensures multiset(Totals.AllItems(gs))
      == multiset(Totals.AllItems(gs[..from] + gs[from + 1..])) + multiset(gs[from].items)
  {
    SplitAt(gs, from);
    AllItemsAroundMultiset(gs[..from], gs[from], gs[from + 1..]);
  }

  lemma TakeDrop<T>(s: seq<T>, i: nat)
    requires i <= |s|
    ensures s[..i] + s[i..] == s
  {
  }

  lemma AllItemsPutIn(rest: seq<Group>, to: nat, g: Group)
    requires to <= |rest|
    ensures multiset(Totals.AllItems(rest[..to] + [g] + rest[to..]))
      == multiset(Totals.AllItems(rest)) + multiset(g.items)
  {
    TakeDrop(rest, to);
    AllItemsAroundMultiset(rest[..to], g, rest[to..]);
  }

  lemma AllItemsMove(gs: seq<Group>, from: nat, to: nat)
    requires from < |gs| && to < |gs|
    ensures multiset(Totals.AllItems(Move(gs, from, to))) == multiset(Totals.AllItems(gs))
  {
    var rest := gs[..from] + gs[from + 1..];
    AllItemsTakeOut(gs, from);
    AllItemsPutIn(rest, to, gs[from]);
  }

  lemma {:induction false} AllItemsUpdate(gs: seq<Group>, i: nat, g: Group)
    requires i < |gs| && multiset(g.items) == multiset(gs[i].items)
    ensures multiset(Totals.AllItems(gs[i := g])) == multiset(Totals.AllItems(gs))
    decreases |gs|
  {
    if i > 0 {
      assert gs[i := g][1..] == gs[1..][i - 1 := g];
      AllItemsUpdate(gs[1..], i - 1, g);
    } else {
      assert gs[i := g][1..] == gs[1..];
    }
  }

  // ---------------------------------------------------------------------------
  // lemmas: drag and drop

  /** Dropping one group on another moves it to the other's place and keeps
      the rest in order. */
  lemma DragGroup(inv: Invoice, a: string, b: string)
    requires a != b && a in Ids(inv.groups, GroupId) && b in Ids(inv.groups, GroupId)
    ensures var ids := Ids(inv.groups, GroupId);
      var from := IndexOf(ids, a);
      var to := IndexOf(ids, b);
      var r := OnDragEnd(inv, a, Some(b));
      from >= 0 && to >= 0 && r.groups[to] == inv.groups[from] && r.groups[to].id == a
      && RemoveAt(r.groups, to) == RemoveAt(inv.groups, from)
  {
    var ids := Ids(inv.groups, GroupId);
    MoveRest(inv.groups, IndexOf(ids, a), IndexOf(ids, b));
  }

  /** The item drag keeps every group's id and title and reorders the items
      of at most one group. */
  lemma DragItemFrame(inv: Invoice, a: string, b: string)
    ensures var r := DragItem(inv, a, b);
      forall i :: 0 <= i < |inv.groups| ==>
        r.groups[i].id == inv.groups[i].id && r.groups[i].title == inv.groups[i].title
        && multiset(r.groups[i].items) == multiset(inv.groups[i].items)
  {
    var (gA, iA) := Decode(a);
    var (gB, iB) := Decode(b);
    if gA == gB && iA.Some? && iB.Some? {
      var gi := IndexOf(Ids(inv.groups, GroupId), gA);
      if gi >= 0 {
        var items := inv.groups[gi].items;
        var from := IndexOf(Ids(items, ItemId), iA.value);
        var to := IndexOf(Ids(items, ItemId), iB.value);
        if from >= 0 && to >= 0 && from != to {
          MoveMultiset(items, from, to);
        }
      }
    }
  }

  /** No drag adds, loses or duplicates an item. */
  lemma DragKeepsItems(inv: Invoice, active: string, over: Option<string>)
    ensures multiset(Totals.AllItems(OnDragEnd(inv, active, over).groups)) == multiset(Totals.AllItems(inv.groups))
  {
    if over.Some? && active != over.value {
      var ids := Ids(inv.groups, GroupId);
      var b := over.value;
      if active in ids && b in ids {
        var from := IndexOf(ids, active);
        var to := IndexOf(ids, b);
        if from != to {
          AllItemsMove(inv.groups, from, to);
        }
      } else if HasPair(active) && HasPair(b) {
        var (gA, iA) := Decode(active);
        var (gB, iB) := Decode(b);
        if gA == gB && iA.Some? && iB.Some? {
          var gi := IndexOf(Ids(inv.groups, GroupId), gA);
          if gi >= 0 {
            var items := inv.groups[gi].items;
            var from := IndexOf(Ids(items, ItemId), iA.value);
            var to := IndexOf(Ids(items, ItemId), iB.value);
            if from >= 0 && to >= 0 && from != to {
              MoveMultiset(items, from, to);
              AllItemsUpdate(inv.groups, gi, inv.groups[gi].(items := Move(items, from, to)));
            }
          }
        }
      }
    }
  }

  // ---------------------------------------------------------------------------
  // lemmas: item ids

  lemma {:induction false} SplitAccPlain(s: string, cur: string)
    requires ':' !in s
    ensures SplitAcc(s, cur, DoubleColon) == [cur + s]
    decreases |s|
  {
    if |s| > 0 {
      assert s[0] in s;
      assert MatchLen(DoubleColon, s) == 0;
      assert forall c :: c in s[1..] ==> c in s;
      SplitAccPlain(s[1..], cur + [s[0]]);
      assert s == [s[0]] + s[1..];
      assert (cur + [s[0]]) + s[1..] == cur + s;
      assert SplitAcc(s, cur, DoubleColon) == SplitAcc(s[1..], cur + [s[0]], DoubleColon);
      assert cur + [s[0]] + s[1..] == cur + s;
    } else {
      assert cur + s == cur;
    }
  }

  lemma {:induction false} SplitAccSkip(a: string, rest: string, cur: string)
    requires ':' !in a
    ensures SplitAcc(a + rest, cur, DoubleColon) == SplitAcc(rest, cur + a, DoubleColon)
    decreases |a|
  {
    if |a| > 0 {
      assert (a + rest)[0] == a[0];
      assert (a + rest)[1..] == a[1..] + rest;
      assert a[0] in a;
      assert MatchLen(DoubleColon, a + rest) == 0;
      assert forall c :: c in a[1..] ==> c in a;
      SplitAccSkip(a[1..], rest, cur + [a[0]]);
      assert cur + [a[0]] + a[1..] == cur + a;
    } else {
      assert a + rest == rest && cur + a == cur;
    }
  }

  /** An item's drag id `g::i` decodes to its group and item ids when
      neither holds a colon. */
  lemma DecodePair(g: string, i: string)
    requires ':' !in g && ':' !in i
    ensures HasPair(g + "::" + i)
    ensures Decode(g + "::" + i) == (g, Some(i))
  {
    var s := g + "::" + i;
    assert s[|g|] == ':' && s[|g| + 1] == ':';
    assert s == g + ("::" + i);
    SplitAccSkip(g, "::" + i, "");
    assert "" + g == g;
    assert MatchLen(DoubleColon, "::" + i) == 2;
    assert ("::" + i)[2..] == i;
    SplitAccPlain(i, "");
    assert "" + i == i;
    assert Split(s, DoubleColon) == SplitAcc("::" + i, g, DoubleColon) == [g] + SplitAcc(i, "", DoubleColon) == [g, i];
  }

  /** Dropping item `x` of group `g` on item `y` of the same group, both
      addressed as `g::x` and `g::y`, moves `x` to the place of `y` in that
      group, keeps the others in order, and changes no other group. */
  lemma DragWithinGroup(inv: Invoice, gi: nat, x: string, y: string)
    requires gi < |inv.groups| && IndexOf(Ids(inv.groups, GroupId), inv.groups[gi].id) == gi
    requires ':' !in inv.groups[gi].id && ':' !in x && ':' !in y && x != y
    requires x in Ids(inv.groups[gi].items, ItemId) && y in Ids(inv.groups[gi].items, ItemId)
    requires inv.groups[gi].id + "::" + x !in Ids(inv.groups, GroupId)
    ensures var g := inv.groups[gi];
      var from := IndexOf(Ids(g.items, ItemId), x);
      var to := IndexOf(Ids(g.items, ItemId), y);
      var r := OnDragEnd(inv, g.id + "::" + x, Some(g.id + "::" + y));
      |r.groups| == |inv.groups| && from >= 0 && to >= 0
      && (forall i :: 0 <= i < |inv.groups| && i != gi ==> r.groups[i] == inv.groups[i])
      && r.groups[gi].id == g.id && r.groups[gi].items[to].id == x
      && RemoveAt(r.groups[gi].items, to) == RemoveAt(g.items, from)
  {
    var g := inv.groups[gi];
    var a := g.id + "::" + x;
    var b := g.id + "::" + y;
    DecodePair(g.id, x);
    DecodePair(g.id, y);
    assert a != b by {
      assert a[|g.id| + 2..] == x && b[|g.id| + 2..] == y;
    }
    var from := IndexOf(Ids(g.items, ItemId), x);
    var to := IndexOf(Ids(g.items, ItemId), y);
    MoveRest(g.items, from, to);
  }

  /** Dropping an item on an item of another group changes nothing. */
  lemma DragAcrossGroups(inv: Invoice, g: string, x: string, h: string, y: string)
    requires ':' !in g && ':' !in x && ':' !in h && ':' !in y && g != h
    ensures DragItem(inv, g + "::" + x, h + "::" + y) == inv
  {
    DecodePair(g, x);
    DecodePair(h, y);
  }

  /** Item ids whose group id names no group change nothing. */
  lemma DragUnknownGroup(inv: Invoice, g: string, x: string, y: string)
    requires ':' !in g && ':' !in x && ':' !in y && g !in Ids(inv.groups, GroupId)
    ensures DragItem(inv, g + "::" + x, g + "::" + y) == inv
  {
    DecodePair(g, x);
    DecodePair(g, y);
  }
}

=== FILE: format.dfy ===
/** The small formatting helpers of the PDF module: `formatDate`, `hexToRgb`,
    `splitParagraphs`, `isBulletLine` (with the bullet-stripping `replace` of
    the terms block), and JavaScript's `String(n)` for the integers the layout
    prints. */
module Format {
  import opened Wrappers
  import opened Text

  // ---------------------------------------------------------------------------
  // formatDate

  /** `formatDate(iso)`: "2024-12-31" becomes "31/12/2024"; a missing or empty
      input gives ""; anything without three non-empty dash-separated leading
      parts comes back as it was. */
  function FormatDate(iso: Option<string>): string {
    match iso
    case None => ""
    case Some(s) =>
      if s == "" then ""
      else
        var parts := Split(s, Dash);
        if |parts| >= 3 && parts[0] != "" && parts[1] != "" && parts[2] != "" then
          parts[2] + "/" + parts[1] + "/" + parts[0]
        else s
  }

  /** Reading a dash-free run, then a dash, closes the current piece. */
  lemma {:induction false} SplitDashPiece(a: string, rest: string, cur: string)
    requires '-' !in a
    ensures SplitAcc(a + "-" + rest, cur, Dash) == [cur + a] + SplitAcc(rest, "", Dash)
    decreases |a|
  {
    var s := a + "-" + rest;
    if |a| == 0 {
      assert s[0] == '-' && s[1..] == rest by {
        assert s == "-" + rest;
      }
      assert cur + a == cur;
    } else {
      assert '-' !in a[1..] by {
        assert forall c :: c in a[1..] ==> c in a;
      }
      calc {
        SplitAcc(s, cur, Dash);
      == { assert s[0] == a[0] && s[1..] == a[1..] + "-" + rest; }
        SplitAcc(a[1..] + "-" + rest, cur + [a[0]], Dash);
      == { SplitDashPiece(a[1..], rest, cur + [a[0]]); }
        [cur + [a[0]] + a[1..]] + SplitAcc(rest, "", Dash);
      == { assert cur + [a[0]] + a[1..] == cur + a; }
        [cur + a] + SplitAcc(rest, "", Dash);
      }
    }
  }

  /** A dash-free text is one piece. */
  lemma {:induction false} SplitDashLast(a: string, cur: string)
    requires '-' !in a
    ensures SplitAcc(a, cur, Dash) == [cur + a]
    decreases |a|
  {
    if |a| > 0 {
      assert '-' !in a[1..] by {
        assert forall c :: c in a[1..] ==> c in a;
      }
      SplitDashLast(a[1..], cur + [a[0]]);
      assert cur + [a[0]] + a[1..] == cur + a;
    } else {
      assert cur + a == cur;
    }
  }

  /** The pieces of "D" or "D-more": the first is "D". */
  lemma SplitDashHead(d: string, more: string)
    requires '-' !in d
    requires more == "" || more[0] == '-'
    ensures var tail := SplitAcc(d + more, "", Dash); |tail| >= 1 && tail[0] == d
  {
    assert "" + d == d;
    if more == "" {
      assert d + more == d;
      SplitDashLast(d, "");
    } else {
      assert d + more == d + "-" + more[1..];
      SplitDashPiece(d, more[1..], "");
    }
  }

  /** The pieces of "Y-M-D..." start with Y, M and D. */
  lemma SplitDate(y: string, m: string, d: string, more: string)
    requires '-' !in y && '-' !in m && '-' !in d
    requires more == "" || more[0] == '-'
    ensures var parts := Split(y + "-" + m + "-" + d + more, Dash);
      |parts| >= 3 && parts[0] == y && parts[1] == m && parts[2] == d
  {
    var rest1 := m + "-" + (d + more);
    assert y + "-" + m + "-" + d + more == y + "-" + rest1;
    assert "" + y == y && "" + m == m;
    SplitDashPiece(y, rest1, "");
    SplitDashPiece(m, d + more, "");
    SplitDashHead(d, more);
  }

  /** An ISO date "Y-M-D" (possibly followed by more dash-separated parts) is
      shown as "D/M/Y". */
  lemma FormatDateIso(y: string, m: string, d: string, more: string)
    requires y != "" && m != "" && d != ""
    requires '-' !in y && '-' !in m && '-' !in d
    requires more == "" || more[0] == '-'
    ensures FormatDate(Some(y + "-" + m + "-" + d + more)) == d + "/" + m + "/" + y
  {
    SplitDate(y, m, d, more);
  }

  /** Without a dash there is nothing to reorder: the input comes back. */
  lemma FormatDateNoDash(s: string)
    requires '-' !in s
    ensures FormatDate(Some(s)) == s
  {
    SplitDashLast(s, "");
  }

  /** A date missing its day part ("2024-12") comes back unchanged. */
  lemma FormatDateTwoParts(y: string, m: string)
    requires '-' !in y && '-' !in m
    ensures FormatDate(Some(y + "-" + m)) == y + "-" + m
  {
    SplitDashPiece(y, m, "");
    SplitDashLast(m, "");
  }

  // ---------------------------------------------------------------------------
  // String(n)

  function DigitChar(d: int): char
    requires 0 <= d < 10
  {
    (('0' as int) + d) as char
  }

  function DigitValue(c: char): int
    requires IsDigit(c)
  {
    (c as int) - ('0' as int)
  }

  /** `String(n)` for a natural number: its decimal digits, no leading zeros. */
  function NatToString(n: nat): (s: string)
    ensures |s| >= 1 && AllDigits(s)
    ensures |s| > 1 ==> s[0] != '0'
    decreases n
  {
    if n < 10 then [DigitChar(n)] else NatToString(n / 10) + [DigitChar(n % 10)]
  }

  /** `String(n)` for an integer. */
  function IntToString(n: int): string {
    if n < 0 then "-" + NatToString(-n) else NatToString(n)
  }

  /** The number a string of decimal digits denotes. */
  function DecimalValue(s: string): nat
    requires AllDigits(s)
  {
    if |s| == 0 then 0 else DecimalValue(s[..|s| - 1]) * 10 + DigitValue(s[|s| - 1])
  }

  /** Reading back the printed digits gives the number. */
  lemma {:induction false} NatToStringRoundTrip(n: nat)
    ensures DecimalValue(NatToString(n)) == n
    decreases n
  {
    if n >= 10 {
      var s := NatToString(n);
      NatToStringRoundTrip(n / 10);
      assert s[..|s| - 1] == NatToString(n / 10);
    }
  }

  // ---------------------------------------------------------------------------
  // hexToRgb

  /** A colour as its three byte components, before the division by 255. */
  datatype Rgb = Rgb(r: int, g: int, b: int)

  predicate IsHexDigit(c: char) {
    IsDigit(c) || ('a' <= c <= 'f') || ('A' <= c <= 'F')
  }

  function HexDigitValue(c: char): (v: int)
    requires IsHexDigit(c)
    ensures 0 <= v < 16
  {
    if IsDigit(c) then DigitValue(c)
    else if 'a' <= c <= 'f' then (c as int) - ('a' as int) + 10
    else (c as int) - ('A' as int) + 10
  }

  /** The lower-case hex digit for 0..15. */
  function HexChar(v: int): (c: char)
    requires 0 <= v < 16
    ensures IsHexDigit(c) && HexDigitValue(c) == v
  {
    if v < 10 then DigitChar(v) else (('a' as int) + v - 10) as char
  }

  /** The end of the run of hex digits starting at `i`. */
  function HexRunEnd(s: string, i: nat): (k: nat)
    requires i <= |s|
    ensures i <= k <= |s|
    ensures forall j :: i <= j < k ==> IsHexDigit(s[j])
    ensures k == |s| || !IsHexDigit(s[k])
    decreases |s| - i
  {
    if i < |s| && IsHexDigit(s[i]) then HexRunEnd(s, i + 1) else i
  }

  /** The number a string of hex digits denotes. */
  function HexValue(s: string): nat
    requires forall j :: 0 <= j < |s| ==> IsHexDigit(s[j])
  {
    if |s| == 0 then 0 else HexValue(s[..|s| - 1]) * 16 + HexDigitValue(s[|s| - 1])
  }

  /** The text after an optional leading sign. */
  function DropSign(t: string): string {
    if |t| > 0 && (t[0] == '-' || t[0] == '+') then t[1..] else t
  }

  /** The text after an optional "0x" or "0X". */
  function DropHexPrefix(u: string): string {
    if |u| >= 2 && u[0] == '0' && (u[1] == 'x' || u[1] == 'X') then u[2..] else u
  }

  /** `parseInt(s, 16)`: optional leading blanks, an optional sign, an optional
      "0x", then the longest run of hex digits; `None` stands for NaN. */
  function ParseIntHex(s: string): Option<int> {
    var t := TrimStart(s);
    var v := DropHexPrefix(DropSign(t));
    var k := HexRunEnd(v, 0);
    if k == 0 then None
    else
      var n: int := HexValue(v[..k]);
      Some(if |t| > 0 && t[0] == '-' then -n else n)
  }

  /** `s.replace("#", "")`: a string pattern replaces only its first occurrence. */
  function RemoveFirst(s: string, c: char): string {
    if |s| == 0 then ""
    else if s[0] == c then s[1..]
    else [s[0]] + RemoveFirst(s[1..], c)
  }

  /** A 3-digit colour "abc" stands for "aabbcc"; any other length is kept. */
  function ExpandShort(m: string): string {
    if |m| == 3 then [m[0], m[0], m[1], m[1], m[2], m[2]] else m
  }

  /** Bits 16-23, 8-15 and 0-7 of the 32-bit integer that `>>` and `&` see. */
  function Channels(n: int): (c: Rgb)
    ensures 0 <= c.r < 256 && 0 <= c.g < 256 && 0 <= c.b < 256
  {
    var u := n % 0x1_0000_0000;
    Rgb((u / 0x1_0000) % 256, (u / 0x100) % 256, u % 256)
  }

  /** `hexToRgb(hex)` on byte components: strip the first '#', double each
      digit of a 3-digit form, parse base 16 (NaN becomes 0), then split the
      result into its three bytes. The parse is exact, which agrees with the
      double `parseInt` returns for at most 13 hex digits. */
  function HexToRgb(hex: string): (c: Rgb)
    ensures 0 <= c.r < 256 && 0 <= c.g < 256 && 0 <= c.b < 256
  {
    Channels(ParseIntHex(ExpandShort(RemoveFirst(hex, '#'))).GetOr(0))
  }

  predicate ValidRgb(c: Rgb) {
    0 <= c.r < 256 && 0 <= c.g < 256 && 0 <= c.b < 256
  }

  function Hex2(v: int): string
    requires 0 <= v < 256
  {
    [HexChar(v / 16), HexChar(v % 16)]
  }

  /** The 24-bit number whose bytes are the colour's components. */
  function Pack(c: Rgb): int {
    c.r * 0x1_0000 + c.g * 0x100 + c.b
  }

  /** The colour written as "#rrggbb". */
  function HexColor(c: Rgb): string
    requires ValidRgb(c)
  {
    "#" + Hex2(c.r) + Hex2(c.g) + Hex2(c.b)
  }

  lemma HexValueSnoc(s: string, c: char)
    requires forall j :: 0 <= j < |s| ==> IsHexDigit(s[j])
    requires IsHexDigit(c)
    ensures HexValue(s + [c]) == HexValue(s) * 16 + HexDigitValue(c)
  {
    assert (s + [c])[..|s|] == s;
  }

  /** Appending two hex digits shifts the value by one byte. */
  lemma HexValuePair(a: string, b: string)
    requires forall j :: 0 <= j < |a| ==> IsHexDigit(a[j])
    requires |b| == 2 && IsHexDigit(b[0]) && IsHexDigit(b[1])
    ensures HexValue(a + b) == HexValue(a) * 256 + HexDigitValue(b[0]) * 16 + HexDigitValue(b[1])
  {
    assert a + b == (a + [b[0]]) + [b[1]];
    HexValueSnoc(a, b[0]);
    HexValueSnoc(a + [b[0]], b[1]);
  }

  lemma Hex2Value(v: int)
    requires 0 <= v < 256
    ensures IsHexDigit(Hex2(v)[0]) && IsHexDigit(Hex2(v)[1])
    ensures HexDigitValue(Hex2(v)[0]) * 16 + HexDigitValue(Hex2(v)[1]) == v
  {
  }

  /** The six digits of "#rrggbb" read as one number. */
  lemma HexColorValue(c: Rgb)
    requires ValidRgb(c)
    ensures forall j :: 0 <= j < |HexColor(c)[1..]| ==> IsHexDigit(HexColor(c)[1..][j])
    ensures |HexColor(c)[1..]| == 6
    ensures HexValue(HexColor(c)[1..]) == Pack(c)
  {
    var h := HexColor(c)[1..];
    assert h == "" + Hex2(c.r) + Hex2(c.g) + Hex2(c.b);
    Hex2Value(c.r);
    Hex2Value(c.g);
    Hex2Value(c.b);
    HexValuePair("", Hex2(c.r));
    HexValuePair("" + Hex2(c.r), Hex2(c.g));
    HexValuePair("" + Hex2(c.r) + Hex2(c.g), Hex2(c.b));
  }

  /** A string of hex digits parses as the number it denotes. */
  lemma ParseIntHexDigits(h: string)
    requires |h| >= 1 && forall j :: 0 <= j < |h| ==> IsHexDigit(h[j])
    ensures ParseIntHex(h) == Some(HexValue(h) as int)
  {
    assert HexRunEnd(h, 0) == |h| by {
      HexRunAll(h, 0);
    }
    assert h[..HexRunEnd(h, 0)] == h;
    assert !IsSpace(h[0]) && h[0] != '-' && h[0] != '+' by {
      HexDigitPlain(h[0]);
    }
    assert |h| >= 2 ==> h[1] != 'x' && h[1] != 'X' by {
      if |h| >= 2 {
        HexDigitPlain(h[1]);
      }
    }
    ParseIntHexPlain(h);
  }

  /** Text with no leading blank, sign or "0x" parses as its leading hex run. */
  lemma ParseIntHexPlain(v: string)
    requires |v| >= 1 && !IsSpace(v[0]) && v[0] != '-' && v[0] != '+'
    requires |v| >= 2 ==> v[1] != 'x' && v[1] != 'X'
    requires HexRunEnd(v, 0) >= 1
    ensures ParseIntHex(v) == Some(HexValue(v[..HexRunEnd(v, 0)]) as int)
  {
    TrimStartKeeps(v);
    assert DropSign(v) == v && DropHexPrefix(v) == v;
    ParseIntHexAt(v);
  }

  /** `parseInt(v, 16)` once `v` has nothing to trim or drop. */
  lemma ParseIntHexAt(v: string)
    requires |v| >= 1 && v[0] != '-'
    requires TrimStart(v) == v && DropSign(v) == v && DropHexPrefix(v) == v
    requires HexRunEnd(v, 0) >= 1
    ensures ParseIntHex(v) == Some(HexValue(v[..HexRunEnd(v, 0)]) as int)
  {
  }

  /** A hex digit is neither blank, a sign, nor the "x" of a "0x" prefix. */
  lemma HexDigitPlain(c: char)
    requires IsHexDigit(c)
    ensures !IsSpace(c) && c != '-' && c != '+' && c != 'x' && c != 'X'
  {
  }

  /** Channels of a 24-bit number built from three bytes are those bytes. */
  lemma ByteFields(r: int, g: int, b: int)
    requires 0 <= r < 256 && 0 <= g < 256 && 0 <= b < 256
    ensures Channels(Pack(Rgb(r, g, b))) == Rgb(r, g, b)
  {
    var n := r * 0x1_0000 + g * 0x100 + b;
    assert 0 <= n < 0x1_0000_0000;
    assert n % 0x1_0000_0000 == n;
    assert n / 0x1_0000 == r;
    assert n / 0x100 == r * 0x100 + g;
    assert (r * 0x100 + g) % 256 == g;
    assert n % 256 == b;
  }

  /** Parsing a colour written as "#rrggbb" gives the colour back. */
  lemma HexRoundTrip(c: Rgb)
    requires ValidRgb(c)
    ensures HexToRgb(HexColor(c)) == c
  {
    var s := HexColor(c);
    var h := s[1..];
    assert s == "#" + h;
    assert |h| == 6 && (forall j :: 0 <= j < |h| ==> IsHexDigit(h[j]))
      && HexValue(h) == Pack(c) by {
      HexColorValue(c);
    }
    assert HexToRgb("#" + h) == Channels(HexValue(h)) by {
      HexToRgbSix(h);
    }
    assert Channels(Pack(c)) == c by {
      ByteFields(c.r, c.g, c.b);
    }
  }

  /** "#" and six hex digits give the bytes of the number they denote. */
  lemma HexToRgbSix(h: string)
    requires |h| == 6 && forall j :: 0 <= j < |h| ==> IsHexDigit(h[j])
    ensures HexToRgb("#" + h) == Channels(HexValue(h))
  {
    assert ExpandShort(RemoveFirst("#" + h, '#')) == h;
    assert ParseIntHex(h) == Some(HexValue(h) as int) by {
      ParseIntHexDigits(h);
    }
  }

  lemma {:induction false} HexRunAll(s: string, i: nat)
    requires i <= |s| && forall j :: 0 <= j < |s| ==> IsHexDigit(s[j])
    ensures HexRunEnd(s, i) == |s|
    decreases |s| - i
  {
    if i < |s| {
      HexRunAll(s, i + 1);
    }
  }

  /** The 3-digit form "#abc" is the same colour as "#aabbcc". */
  lemma HexShortForm(a: char, b: char, c: char)
    ensures HexToRgb(['#', a, b, c]) == HexToRgb(['#', a, a, b, b, c, c])
  {
    assert RemoveFirst(['#', a, b, c], '#') == [a, b, c];
    assert RemoveFirst(['#', a, a, b, b, c, c], '#') == [a, a, b, b, c, c];
  }

  /** The default header colour "#161616" is the grey (22, 22, 22). */
  lemma DefaultHeaderColor()
    ensures HexToRgb("#161616") == Rgb(22, 22, 22)
  {
    assert HexChar(1) == '1' && HexChar(6) == '6';
    assert Hex2(22) == "16";
    assert HexColor(Rgb(22, 22, 22)) == "#161616";
    HexRoundTrip(Rgb(22, 22, 22));
  }

  // ---------------------------------------------------------------------------
  // paragraphs and bullets

  /** `splitParagraphs(s)`: `s.split(/\r?\n\r?\n/)`. */
  function SplitParagraphs(s: string): seq<string> {
    Split(s, BlankLine)
  }

  /** Paragraphs joined back with a blank line give the text (when it uses
      plain "\n" line ends). */
  lemma SplitParagraphsJoin(s: string)
    requires '\r' !in s
    ensures Join(SplitParagraphs(s), "\n\n") == s
  {
    SplitJoin(s, BlankLine);
  }

  /** `s.split(/\r?\n/)`. */
  function SplitLines(s: string): seq<string> {
    Split(s, LineBreak)
  }

  /** The end of the run of decimal digits starting at `i`. */
  function DigitRunEnd(s: string, i: nat): (k: nat)
    requires i <= |s|
    ensures i <= k <= |s|
    ensures forall j :: i <= j < k ==> IsDigit(s[j])
    ensures k == |s| || !IsDigit(s[k])
    decreases |s| - i
  {
    if i < |s| && IsDigit(s[i]) then DigitRunEnd(s, i + 1) else i
  }

  predicate IsBulletGlyph(c: char) {
    c == '-' || c == '*' || c == '\U{2022}'
  }

  /** The end of a list marker `[-*•]` or `\d+\.` starting at `i`. */
  function MarkerEnd(s: string, i: nat): (r: Option<nat>)
    requires i <= |s|
    ensures r.Some? ==> i < r.value <= |s|
  {
    if i < |s| && IsBulletGlyph(s[i]) then Some(i + 1)
    else
      var d := DigitRunEnd(s, i);
      if d > i && d < |s| && s[d] == '.' then Some(d + 1) else None
  }

  /** Where the text after the list marker starts: `^\s*([-*•]|\d+\.)\s+`
      matched at the start of the line, `None` when it does not match. */
  function BulletTextStart(s: string): (k: Option<nat>)
    ensures k.Some? ==> 0 < k.value <= |s| && (k.value == |s| || !IsSpace(s[k.value]))
  {
    var i := SpanEnd(s, 0, true);
    match MarkerEnd(s, i)
    case None => None
    case Some(j) =>
      if j < |s| && IsSpace(s[j]) then Some(SpanEnd(s, j, true)) else None
  }

  /** `isBulletLine(s)`. */
  predicate IsBulletLine(s: string) {
    BulletTextStart(s).Some?
  }

  /** `s.replace(/^\s*([-*•]|\d+\.)\s+/, "")`. */
  function StripBullet(s: string): (r: string)
    ensures IsBulletLine(s) ==> |r| < |s| && r == s[|s| - |r|..] && (r == "" || !IsSpace(r[0]))
    ensures !IsBulletLine(s) ==> r == s
  {
    match BulletTextStart(s)
    case None => s
    case Some(k) => s[k..]
  }

  /** A list marker: one bullet glyph, or digits followed by a full stop. */
  predicate IsMarker(t: string) {
    || (|t| == 1 && IsBulletGlyph(t[0]))
    || (|t| >= 2 && AllDigits(t[..|t| - 1]) && t[|t| - 1] == '.')
  }

  /** The line is blanks up to `i`, a marker from `i` to `j`, then a blank. */
  predicate BulletShape(s: string, i: nat, j: nat) {
    i <= j < |s| && AllSpace(s[..i]) && IsMarker(s[i..j]) && IsSpace(s[j])
  }

  /** A line `isBulletLine` accepts has the bullet shape. */
  lemma BulletLineHasShape(s: string)
    requires IsBulletLine(s)
    ensures BulletShape(s, SpanEnd(s, 0, true), MarkerEnd(s, SpanEnd(s, 0, true)).value)
  {
    var i := SpanEnd(s, 0, true);
    var j := MarkerEnd(s, i).value;
    assert AllSpace(s[..i]);
    if !(i < |s| && IsBulletGlyph(s[i])) {
      var d := DigitRunEnd(s, i);
      var t := s[i..j];
      assert t[..|t| - 1] == s[i..d];
      assert t[|t| - 1] == s[d];
    }
  }

  /** The blank run at the start ends at the first non-blank. */
  lemma SpanEndAt(s: string, i: nat)
    requires i < |s| && AllSpace(s[..i]) && !IsSpace(s[i])
    ensures SpanEnd(s, 0, true) == i
  {
    assert forall j | 0 <= j < i :: IsSpace(s[j]) by {
      forall j | 0 <= j < i ensures IsSpace(s[j]) {
        assert s[..i][j] == s[j];
      }
    }
  }

  /** The digit run ends at the full stop. */
  lemma DigitRunAt(s: string, i: nat, d: nat)
    requires i <= d < |s| && AllDigits(s[i..d]) && s[d] == '.'
    ensures DigitRunEnd(s, i) == d
  {
    assert forall j | i <= j < d :: IsDigit(s[j]) by {
      forall j | i <= j < d ensures IsDigit(s[j]) {
        assert s[i..d][j - i] == s[j];
      }
    }
  }

  /** A line with the bullet shape is one `isBulletLine` accepts. */
  lemma ShapeIsBulletLine(s: string, i: nat, j: nat)
    requires BulletShape(s, i, j)
    ensures IsBulletLine(s)
  {
    var t := s[i..j];
    assert t[0] == s[i];
    assert !IsSpace(s[i]) by {
      if |t| >= 2 {
        assert t[..|t| - 1][0] == s[i];
      }
    }
    SpanEndAt(s, i);
    if |t| == 1 && IsBulletGlyph(t[0]) {
      assert MarkerEnd(s, i) == Some(j);
    } else {
      assert !IsBulletGlyph(s[i]) by {
        assert t[..|t| - 1][0] == s[i];
      }
      assert t[..|t| - 1] == s[i..j - 1];
      DigitRunAt(s, i, j - 1);
      assert MarkerEnd(s, i) == Some(j);
    }
  }

  /** `isBulletLine` holds exactly for lines that are optional blanks, a list
      marker ("-", "*", "•" or digits and a full stop) and at least one blank. */
  lemma IsBulletLineShape(s: string)
    ensures IsBulletLine(s) <==> exists i: nat, j: nat :: BulletShape(s, i, j)
  {
    if IsBulletLine(s) {
      BulletLineHasShape(s);
    }
    if exists i: nat, j: nat :: BulletShape(s, i, j) {
      var i: nat, j: nat :| BulletShape(s, i, j);
      ShapeIsBulletLine(s, i, j);
    }
  }

  /** "1) Text" is not a bullet line: the marker must end in a full stop. */
  lemma BulletExampleParen()
    ensures !IsBulletLine("1) Text")
  {
    assert SpanEnd("1) Text", 0, true) == 0;
    assert DigitRunEnd("1) Text", 0) == 1;
    assert MarkerEnd("1) Text", 0).None?;
  }

  /** "1. Text" is a bullet line and loses its marker. */
  lemma BulletExampleNumber()
    ensures IsBulletLine("1. Text") && StripBullet("1. Text") == "Text"
  {
    assert SpanEnd("1. Text", 0, true) == 0;
    assert DigitRunEnd("1. Text", 0) == 1;
    assert SpanEnd("1. Text", 2, true) == 3;
  }

  /** "- Text" is a bullet line and loses its marker. */
  lemma BulletExampleDash()
    ensures IsBulletLine("- Text") && StripBullet("- Text") == "Text"
  {
    assert SpanEnd("- Text", 0, true) == 0;
    assert SpanEnd("- Text", 1, true) == 2;
  }

  /** "1) Text" is not a bullet line (the marker must end in a full stop), while
      "1. Text" and "- Text" are. */
  lemma BulletExamples()
    ensures !IsBulletLine("1) Text")
    ensures IsBulletLine("1. Text") && StripBullet("1. Text") == "Text"
    ensures IsBulletLine("- Text") && StripBullet("- Text") == "Text"
  {
    BulletExampleParen();
    BulletExampleNumber();
    BulletExampleDash();
  }
}

=== FILE: items.dfy ===
/** What the item patterns of `parseFreeText` make of three line shapes:
    "desc qty x price", "desc price", and a line that none of the patterns
    matches, which falls back to its raw text. */
module Items {
  import opened Wrappers
  import opened Text
  import opened Format
  import opened Schema
  import opened Patterns
  import opened Parse

  // ---------------------------------------------------------------------------
  // text the cleaning step leaves alone

  /** No position starts a currency token. */
  predicate CurrencyFree(s: string) {
    forall j :: 0 <= j < |s| ==> CurrencyTokenAt(s, j).None?
  }

  /** A character that cannot start `Q`, `GTQ`, `USD` or `$`. */
  predicate Plain(c: char) {
    FoldAscii(c) != 'q' && FoldAscii(c) != 'g' && FoldAscii(c) != 'u' && c != '$'
  }

  /** A literal matched at `p` starts with the character at `p`. */
  lemma MatchesAtHead(s: string, p: nat, lit: string)
    requires |lit| >= 1 && MatchesAt(s, p, lit)
    ensures p < |s| && FoldAscii(s[p]) == lit[0]
  {
    assert FoldAscii(s[p + 0]) == lit[0];
  }

  /** Only a q, g, u or $ can start a currency token. */
  lemma PlainNoToken(s: string, p: nat)
    requires p < |s| && Plain(s[p])
    ensures CurrencyTokenAt(s, p).None?
  {
    if MatchesAt(s, p, "q") {
      MatchesAtHead(s, p, "q");
    }
    if MatchesAt(s, p, "gtq") {
      MatchesAtHead(s, p, "gtq");
    }
    if MatchesAt(s, p, "usd") {
      MatchesAtHead(s, p, "usd");
    }
    if MatchesAt(s, p, "$") {
      MatchesAtHead(s, p, "$");
    }
  }

  /** Text of plain characters has no currency token and no dollar sign. */
  lemma AllPlainFree(s: string)
    requires forall j :: 0 <= j < |s| ==> Plain(s[j])
    ensures CurrencyFree(s) && !HasUsd(s)
  {
    forall j | 0 <= j < |s|
      ensures CurrencyTokenAt(s, j).None?
    {
      PlainNoToken(s, j);
    }
    NoUsd(s);
  }

  lemma {:induction false} StripCurrencyFree(s: string, p: nat)
    requires p <= |s| && CurrencyFree(s)
    ensures StripCurrency(s, p) == s[p..]
    decreases |s| - p
  {
    if p < |s| {
      StripCurrencyFree(s, p + 1);
      assert s[p..] == [s[p]] + s[p + 1..];
    }
  }

  /** No two blanks in a row. */
  predicate SingleBlanks(s: string) {
    forall j :: 0 <= j < |s| - 1 ==> !(IsSpace(s[j]) && IsSpace(s[j + 1]))
  }

  /** A single blank between `i` and `i + 1`. */
  lemma OneBlank(s: string, i: nat)
    requires i < |s| && IsSpace(s[i]) && (i + 1 == |s| || !IsSpace(s[i + 1]))
    ensures SpanEnd(s, i, true) == i + 1
  {
  }

  lemma {:induction false} CollapseSingle(s: string)
    requires SingleBlanks(s)
    ensures CollapseRuns(s, 2) == s
    decreases |s|
  {
    if |s| > 0 {
      var k := SpanEnd(s, 0, IsSpace(s[0]));
      if IsSpace(s[0]) {
        OneBlank(s, 0);
      }
      assert SingleBlanks(s[k..]) by {
        forall j | 0 <= j < |s[k..]| - 1
          ensures !(IsSpace(s[k..][j]) && IsSpace(s[k..][j + 1]))
        {
          assert s[k..][j] == s[k + j] && s[k..][j + 1] == s[k + j + 1];
        }
      }
      CollapseSingle(s[k..]);
      assert s[..k] + s[k..] == s;
    }
  }

  /** Text without blanks at either end is its own `trim()`. */
  lemma TrimKeeps(s: string)
    requires s == "" || (!IsSpace(s[0]) && !IsSpace(s[|s| - 1]))
    ensures Trim(s) == s
  {
    TrimStartKeeps(s);
  }

  /** Text the cleaning step returns unchanged: no currency token, no run of
      two blanks, no blank at either end. */
  predicate Tidy(s: string) {
    CurrencyFree(s) && SingleBlanks(s) && (s == "" || (!IsSpace(s[0]) && !IsSpace(s[|s| - 1])))
  }

  lemma CleanTidy(s: string)
    requires Tidy(s)
    ensures Clean(s) == s
  {
    StripCurrencyFree(s, 0);
    CollapseSingle(s);
    TrimKeeps(s);
  }

  /** Without a u or a $ the dollar pattern cannot match. */
  lemma NoUsd(s: string)
    requires forall j :: 0 <= j < |s| ==> FoldAscii(s[j]) != 'u' && s[j] != '$'
    ensures !HasUsd(s)
  {
    forall q | 0 <= q <= |s|
      ensures !UsdAt(s, q)
    {
      if MatchesAt(s, q, "usd") {
        MatchesAtHead(s, q, "usd");
      }
      if MatchesAt(s, q, "$") {
        MatchesAtHead(s, q, "$");
      }
    }
  }

  lemma DigitsNoSpace(s: string)
    requires AllDigits(s)
    ensures NoSpace(s)
  {
    forall j | 0 <= j < |s|
      ensures !IsSpace(s[j])
    {
      assert IsDigit(s[j]);
    }
  }

  // ---------------------------------------------------------------------------
  // the searches on these shapes

  /** The lazy group stops at `t` when no earlier end lets the rest match. */
  lemma {:induction false} LazyEndAt(s: string, b: nat, e: nat, t: nat, ok: nat -> bool)
    requires b < e <= t <= |s|
    requires AnyChars(s, e - 1, t)
    requires forall y :: e <= y < t ==> !ok(y)
    requires ok(t)
    ensures LazyEnd(s, b, e, ok) == Some(t)
    decreases t - e
  {
    if e < t {
      LazyEndAt(s, b, e + 1, t, ok);
    }
  }

  /** Every tail pattern starts with blanks. */
  lemma TailsNeedBlank(s: string, y: nat)
    requires y <= |s| && (y == |s| || !IsSpace(s[y]))
    ensures TimesTail(s, y).None? && PriceTail(s, y).None?
  {
  }

  /** A one-word description leaves `.` nothing to refuse. */
  lemma WordChars(s: string, n: nat)
    requires n <= |s| && NoSpace(s[..n])
    ensures AnyChars(s, 0, n)
  {
    forall j | 0 <= j < n
      ensures !IsLineTerminator(s[j])
    {
      assert s[j] == s[..n][j];
    }
  }

  /** No tail starts inside a word. */
  lemma InsideWord(s: string, n: nat, kind: TailKind)
    requires n <= |s| && NoSpace(s[..n])
    ensures forall y :: 1 <= y < n ==> !TailOk(s, y, kind)
  {
    forall y | 1 <= y < n
      ensures !TailOk(s, y, kind)
    {
      assert s[y] == s[..n][y];
      TailsNeedBlank(s, y);
    }
  }

  /** A description that is one word ending at `n`, after which the rest of
      the pattern matches: the lazy group takes exactly that word. */
  lemma WordThenTail(s: string, n: nat, kind: TailKind)
    requires 0 < n <= |s| && NoSpace(s[..n]) && TailOk(s, n, kind)
    ensures LazyEnd(s, 0, 1, TailAfter(s, kind)) == Some(n)
  {
    WordChars(s, n);
    InsideWord(s, n, kind);
    LazyEndAt(s, 0, 1, n, TailAfter(s, kind));
  }

  /** A run of digits from `k` to `e` with no decimal part after it. */
  lemma NumEndDigits(s: string, k: nat, e: nat)
    requires k < e <= |s| && AllDigits(s[k..e])
    requires e == |s| || (!IsDigit(s[e]) && !IsDecimalMark(s[e]))
    ensures NumEnd(s, k) == Some(e)
  {
    assert IsDigit(s[k..e][0]);
    DigitRunUntil(s, k, e);
  }

  /** The positions of `d + " " + q + " x " + p` in `s`. */
  predicate TimesLine(s: string, d: string, q: string, p: string) {
    && |s| == |d| + |q| + |p| + 4
    && s[..|d|] == d && s[|d|] == ' ' && s[|d| + 1..|d| + 1 + |q|] == q
    && s[|d| + 1 + |q|] == ' ' && s[|d| + 2 + |q|] == 'x' && s[|d| + 3 + |q|] == ' '
    && s[|d| + 4 + |q|..|s|] == p
  }

  lemma TimesParts(d: string, q: string, p: string, s: string)
    requires s == d + " " + q + " x " + p
    ensures TimesLine(s, d, q, p)
  {
  }

  /** After the quantity: blanks to the times sign at `o`, blanks to `k2`,
      then a price running to the end. */
  lemma SignAndPriceFrom(s: string, n1: nat, o: nat, k2: nat)
    requires n1 <= o < |s| && SpanEnd(s, n1, true) == o && IsTimes(s[o])
    requires SpanEnd(s, o + 1, true) == k2 && NumEnd(s, k2) == Some(|s|)
    ensures SignAndPrice(s, n1) == Some((k2, |s|))
  {
  }

  /** `TimesTail` step by step: blanks to `k`, the quantity to `n1`, then the
      sign and the price. */
  lemma TimesTailFrom(s: string, e: nat, k: nat, n1: nat, k2: nat)
    requires e < k <= |s| && SpanEnd(s, e, true) == k && NumEnd(s, k) == Some(n1)
    requires n1 <= |s| && SignAndPrice(s, n1) == Some((k2, |s|))
    ensures TimesTail(s, e) == Some(Spans(k, n1, k2, |s|))
  {
  }

  /** A blank, then the quantity's digits up to the next blank. */
  lemma QtyRun(s: string, e: nat, q: string)
    requires q != "" && AllDigits(q) && e + 1 + |q| < |s|
    requires s[e] == ' ' && s[e + 1..e + 1 + |q|] == q && s[e + 1 + |q|] == ' '
    ensures SpanEnd(s, e, true) == e + 1 && NumEnd(s, e + 1) == Some(e + 1 + |q|)
  {
    assert s[e + 1] == q[0] by {
      assert s[e + 1..e + 1 + |q|][0] == s[e + 1];
    }
    OneBlank(s, e);
    NumEndDigits(s, e + 1, e + 1 + |q|);
  }

  /** " x " and a price running to the end. */
  lemma SignRun(s: string, n: nat, p: string)
    requires p != "" && AllDigits(p) && |s| == n + 3 + |p|
    requires s[n] == ' ' && s[n + 1] == 'x' && s[n + 2] == ' ' && s[n + 3..|s|] == p
    ensures SignAndPrice(s, n) == Some((n + 3, |s|))
  {
    assert s[n + 3] == p[0] by {
      assert s[n + 3..|s|][0] == s[n + 3];
    }
    OneBlank(s, n);
    OneBlank(s, n + 2);
    NumEndDigits(s, n + 3, |s|);
    SignAndPriceFrom(s, n, n + 1, n + 3);
  }

  /** The parts of a times line this model builds: a one-word description,
      and a quantity and a price written in digits. */
  predicate TimesInput(d: string, q: string, p: string) {
    d != "" && NoSpace(d) && q != "" && p != "" && AllDigits(q) && AllDigits(p)
  }

  /** The tail of a times line reads the quantity and the price. */
  lemma TimesTailOn(s: string, e: nat, q: string, p: string)
    requires q != "" && p != "" && AllDigits(q) && AllDigits(p)
    requires |s| == e + |q| + |p| + 4
    requires s[e] == ' ' && s[e + 1..e + 1 + |q|] == q
    requires s[e + 1 + |q|] == ' ' && s[e + 2 + |q|] == 'x' && s[e + 3 + |q|] == ' '
    requires s[e + 4 + |q|..|s|] == p
    ensures TimesTail(s, e) == Some(Spans(e + 1, e + 1 + |q|, e + 4 + |q|, |s|))
  {
    QtyRun(s, e, q);
    SignRun(s, e + 1 + |q|, p);
    TimesTailFrom(s, e, e + 1, e + 1 + |q|, e + 4 + |q|);
  }

  /** The tail of a times line, once its head is known. */
  lemma TimesTailAfter(s: string, d: string, q: string, p: string)
    requires TimesInput(d, q, p) && TimesLine(s, d, q, p)
    ensures TimesTail(s, |d|) == Some(Spans(|d| + 1, |d| + 1 + |q|, |d| + 4 + |q|, |s|))
  {
    var e := |d|;
    assert s[e + 4 + |q|..|s|] == p;
    TimesTailOn(s, e, q, p);
  }

  /** The three captures sit where the line put them. */
  lemma CapturesAre(s: string, d: string, q: string, p: string)
    requires TimesLine(s, d, q, p)
    ensures ItemMatch(s[..|d|], s[|d| + 1..|d| + 1 + |q|], s[|d| + 4 + |q|..|s|]) == ItemMatch(d, q, p)
  {
  }

  /** A description found at the very start is the leftmost match. */
  lemma FirstMatchAtStart(s: string, n: nat, ok: nat -> bool)
    requires 0 < |s| && LazyEnd(s, 0, 1, ok) == Some(n)
    ensures FirstMatch(s, 0, ok) == Some((0, n))
  {
  }

  /** What `times` captures once its match and its tail are known. */
  lemma MatchTimesFrom(s: string, n: nat, k: nat, n1: nat, k2: nat)
    requires FirstMatch(s, 0, TailAfter(s, TimesPrice)) == Some((0, n))
    requires TimesTail(s, n) == Some(Spans(k, n1, k2, |s|))
    ensures MatchTimes(s) == Some(ItemMatch(s[..n], s[k..n1], s[k2..|s|]))
  {
    assert s[0..n] == s[..n];
  }

  /** A times match right after a word at the start: the captures are the
      word and the two spans of the tail. */
  lemma MatchTimesWord(s: string, n: nat, k: nat, n1: nat, k2: nat)
    requires 0 < n <= |s| && NoSpace(s[..n])
    requires TimesTail(s, n) == Some(Spans(k, n1, k2, |s|))
    ensures MatchTimes(s) == Some(ItemMatch(s[..n], s[k..n1], s[k2..|s|]))
  {
    WordThenTail(s, n, TimesPrice);
    FirstMatchAtStart(s, n, TailAfter(s, TimesPrice));
    MatchTimesFrom(s, n, k, n1, k2);
  }

  lemma MatchTimesAt(d: string, q: string, p: string, s: string)
    requires TimesInput(d, q, p) && TimesLine(s, d, q, p)
    ensures MatchTimes(s) == Some(ItemMatch(d, q, p))
  {
    TimesTailAfter(s, d, q, p);
    MatchTimesWord(s, |d|, |d| + 1, |d| + 1 + |q|, |d| + 4 + |q|);
    CapturesAre(s, d, q, p);
  }

  /** "desc qty x price" with a one-word description gives the three parts. */
  lemma MatchTimesShape(d: string, q: string, p: string)
    requires TimesInput(d, q, p)
    ensures MatchTimes(d + " " + q + " x " + p) == Some(ItemMatch(d, q, p))
  {
    TimesParts(d, q, p, d + " " + q + " x " + p);
    MatchTimesAt(d, q, p, d + " " + q + " x " + p);
  }

  /** The positions of `a + " " + w`. */
  lemma PairParts(a: string, w: string, s: string)
    requires s == a + " " + w
    ensures |s| == |a| + 1 + |w|
    ensures s[..|a|] == a && s[|a|] == ' ' && s[|a| + 1..] == w && s[|a| + 1..|s|] == w
  {
  }

  /** In "word word" only the position of the blank can start a tail. */
  lemma PairTails(a: string, w: string, s: string, y: nat)
    requires NoSpace(a) && NoSpace(w) && s == a + " " + w && y <= |s| && y != |a|
    ensures TimesTail(s, y).None? && PriceTail(s, y).None?
  {
    PairParts(a, w, s);
    if y < |a| {
      assert s[y] == s[..|a|][y];
    } else if y < |s| {
      assert s[y] == s[|a| + 1..][y - |a| - 1];
    }
    TailsNeedBlank(s, y);
  }

  /** A number that runs to the end leaves no room for "x price". */
  lemma TrailNoTimes(d: string, p: string, s: string)
    requires NoSpace(d) && p != "" && AllDigits(p) && s == d + " " + p
    ensures forall y :: 0 <= y <= |s| ==> TimesTail(s, y).None?
  {
    PairParts(d, p, s);
    DigitsNoSpace(p);
    assert s[|d| + 1] == p[0] by {
      assert s[|d| + 1..][0] == s[|d| + 1];
    }
    OneBlank(s, |d|);
    NumEndDigits(s, |d| + 1, |s|);
    forall y | 0 <= y <= |s|
      ensures TimesTail(s, y).None?
    {
      if y != |d| {
        PairTails(d, p, s, y);
      }
    }
  }

  lemma TrailPriceAt(d: string, p: string, s: string)
    requires p != "" && AllDigits(p) && s == d + " " + p
    ensures PriceTail(s, |d|) == Some((|d| + 1, |s|))
  {
    PairParts(d, p, s);
    assert s[|d| + 1] == p[0] by {
      assert s[|d| + 1..][0] == s[|d| + 1];
    }
    OneBlank(s, |d|);
    NumEndDigits(s, |d| + 1, |s|);
  }

  lemma MatchTrailAt(d: string, p: string, s: string)
    requires d != "" && NoSpace(d) && !IsDigit(d[0]) && p != "" && AllDigits(p)
    requires s == d + " " + p
    ensures MatchTimes(s).None? && MatchLead(s).None?
    ensures MatchTrail(s) == Some(ItemMatch(d, "", p))
  {
    PairParts(d, p, s);
    TrailNoTimes(d, p, s);
    assert s[0] == d[0] by {
      assert s[..|d|][0] == s[0];
    }
    TrailPriceAt(d, p, s);
    WordThenTail(s, |d|, EndPrice);
  }

  /** "desc price" with a one-word description that does not start with a
      digit: neither `times` nor `lead` matches, and `trail` reads the word
      and the price. */
  lemma MatchTrailShape(d: string, p: string)
    requires d != "" && NoSpace(d) && !IsDigit(d[0]) && p != "" && AllDigits(p)
    ensures MatchTimes(d + " " + p).None? && MatchLead(d + " " + p).None?
    ensures MatchTrail(d + " " + p) == Some(ItemMatch(d, "", p))
  {
    MatchTrailAt(d, p, d + " " + p);
  }

  lemma NoMatchAt(a: string, w: string, s: string)
    requires a != "" && w != "" && NoSpace(a) && NoSpace(w) && !IsDigit(a[0]) && !IsDigit(w[0])
    requires s == a + " " + w
    ensures MatchTimes(s).None? && MatchLead(s).None? && MatchTrail(s).None?
  {
    PairParts(a, w, s);
    assert s[0] == a[0] && s[|a| + 1] == w[0] by {
      assert s[..|a|][0] == s[0];
      assert s[|a| + 1..][0] == s[|a| + 1];
    }
    OneBlank(s, |a|);
    forall y | 0 <= y <= |s|
      ensures !TailOk(s, y, TimesPrice) && !TailOk(s, y, EndPrice)
    {
      if y != |a| {
        PairTails(a, w, s, y);
      }
    }
  }

  /** "word word" where neither word starts with a digit: no pattern
      matches. */
  lemma NoPatternMatches(a: string, w: string)
    requires a != "" && w != "" && NoSpace(a) && NoSpace(w) && !IsDigit(a[0]) && !IsDigit(w[0])
    ensures MatchTimes(a + " " + w).None? && MatchLead(a + " " + w).None? && MatchTrail(a + " " + w).None?
  {
    NoMatchAt(a, w, a + " " + w);
  }

  // ---------------------------------------------------------------------------
  // the items these lines become

  /** Blanks of a line made of words and single blanks. */
  lemma PairSingle(a: string, w: string, s: string)
    requires a != "" && w != "" && NoSpace(a) && NoSpace(w) && s == a + " " + w
    ensures SingleBlanks(s) && !IsSpace(s[0]) && !IsSpace(s[|s| - 1])
  {
    PairParts(a, w, s);
    forall j | 0 <= j < |s|
      ensures IsSpace(s[j]) ==> j == |a|
    {
      if j < |a| {
        assert s[j] == s[..|a|][j];
      } else if j > |a| {
        assert s[j] == s[|a| + 1..][j - |a| - 1];
      }
    }
  }

  lemma TimesSingle(d: string, q: string, p: string, s: string)
    requires TimesInput(d, q, p)
    requires s == d + " " + q + " x " + p
    ensures SingleBlanks(s) && !IsSpace(s[0]) && !IsSpace(s[|s| - 1])
  {
    TimesParts(d, q, p, s);
    var n1 := |d| + 1 + |q|;
    forall j | 0 <= j < |s|
      ensures IsSpace(s[j]) ==> j == |d| || j == n1 || j == n1 + 2
    {
      if j < |d| {
        assert s[j] == s[..|d|][j];
      } else if |d| < j < n1 {
        assert s[j] == s[|d| + 1..n1][j - |d| - 1];
      } else if j > n1 + 3 {
        assert s[j] == s[n1 + 3..|s|][j - n1 - 3];
      }
    }
  }

  /** A times line with a one-word description: its quantity and price. */
  lemma ItemTimes(d: string, q: string, p: string, s: string)
    requires TimesInput(d, q, p) && s == d + " " + q + " x " + p && CurrencyFree(s)
    ensures var it := ItemOf(s);
      it.desc == d && it.qty == Some(DecimalValue(q) as real) && it.price == Some(DecimalValue(p) as real)
  {
    TimesSingle(d, q, p, s);
    CleanTidy(s);
    MatchTimesShape(d, q, p);
    TrimKeeps(d);
    ToNumWhole(q);
    ToNumWhole(p);
  }

  /** A one-word description and a price: quantity 1, that price. */
  lemma ItemTrail(d: string, p: string, s: string)
    requires d != "" && NoSpace(d) && !IsDigit(d[0]) && p != "" && AllDigits(p)
    requires s == d + " " + p && CurrencyFree(s)
    ensures var it := ItemOf(s);
      it.desc == d && it.qty == Some(1.0) && it.price == Some(DecimalValue(p) as real)
  {
    DigitsNoSpace(p);
    PairSingle(d, p, s);
    CleanTidy(s);
    MatchTrailShape(d, p);
    TrimKeeps(d);
    ToNumWhole(p);
  }

  /** Two words, neither starting with a digit: the fallback item, the raw
      line with quantity 1 and no price. */
  lemma ItemFallback(a: string, w: string, s: string)
    requires a != "" && w != "" && NoSpace(a) && NoSpace(w) && !IsDigit(a[0]) && !IsDigit(w[0])
    requires s == a + " " + w && CurrencyFree(s)
    ensures var it := ItemOf(s);
      it.desc == s && it.qty == Some(1.0) && it.price.None?
  {
    PairSingle(a, w, s);
    CleanTidy(s);
    NoPatternMatches(a, w);
  }

  // ---------------------------------------------------------------------------
  // worked lines

  /** The digits `String(n)` prints read back as `n`. */
  lemma DigitsRead(n: nat, s: string)
    requires s == NatToString(n)
    ensures AllDigits(s) && DecimalValue(s) == n
  {
    NatToStringRoundTrip(n);
  }

  /** "Sillas 100 x 15": a hundred chairs at Q15 each, in quetzales. */
  lemma SillasLine(s: string)
    requires s == "Sillas 100 x 15"
    ensures ItemOf(s) == ParsedItem("Sillas", Some(100.0), Some(15.0), Some(GTQ))
  {
    DigitsRead(100, "100");
    DigitsRead(15, "15");
    SillasParts(s);
    ItemTimes("Sillas", "100", "15", s);
  }

  lemma SillasParts(s: string)
    requires s == "Sillas 100 x 15"
    ensures s == "Sillas" + " " + "100" + " x " + "15" && CurrencyFree(s) && !HasUsd(s)
  {
    assert forall j :: 0 <= j < |s| ==> Plain(s[j]);
    AllPlainFree(s);
  }

  /** "Mesa 50": one table at Q50. */
  lemma MesaLine(s: string)
    requires s == "Mesa 50"
    ensures ItemOf(s) == ParsedItem("Mesa", Some(1.0), Some(50.0), Some(GTQ))
  {
    DigitsRead(50, "50");
    assert s == "Mesa" + " " + "50";
    assert forall j :: 0 <= j < |s| ==> Plain(s[j]);
    AllPlainFree(s);
    ItemTrail("Mesa", "50", s);
  }

  /** "Transporte Q2000": the Q is glued to the digits, so it is no currency
      token, and the amount does not start with a digit, so no pattern
      matches: the whole line becomes the description and there is no price. */
  lemma TransporteLine(s: string)
    requires s == "Transporte Q2000"
    ensures ItemOf(s) == ParsedItem("Transporte Q2000", Some(1.0), None, Some(GTQ))
  {
    TransporteParts(s);
    ItemFallback("Transporte", "Q2000", s);
  }

  lemma TransporteParts(s: string)
    requires s == "Transporte Q2000"
    ensures s == "Transporte" + " " + "Q2000" && CurrencyFree(s) && !HasUsd(s)
  {
    forall j | 0 <= j < |s|
      ensures CurrencyTokenAt(s, j).None?
    {
      if j == 11 {
        assert !Boundary(s, 12);
      } else {
        assert Plain(s[j]);
        PlainNoToken(s, j);
      }
    }
    NoUsd(s);
  }
}

=== FILE: layout.dfy ===
/** The page layout of `generateInvoicePdf` as a state machine. The state is
    the number of pages, the vertical cursor and the trace of text draws; every
    step is a pure function of it. Text widths come from the uninterpreted
    `measure`, and `toFixed(2)` is the parameter `fixed2`. Rectangles and
    images draw nothing into the trace; only their effect on the cursor is
    kept. */
module Layout {
  import opened Wrappers
  import opened Text
  import opened Format
  import opened Wrap
  import opened Schema
  import opened Totals

  // ---------------------------------------------------------------------------
  // page geometry, in points

  const PageWidth: real := 595.28
  const PageHeight: real := 841.89
  const Left: real := 40.0
  const Right: real := PageWidth - 40.0
  const HeaderHeight: real := 64.0
  const FooterHeight: real := 26.0
  /** The first baseline below the header bar. */
  const ContentTopY: real := PageHeight - HeaderHeight - 20.0
  /** The lowest cursor a new unit may start at, above the footer. */
  const ContentMinY: real := 80.0 + FooterHeight
  /** The baseline of the document title in the header bar. */
  const TitleY: real := PageHeight - HeaderHeight + (HeaderHeight - 12.0) / 2.0
  const EventColX: real := Right - 240.0
  const DescX: real := Left + 60.0
  const UnitRight: real := Right - 120.0
  /** The description column ends 8 points before the unit price column. */
  const DescWidth: real := UnitRight - DescX - 8.0

  /** One `drawText`: the page index, the text, the left end of its baseline,
      the font size and the weight. */
  datatype Draw = Draw(page: nat, text: string, x: real, y: real, size: real, bold: bool)

  /** The document being laid out. */
  datatype Doc = Doc(pages: nat, cursor: real, trace: seq<Draw>)

  /** The `PdfOptions` that change the layout; `signature` says whether a
      signature image could be embedded. */
  datatype Options = Options(
    title: Option<string>,
    footerNote: Option<string>,
    itemsHeading: Option<string>,
    signature: bool,
    signaturePrintedName: Option<string>)

  /** What the layout takes from its surroundings: `measure`, `x.toFixed(2)`,
      `String(x)` for a number, and the options. */
  datatype Env = Env(measure: Measure, fixed2: real -> string, show: real -> string, opts: Options)

  /** Two fields the layout reads that the invoice schema does not declare:
      the client's address and the due date. */
  datatype Extras = Extras(address: Option<string>, dueAt: Option<string>)

  /** Every draw so far landed on a page that exists. */
  predicate Placed(d: Doc) {
    forall i :: 0 <= i < |d.trace| ==> d.trace[i].page < d.pages
  }

  /** A document with a current page and only well-placed draws. */
  predicate Good(d: Doc) {
    d.pages >= 1 && Placed(d)
  }

  /** JavaScript truthiness of an optional string. */
  predicate Truthy(o: Option<string>) {
    o.Some? && o.value != ""
  }

  /** An optional string with something other than blanks in it. */
  predicate HasText(o: Option<string>) {
    o.Some? && Trim(o.value) != ""
  }

  // ---------------------------------------------------------------------------
  // drawing and pages

  /** `drawText` on the current page. */
  function Put(d: Doc, text: string, x: real, y: real, size: real, bold: bool): (r: Doc)
    requires Good(d)
    ensures Good(r) && r.pages == d.pages && r.cursor == d.cursor
    ensures r.trace == d.trace + [Draw(d.pages - 1, text, x, y, size, bold)]
  {
    Doc(d.pages, d.cursor, d.trace + [Draw(d.pages - 1, text, x, y, size, bold)])
  }

  /** `drawRight`: the text placed so that it ends at `rightX`. */
  function PutRight(env: Env, d: Doc, text: string, rightX: real, y: real, size: real, bold: bool): (r: Doc)
    requires Good(d)
    ensures Good(r) && r.pages == d.pages && r.cursor == d.cursor && |r.trace| == |d.trace| + 1
    ensures r.trace[..|d.trace|] == d.trace
    ensures var t := r.trace[|d.trace|];
      t.page == d.pages - 1 && t.text == text && t.y == y && t.size == size && t.bold == bold
      && t.x + env.measure(text, size, bold) == rightX
  {
    Put(d, text, rightX - env.measure(text, size, bold), y, size, bold)
  }

  /** The cursor moved down by `dy`. */
  function Down(d: Doc, dy: real): (r: Doc)
    ensures r.pages == d.pages && r.trace == d.trace && r.cursor == d.cursor - dy
  {
    Doc(d.pages, d.cursor - dy, d.trace)
  }

  /** `opts.title || "Propuesta / Factura"`. */
  function DocTitle(opts: Options): string {
    if Truthy(opts.title) then opts.title.value else "Propuesta / Factura"
  }

  /** `addPage()`: a new page with the title in its header, and the cursor at
      the top of its content area. */
  function AddPage(env: Env, d: Doc): (r: Doc)
    requires Placed(d)
    ensures Good(r) && r.pages == d.pages + 1 && r.cursor == ContentTopY
    ensures |r.trace| == |d.trace| + 1 && r.trace[..|d.trace|] == d.trace
    ensures r.trace[|d.trace|].page == d.pages && r.trace[|d.trace|].text == DocTitle(env.opts)
  {
    var p := Doc(d.pages + 1, ContentTopY, d.trace);
    PutRight(env, p, DocTitle(env.opts), Right, TitleY, 14.0, true)
  }

  /** `newPageIfNeeded()`: a new page exactly when the cursor is below the
      content area; otherwise nothing changes. Either way the next unit
      starts at or above `ContentMinY`. */
  function NewPageIfNeeded(env: Env, d: Doc): (r: Doc)
    requires Good(d)
    ensures Good(r)
    ensures d.cursor < ContentMinY ==> r.pages == d.pages + 1 && r.cursor == ContentTopY
    ensures d.cursor >= ContentMinY ==> r == d
    ensures r.cursor >= ContentMinY
    ensures r.pages >= d.pages && |r.trace| >= |d.trace| && r.trace[..|d.trace|] == d.trace
  {
    if d.cursor < ContentMinY then AddPage(env, d) else d
  }

  /** The first page. */
  function Start(env: Env): (r: Doc)
    ensures Good(r) && r.pages == 1 && r.cursor == ContentTopY
  {
    AddPage(env, Doc(0, 0.0, []))
  }

  // ---------------------------------------------------------------------------
  // the invoice meta block

  /** The meta lines that are present, in order: number, issue date, due date. */
  function MetaLines(inv: Invoice, ex: Extras): (r: seq<string>)
    ensures |r| <= 3
  {
    (if Truthy(inv.meta.number) then ["N.º " + inv.meta.number.value] else [])
    + (if inv.meta.issuedAt != "" then ["Fecha: " + FormatDate(Some(inv.meta.issuedAt))] else [])
    + (if Truthy(ex.dueAt) then ["Vence: " + FormatDate(ex.dueAt)] else [])
  }

  /** `t` draws `s` at baseline `y`, ending exactly at `Right`. */
  predicate RightDrawn(env: Env, t: Draw, s: string, y: real) {
    t.text == s && t.y == y && t.x + env.measure(s, 10.0, false) == Right
  }

  /** Lines drawn right-aligned at `Right`, 12 points apart from `y` down. */
  function RightLines(env: Env, d: Doc, lines: seq<string>, y: real): (r: Doc)
    requires Good(d)
    ensures Good(r) && r.pages == d.pages && r.cursor == d.cursor
    ensures |r.trace| == |d.trace| + |lines| && r.trace[..|d.trace|] == d.trace
    ensures forall i :: 0 <= i < |lines| ==>
      RightDrawn(env, r.trace[|d.trace| + i], lines[i], y - 12.0 * (i as real))
    decreases |lines|
  {
    if |lines| == 0 then d
    else
      var d1 := PutRight(env, d, lines[0], Right, y, 10.0, false);
      var r := RightLines(env, d1, lines[1..], y - 12.0);
      assert r.trace[..|d1.trace|][..|d.trace|] == r.trace[..|d.trace|];
      assert forall i :: 0 <= i < |lines| ==>
        RightDrawn(env, r.trace[|d.trace| + i], lines[i], y - 12.0 * (i as real)) by {
        forall i | 0 <= i < |lines|
          ensures RightDrawn(env, r.trace[|d.trace| + i], lines[i], y - 12.0 * (i as real))
        {
          if i > 0 {
            assert RightDrawn(env, r.trace[|d1.trace| + (i - 1)], lines[1..][i - 1], y - 12.0 - 12.0 * ((i - 1) as real));
            assert lines[1..][i - 1] == lines[i];
            assert |d.trace| + i == |d1.trace| + (i - 1);
            assert y - 12.0 - 12.0 * ((i - 1) as real) == y - 12.0 * (i as real);
          } else {
            assert r.trace[|d.trace|] == r.trace[..|d1.trace|][|d.trace|];
          }
        }
      }
      r
  }

  /** `drawInvoiceMeta(page, cursorY)`: one line per present field, then the
      block gap; the cursor ends 12 points per line plus 10 lower. */
  function MetaBlock(env: Env, d: Doc, inv: Invoice, ex: Extras): (r: Doc)
    requires Good(d)
    ensures Good(r) && r.pages == d.pages
    ensures r.cursor == d.cursor - 12.0 * (|MetaLines(inv, ex)| as real) - 10.0
  {
    var lines := MetaLines(inv, ex);
    var r := RightLines(env, d, lines, d.cursor);
    Down(r, 12.0 * (|lines| as real) + 10.0)
  }

  // ---------------------------------------------------------------------------
  // client and event columns

  /** Lines drawn at `x`, `gap` points apart from `y` down, on the current page. */
  function LeftLines(d: Doc, lines: seq<string>, x: real, y: real, gap: real): (r: Doc)
    requires Good(d)
    ensures Good(r) && r.pages == d.pages && r.cursor == d.cursor
    ensures |r.trace| == |d.trace| + |lines| && r.trace[..|d.trace|] == d.trace
    ensures forall i :: 0 <= i < |lines| ==>
      r.trace[|d.trace| + i] == Draw(d.pages - 1, lines[i], x, y - gap * (i as real), 10.0, false)
    decreases |lines|
  {
    if |lines| == 0 then d
    else
      var d1 := Put(d, lines[0], x, y, 10.0, false);
      var r := LeftLines(d1, lines[1..], x, y - gap, gap);
      assert r.trace[..|d1.trace|][..|d.trace|] == r.trace[..|d.trace|];
      r
  }

  /** How many 12-point rows `drawMultiline` uses for these raw lines: one for
      an empty line, one per wrapped line otherwise. */
  function MultilineRows(raws: seq<string>): nat
    decreases |raws|
  {
    if |raws| == 0 then 0
    else (if raws[0] == "" then 1 else |WrapText(raws[0], 42)|) + MultilineRows(raws[1..])
  }

  /** The loop of `drawMultiline` over the raw lines: the document and the
      next baseline. */
  function MultilineLoop(d: Doc, raws: seq<string>, x: real, y: real): (r: (Doc, real))
    requires Good(d)
    ensures Good(r.0) && r.0.pages == d.pages && r.0.cursor == d.cursor
    ensures |r.0.trace| >= |d.trace| && r.0.trace[..|d.trace|] == d.trace
    ensures r.1 == y - 12.0 * (MultilineRows(raws) as real)
    decreases |raws|
  {
    if |raws| == 0 then (d, y)
    else if raws[0] == "" then MultilineLoop(d, raws[1..], x, y - 12.0)
    else
      var w := WrapText(raws[0], 42);
      var d1 := LeftLines(d, w, x, y, 12.0);
      var r := MultilineLoop(d1, raws[1..], x, y - 12.0 * (|w| as real));
      assert r.0.trace[..|d1.trace|][..|d.trace|] == r.0.trace[..|d.trace|];
      r
  }

  /** `drawMultiline(text, x, y, { maxChars: 42 })`. */
  function Multiline(d: Doc, text: string, x: real, y: real): (r: (Doc, real))
    requires Good(d)
    ensures Good(r.0) && r.0.pages == d.pages && r.0.cursor == d.cursor
    ensures r.1 == y - 12.0 * (MultilineRows(SplitLines(text)) as real)
  {
    MultilineLoop(d, SplitLines(text), x, y)
  }

  /** The client column: the name, then the address when it is not blank. */
  function ClientColumn(d: Doc, inv: Invoice, ex: Extras, y: real): (r: (Doc, real))
    requires Good(d)
    ensures Good(r.0) && r.0.pages == d.pages && r.0.cursor == d.cursor
    ensures r.1 <= y - 12.0
  {
    var d1 := Put(d, inv.client.name, Left, y, 10.0, false);
    if HasText(ex.address) then Multiline(d1, ex.address.value, Left, y - 12.0)
    else (d1, y - 12.0)
  }

  /** The event column: name and date when present, then the location when
      it is not blank. */
  function EventColumn(d: Doc, ev: Option<Event>, y: real): (r: (Doc, real))
    requires Good(d)
    ensures Good(r.0) && r.0.pages == d.pages && r.0.cursor == d.cursor
    ensures r.1 <= y
  {
    match ev
    case None => (d, y)
    case Some(e) =>
      var d1 := if Truthy(e.name) then Put(d, e.name.value, EventColX, y, 10.0, false) else d;
      var y1 := if Truthy(e.name) then y - 12.0 else y;
      var d2 := if Truthy(e.date) then Put(d1, e.date.value, EventColX, y1, 10.0, false) else d1;
      var y2 := if Truthy(e.date) then y1 - 12.0 else y1;
      if HasText(e.location) then Multiline(d2, e.location.value, EventColX, y2) else (d2, y2)
  }

  /** `Math.min(yClient, yEvent) - 8`: 8 points below the longer column. */
  function BelowColumns(yClient: real, yEvent: real): (c: real)
    ensures c <= yClient - 8.0 && c <= yEvent - 8.0
    ensures c == yClient - 8.0 || c == yEvent - 8.0
  {
    (if yClient <= yEvent then yClient else yEvent) - 8.0
  }

  /** The "Cliente" and "Evento" headings and the two columns under them. */
  function ClientEvent(d: Doc, inv: Invoice, ex: Extras): (r: Doc)
    requires Good(d)
    ensures Good(r) && r.pages == d.pages
    ensures r.cursor <= d.cursor - 14.0 - 12.0 - 8.0
  {
    var d1 := Put(d, "Cliente", Left, d.cursor, 10.0, true);
    var d2 := Put(d1, "Evento", EventColX, d.cursor, 10.0, true);
    var y := d.cursor - 14.0;
    var (d3, yClient) := ClientColumn(d2, inv, ex, y);
    var (d4, yEvent) := EventColumn(d3, inv.event, y);
    Doc(d4.pages, BelowColumns(yClient, yEvent), d4.trace)
  }

  /** The divider gap, the items heading and the gap after it. */
  function ItemsHeading(env: Env, d: Doc): (r: Doc)
    requires Good(d)
    ensures Good(r) && r.pages == d.pages && r.cursor == d.cursor - 32.0 - 24.0
  {
    var d1 := Down(d, 32.0);
    var d2 := Put(d1, env.opts.itemsHeading.GetOr("Detalle / Ítems"), Left, d1.cursor, 20.0, false);
    Down(d2, 24.0)
  }

  // ---------------------------------------------------------------------------
  // groups and item rows

  /** The description column of an item row. */
  const DescColumn: Column := Column(DescWidth, 10.0, false)

  /** The description of an item, wrapped to its column. */
  function DescLines(env: Env, it: LineItem): (r: seq<string>)
    ensures |r| >= 1
  {
    WrapByWidth(it.desc, env.measure, DescColumn)
  }

  /** `14 * Math.max(1, descLines.length)`. */
  function RowHeight(n: nat): real {
    14.0 * (if n >= 1 then n else 1) as real
  }

  /** `"Q " + x.toFixed(2)`. */
  function Amount(env: Env, x: real): string {
    "Q " + env.fixed2(x)
  }

  /** One item row, drawn at the cursor once the page check has run: the
      quantity, the unit price and the line total right-aligned in their
      columns, and the wrapped description 14 points per line. */
  function ItemRowAt(env: Env, d: Doc, it: LineItem): (r: Doc)
    requires Good(d)
    ensures Good(r) && r.pages == d.pages
    ensures r.cursor == d.cursor - RowHeight(|DescLines(env, it)|)
    ensures |r.trace| == |d.trace| + 3 + |DescLines(env, it)|
    ensures r.trace[|d.trace|] == Draw(d.pages - 1, env.show(it.qty), Left, d.cursor, 10.0, false)
    ensures var t := r.trace[|d.trace| + 2];
      t.text == Amount(env, it.qty * it.unit.amount) && t.y == d.cursor
      && t.x + env.measure(t.text, 10.0, false) == Right
    ensures forall i :: 0 <= i < |DescLines(env, it)| ==>
      r.trace[|d.trace| + 3 + i] == Draw(d.pages - 1, DescLines(env, it)[i], DescX, d.cursor - 14.0 * (i as real), 10.0, false)
  {
    var y := d.cursor;
    var lines := DescLines(env, it);
    var d1 := Put(d, env.show(it.qty), Left, y, 10.0, false);
    var d2 := PutRight(env, d1, Amount(env, it.unit.amount), UnitRight, y, 10.0, false);
    var d3 := PutRight(env, d2, Amount(env, LineTotal(it)), Right, y, 10.0, false);
    var d4 := LeftLines(d3, lines, DescX, y, 14.0);
    assert d4.trace[|d.trace|] == d3.trace[|d.trace|] == d2.trace[|d.trace|] == d1.trace[|d.trace|];
    assert |d2.trace| == |d.trace| + 2;
    assert d4.trace[|d.trace| + 2] == d3.trace[|d2.trace|];
    assert d3.trace[|d2.trace|].text == Amount(env, LineTotal(it));
    assert LineTotal(it) == it.qty * it.unit.amount;
    Down(d4, RowHeight(|lines|))
  }

  /** One item row of the groups loop: the page check, then the row. */
  function ItemRow(env: Env, d: Doc, it: LineItem): (r: Doc)
    requires Good(d)
    ensures Good(r) && r.pages >= d.pages
    ensures r == ItemRowAt(env, NewPageIfNeeded(env, d), it)
  {
    ItemRowAt(env, NewPageIfNeeded(env, d), it)
  }

  function ItemRows(env: Env, d: Doc, items: seq<LineItem>): (r: Doc)
    requires Good(d)
    ensures Good(r) && r.pages >= d.pages
    decreases |items|
  {
    if |items| == 0 then d else ItemRows(env, ItemRow(env, d, items[0]), items[1..])
  }

  /** The title and the column header band of a group, after the page check. */
  function GroupHeader(env: Env, d: Doc, g: Group): (r: Doc)
    requires Good(d)
    ensures Good(r) && r.pages >= d.pages
    ensures r.cursor == NewPageIfNeeded(env, d).cursor - 16.0 - 14.0
  {
    var d1 := NewPageIfNeeded(env, d);
    var d2 := Down(Put(d1, g.title, Left, d1.cursor, 12.0, true), 16.0);
    var y := d2.cursor;
    var d3 := Put(d2, "CANT", Left, y, 10.0, true);
    var d4 := Put(d3, "Descripción", DescX, y, 10.0, true);
    var d5 := PutRight(env, d4, "Precio U.", UnitRight, y, 10.0, true);
    var d6 := PutRight(env, d5, "Total", Right, y, 10.0, true);
    Down(d6, 14.0)
  }

  /** One group: header, item rows, and 8 points of spacing. */
  function GroupBlock(env: Env, d: Doc, g: Group): (r: Doc)
    requires Good(d)
    ensures Good(r) && r.pages >= d.pages
  {
    Down(ItemRows(env, GroupHeader(env, d, g), g.items), 8.0)
  }

  function Groups(env: Env, d: Doc, groups: seq<Group>): (r: Doc)
    requires Good(d)
    ensures Good(r) && r.pages >= d.pages
    decreases |groups|
  {
    if |groups| == 0 then d else Groups(env, GroupBlock(env, d, groups[0]), groups[1..])
  }

  // ---------------------------------------------------------------------------
  // totals

  /** `labelRight = right - max(wSub, wTax, wTot) - 16`: the labels end 16
      points before the widest amount starts, so before every amount. */
  function LabelRight(wSub: real, wTax: real, wTot: real): (x: real)
    ensures x + 16.0 + wSub <= Right && x + 16.0 + wTax <= Right && x + 16.0 + wTot <= Right
    ensures x + 16.0 + wSub == Right || x + 16.0 + wTax == Right || x + 16.0 + wTot == Right
  {
    var m1 := if wSub >= wTax then wSub else wTax;
    var m := if m1 >= wTot then m1 else wTot;
    Right - m - 16.0
  }

  /** `IMPUESTOS (n%)` with the rate as a rounded percentage. */
  function TaxLabel(rate: real): string {
    "IMPUESTOS (" + IntToString(Round(rate * 100.0)) + "%)"
  }

  /** The label drawn at `i` and the amount drawn after it share a baseline,
      and the label ends at least 16 points before the amount starts. */
  predicate RowGap(env: Env, trace: seq<Draw>, i: nat)
    requires i + 1 < |trace|
  {
    var lab := trace[i];
    var amt := trace[i + 1];
    lab.y == amt.y && lab.x + env.measure(lab.text, lab.size, lab.bold) + 16.0 <= amt.x
  }

  /** Drawing more keeps a row already drawn. */
  lemma RowGapKept(env: Env, t: seq<Draw>, t': seq<Draw>, i: nat)
    requires i + 1 < |t| <= |t'| && t'[..|t|] == t && RowGap(env, t, i)
    ensures RowGap(env, t', i)
  {
    assert t'[i] == t[i] && t'[i + 1] == t[i + 1];
  }

  /** One totals row: the label right-aligned at `labelRight`, the amount
      at `Right`. */
  function TotalsRow(env: Env, d: Doc, lab: string, amt: string, labelRight: real, y: real, size: real, amtBold: bool): (r: Doc)
    requires Good(d)
    requires labelRight + 16.0 + env.measure(amt, size, amtBold) <= Right
    ensures Good(r) && r.pages == d.pages && r.cursor == d.cursor
    ensures |r.trace| == |d.trace| + 2 && r.trace[..|d.trace|] == d.trace
    ensures r.trace[|d.trace|].text == lab && r.trace[|d.trace| + 1].text == amt
    ensures r.trace[|d.trace|].y == y && RowGap(env, r.trace, |d.trace|)
  {
    var d1 := PutRight(env, d, lab, labelRight, y, size, true);
    var d2 := PutRight(env, d1, amt, Right, y, size, amtBold);
    assert d2.trace[..|d.trace| + 1] == d1.trace;
    d2
  }

  /** The three totals rows, from the cursor down: the subtotal, the tax and
      the total; every label ends at least 16 points before its amount. */
  function TotalsRows(env: Env, d: Doc, t: Totals, rate: real): (r: Doc)
    requires Good(d)
    ensures Good(r) && r.pages == d.pages && r.cursor == d.cursor - 6.0 - 14.0 - 16.0 - 16.0
    ensures |r.trace| == |d.trace| + 6
    ensures RowGap(env, r.trace, |d.trace|) && RowGap(env, r.trace, |d.trace| + 2)
      && RowGap(env, r.trace, |d.trace| + 4)
  {
    var subAmt := Amount(env, t.subtotal);
    var taxAmt := Amount(env, t.tax);
    var totAmt := Amount(env, t.total);
    var m := env.measure;
    var labelRight := LabelRight(m(subAmt, 10.0, false), m(taxAmt, 10.0, false), m(totAmt, 12.0, true));
    var n := |d.trace|;
    var y1 := d.cursor - 6.0;
    var d1 := TotalsRow(env, d, "SUBTOTAL", subAmt, labelRight, y1, 10.0, false);
    var y2 := y1 - 14.0;
    var d2 := TotalsRow(env, d1, TaxLabel(rate), taxAmt, labelRight, y2, 10.0, false);
    var y3 := y2 - 16.0;
    var d3 := TotalsRow(env, d2, "TOTAL", totAmt, labelRight, y3, 12.0, true);
    RowGapKept(env, d1.trace, d2.trace, n);
    RowGapKept(env, d2.trace, d3.trace, n);
    RowGapKept(env, d2.trace, d3.trace, n + 2);
    Doc(d3.pages, y3 - 16.0, d3.trace)
  }

  /** The divider before the totals, the totals, and the divider after them. */
  function TotalsBlock(env: Env, d: Doc, inv: Invoice): (r: Doc)
    requires Good(d)
    ensures Good(r) && r.pages >= d.pages
  {
    var d1 := Down(NewPageIfNeeded(env, d), 12.0);
    var d2 := TotalsRows(env, d1, InvoiceTotals(inv), inv.taxRate);
    Down(NewPageIfNeeded(env, d2), 8.0 + 12.0)
  }

  // ---------------------------------------------------------------------------
  // bank details, notes, terms

  /** `bank – type – account – name`. */
  function AccountLine(a: Account): string {
    a.bank + " – " + a.kind + " – " + a.account + " – " + a.name
  }

  /** The bank section, drawn when at least one account is present. */
  function BankBlock(d: Doc, bank: Option<Bank>): (r: Doc)
    requires Good(d)
    ensures Good(r) && r.pages == d.pages
    ensures (bank.None? || (bank.value.gtq.None? && bank.value.usd.None?)) ==> r == d
  {
    if bank.None? || (bank.value.gtq.None? && bank.value.usd.None?) then d
    else
      var b := bank.value;
      var d1 := Down(d, 10.0);
      var d2 := Down(Put(d1, "Datos bancarios", Left, d1.cursor, 12.0, true), 16.0);
      var d3 := if b.gtq.Some? then Down(Put(d2, "Q: " + AccountLine(b.gtq.value), Left, d2.cursor, 10.0, false), 14.0) else d2;
      if b.usd.Some? then Down(Put(d3, "USD: " + AccountLine(b.usd.value), Left, d3.cursor, 10.0, false), 14.0) else d3
  }

  /** Lines drawn at `x`, 12 points apart, each after its own page check. */
  function PagedLines(env: Env, d: Doc, lines: seq<string>, x: real): (r: Doc)
    requires Good(d)
    ensures Good(r) && r.pages >= d.pages
    ensures |r.trace| >= |d.trace| + |lines|
    decreases |lines|
  {
    if |lines| == 0 then d
    else
      var d1 := NewPageIfNeeded(env, d);
      var d2 := Down(Put(d1, lines[0], x, d1.cursor, 10.0, false), 12.0);
      PagedLines(env, d2, lines[1..], x)
  }

  /** A section heading: 10 points of space, the title, 16 points more. */
  function SectionTitle(d: Doc, title: string): (r: Doc)
    requires Good(d)
    ensures Good(r) && r.pages == d.pages && r.cursor == d.cursor - 26.0
  {
    var d1 := Down(d, 10.0);
    Down(Put(d1, title, Left, d1.cursor, 12.0, true), 16.0)
  }

  /** The notes: whitespace collapsed, wrapped at 96 characters. */
  function NotesLines(notes: string): seq<string> {
    WrapText(Squeeze(notes), 96)
  }

  function NotesBlock(env: Env, d: Doc, notes: Option<string>): (r: Doc)
    requires Good(d)
    ensures Good(r) && r.pages >= d.pages
    ensures !HasText(notes) ==> r == d
  {
    if !HasText(notes) then d
    else PagedLines(env, SectionTitle(d, "Notas"), NotesLines(notes.value), Left)
  }

  /** `rawLines.some(isBulletLine)`. */
  predicate BulletMode(raws: seq<string>) {
    exists i :: 0 <= i < |raws| && IsBulletLine(raws[i])
  }

  /** One line of a paragraph in bullet mode: a blank line is 6 points of
      space; any other line loses its list marker, is wrapped at 88
      characters and drawn after a bullet glyph, its first line beside it. */
  function BulletItem(env: Env, d: Doc, l: string): (r: Doc)
    requires Good(d)
    ensures Good(r) && r.pages >= d.pages
    ensures Trim(l) != "" ==> |r.trace| >= |NewPageIfNeeded(env, d).trace| + 2
  {
    var d1 := NewPageIfNeeded(env, d);
    if Trim(l) == "" then Down(d1, 6.0)
    else
      var w := WrapText(StripBullet(l), 88);
      var d2 := Put(d1, "•", Left, d1.cursor, 10.0, false);
      var d3 := Down(Put(d2, if |w| > 0 then w[0] else "", Left + 14.0, d1.cursor, 10.0, false), 12.0);
      PagedLines(env, d3, if |w| > 0 then w[1..] else [], Left + 14.0)
  }

  function BulletItems(env: Env, d: Doc, raws: seq<string>): (r: Doc)
    requires Good(d)
    ensures Good(r) && r.pages >= d.pages
    decreases |raws|
  {
    if |raws| == 0 then d else BulletItems(env, BulletItem(env, d, raws[0]), raws[1..])
  }

  /** The prose form of a paragraph: whitespace collapsed, wrapped at 96. */
  function ProseLines(para: string): seq<string> {
    WrapText(Squeeze(para), 96)
  }

  /** One terms paragraph: bullet mode when any of its lines is a list item,
      prose otherwise; 6 points of space after it. */
  function Paragraph(env: Env, d: Doc, para: string): (r: Doc)
    requires Good(d)
    ensures Good(r) && r.pages >= d.pages
  {
    var d1 := NewPageIfNeeded(env, d);
    var raws := SplitLines(para);
    var d2 := if BulletMode(raws) then BulletItems(env, d1, raws) else PagedLines(env, d1, ProseLines(para), Left);
    Down(d2, 6.0)
  }

  function Paragraphs(env: Env, d: Doc, paras: seq<string>): (r: Doc)
    requires Good(d)
    ensures Good(r) && r.pages >= d.pages
    decreases |paras|
  {
    if |paras| == 0 then d else Paragraphs(env, Paragraph(env, d, paras[0]), paras[1..])
  }

  function TermsBlock(env: Env, d: Doc, terms: Option<string>): (r: Doc)
    requires Good(d)
    ensures Good(r) && r.pages >= d.pages
    ensures !HasText(terms) ==> r == d
  {
    if !HasText(terms) then d
    else Paragraphs(env, SectionTitle(d, "Condiciones del servicio"), SplitParagraphs(terms.value))
  }

  // ---------------------------------------------------------------------------
  // signature and footer

  /** The confirmation line, the signature image's room when there is one,
      and the printed name when given. */
  function SignatureBlock(env: Env, d: Doc): (r: Doc)
    requires Good(d)
    ensures Good(r) && r.pages >= d.pages
  {
    var d1 := Down(NewPageIfNeeded(env, d), 14.0);
    var d2 := Down(Put(d1, "Confirmación de presupuesto", Left, d1.cursor, 12.0, true), 12.0 + 16.0);
    var d3 := Down(Put(d2, "Firma: ________________________________", Left, d2.cursor, 10.0, false), 36.0);
    var d4 := NewPageIfNeeded(env, d3);
    var d5 := if env.opts.signature then Down(d4, 63.0 - 8.0 + 10.0) else d4;
    if Truthy(env.opts.signaturePrintedName) then
      Down(Put(d5, env.opts.signaturePrintedName.value, Left, d5.cursor, 9.0, false), 8.0)
    else d5
  }

  /** `${i + 1} / ${n}`. */
  function PageLabel(i: nat, n: nat): string {
    NatToString(i + 1) + " / " + NatToString(n)
  }

  /** The footer draws of page `i` of `n`: the note when there is one, then
      the page number. */
  function FooterDraws(opts: Options, i: nat, n: nat): (r: seq<Draw>)
    ensures |r| >= 1 && r[|r| - 1] == Draw(i, PageLabel(i, n), Right - 24.0, 8.0, 8.0, false)
    ensures forall k :: 0 <= k < |r| ==> r[k].page == i
  {
    (if Truthy(opts.footerNote) then [Draw(i, opts.footerNote.value, Left, 8.0, 8.0, false)] else [])
    + [Draw(i, PageLabel(i, n), Right - 24.0, 8.0, 8.0, false)]
  }

  /** The footers of pages `i` to `n - 1`. */
  function FooterLoop(opts: Options, i: nat, n: nat): (r: seq<Draw>)
    requires i <= n
    ensures forall k :: 0 <= k < |r| ==> i <= r[k].page < n
    decreases n - i
  {
    if i == n then [] else FooterDraws(opts, i, n) + FooterLoop(opts, i + 1, n)
  }

  /** The final pass: a footer on every page. */
  function Footers(env: Env, d: Doc): (r: Doc)
    requires Good(d)
    ensures Good(r) && r.pages == d.pages && r.cursor == d.cursor
    ensures |r.trace| >= |d.trace| && r.trace[..|d.trace|] == d.trace
  {
    var f := FooterLoop(env.opts, 0, d.pages);
    var r := Doc(d.pages, d.cursor, d.trace + f);
    assert forall k :: |d.trace| <= k < |r.trace| ==> r.trace[k] == f[k - |d.trace|];
    r
  }

  // ---------------------------------------------------------------------------
  // the whole document

  /** Everything `generateInvoicePdf` draws before the footer pass. */
  function Body(env: Env, inv: Invoice, ex: Extras): (r: Doc)
    ensures Good(r)
  {
    var d0 := Start(env);
    var d1 := MetaBlock(env, d0, inv, ex);
    var d2 := ClientEvent(d1, inv, ex);
    var d3 := ItemsHeading(env, d2);
    var d4 := Groups(env, d3, inv.groups);
    var d5 := TotalsBlock(env, d4, inv);
    var d6 := BankBlock(d5, inv.bank);
    var d7 := NotesBlock(env, d6, inv.notes);
    var d8 := TermsBlock(env, d7, inv.terms);
    SignatureBlock(env, d8)
  }

  /** `generateInvoicePdf(inv, opts)`, as the trace it draws. */
  function Generate(env: Env, inv: Invoice, ex: Extras): (r: Doc)
    ensures Good(r)
  {
    Footers(env, Body(env, inv, ex))
  }

  // ---------------------------------------------------------------------------
  // lemmas

  /** Every line of an item's description fits its column, or is a single
      character too wide for it, so it never reaches the price columns; a
      blank description is one empty line. */
  lemma DescLinesFit(env: Env, it: LineItem)
    ensures AllSpace(it.desc) <==> DescLines(env, it) == [""]
    ensures !AllSpace(it.desc) ==> forall l :: l in DescLines(env, it) ==> Piece(env.measure, DescColumn, l)
  {
    WrapByWidthLines(it.desc, env.measure, DescColumn);
  }

  /** Each item row lowers the cursor by exactly 14 points per description
      line, at least one line, below where the page check left it. */
  lemma ItemRowHeight(env: Env, d: Doc, it: LineItem)
    requires Good(d)
    ensures var p := NewPageIfNeeded(env, d);
      ItemRow(env, d, it).cursor == p.cursor - 14.0 * (|DescLines(env, it)| as real)
      && ItemRow(env, d, it).cursor <= p.cursor - 14.0
      && p.cursor >= ContentMinY
  {
    var n := |DescLines(env, it)|;
    assert RowHeight(n) == 14.0 * (n as real);
  }

  /** The footer pass draws the label "i+1 / n" on every page `i` from `j` on. */
  lemma {:induction false} FooterLoopLabels(opts: Options, j: nat, n: nat)
    requires j <= n
    ensures forall i :: j <= i < n ==> Draw(i, PageLabel(i, n), Right - 24.0, 8.0, 8.0, false) in FooterLoop(opts, j, n)
    decreases n - j
  {
    if j < n {
      var f := FooterDraws(opts, j, n);
      FooterLoopLabels(opts, j + 1, n);
      assert f[|f| - 1] in f;
    }
  }

  /** One footer draw per page, two when there is a footer note. */
  lemma {:induction false} FooterLoopSize(opts: Options, j: nat, n: nat)
    requires j <= n
    ensures |FooterLoop(opts, j, n)| == (n - j) * (if Truthy(opts.footerNote) then 2 else 1)
    decreases n - j
  {
    if j < n {
      FooterLoopSize(opts, j + 1, n);
    }
  }

  /** Every page carries its number. */
  predicate PagesNumbered(d: Doc) {
    forall i :: 0 <= i < d.pages ==> Draw(i, PageLabel(i, d.pages), Right - 24.0, 8.0, 8.0, false) in d.trace
  }

  /** After the footer pass every page carries its number. */
  lemma FootersNumberPages(env: Env, d: Doc)
    requires Good(d)
    ensures PagesNumbered(Footers(env, d))
  {
    var f := FooterLoop(env.opts, 0, d.pages);
    FooterLoopLabels(env.opts, 0, d.pages);
    var r := Footers(env, d);
    assert r.trace == d.trace + f;
    forall i | 0 <= i < r.pages
      ensures Draw(i, PageLabel(i, r.pages), Right - 24.0, 8.0, 8.0, false) in r.trace
    {
      var w := Draw(i, PageLabel(i, r.pages), Right - 24.0, 8.0, 8.0, false);
      assert w in f;
      var k :| 0 <= k < |f| && f[k] == w;
      assert r.trace[|d.trace| + k] == w;
    }
  }

  /** The generated document has at least one page, every draw is on one of
      its pages, and page `i` of `n` is labelled "i+1 / n". */
  lemma GenerateNumbersPages(env: Env, inv: Invoice, ex: Extras)
    ensures var r := Generate(env, inv, ex);
      Good(r) && r.pages >= 1 && PagesNumbered(r)
  {
    FootersNumberPages(env, Body(env, inv, ex));
  }

  /** A prose paragraph is drawn as `wrapText` lines that lose and add no
      word of the paragraph, and none of them is empty. */
  lemma ProseKeepsWords(para: string)
    ensures Join(ProseLines(para), " ") == Join(Words(para), " ")
    ensures forall i :: 0 <= i < |ProseLines(para)| ==> ProseLines(para)[i] != ""
  {
    WrapTextSqueeze(para, 96);
    WrapTextJoin(para, 96);
    WrapTextNonEmptyLines(para, 96);
  }

  /** A paragraph numbered "1)" is prose, one numbered "1." is a list. */
  lemma BulletModeExamples()
    ensures !BulletMode(["1) Text"])
    ensures BulletMode(["Intro", "1. Text"])
  {
    BulletExamples();
    assert ["Intro", "1. Text"][1] == "1. Text";
  }
}

=== FILE: parse.dfy ===
/** `parseFreeText` and `toNum`: free text becomes groups of parsed items.
    Lines are trimmed and blank ones dropped; a heading opens a group, every
    other line becomes one item of the most recently opened group, and groups
    left without items are dropped at the end. */
module Parse {
  import opened Wrappers
  import opened Text
  import opened Format
  import opened Schema
  import opened Patterns

  /** A parsed item: quantity, price and currency may be missing. */
  datatype ParsedItem = ParsedItem(desc: string, qty: Option<real>, price: Option<real>, currency: Option<Currency>)

  datatype ParsedGroup = ParsedGroup(title: string, items: seq<ParsedItem>)

  // ---------------------------------------------------------------------------
  // toNum

  /** The value of the digits after a decimal point: "d1 d2 ... dn" is
      d1/10 + d2/100 + ... + dn/10^n, always in [0, 1). */
  function Fraction(d: string): (r: real)
    requires AllDigits(d)
    ensures 0.0 <= r < 1.0
    decreases |d|
  {
    if |d| == 0 then 0.0
    else
      assert IsDigit(d[0]) && AllDigits(d[1..]) by {
        assert forall i :: 0 <= i < |d| - 1 ==> d[1..][i] == d[i + 1];
      }
      ((DigitValue(d[0]) as real) + Fraction(d[1..])) / 10.0
  }

  /** `parseFloat(s)`: leading blanks, an optional sign, then digits with an
      optional '.' and more digits, at least one digit in all; `None` stands
      for NaN. */
  function ParseFloat(s: string): Option<real> {
    var t := TrimStart(s);
    var u := DropSign(t);
    var i := DigitRunEnd(u, 0);
    var f := if i < |u| && u[i] == '.' then i + 1 else i;
    var j := DigitRunEnd(u, f);
    if i == 0 && j == f then None
    else
      DigitRunSlice(u, 0);
      DigitRunSlice(u, f);
      var v := (DecimalValue(u[..i]) as real) + Fraction(u[f..j]);
      Some(if |t| > 0 && t[0] == '-' then -v else v)
  }

  /** The digit run starting at `i`, as a string of digits. */
  lemma DigitRunSlice(s: string, i: nat)
    requires i <= |s|
    ensures AllDigits(s[i..DigitRunEnd(s, i)])
  {
    var k := DigitRunEnd(s, i);
    forall j | 0 <= j < k - i
      ensures IsDigit(s[i..k][j])
    {
      assert s[i..k][j] == s[i + j];
    }
  }

  /** `s.replace(/\./g, "")`. */
  function RemoveAll(s: string, c: char): (r: string)
    ensures c !in r
  {
    if |s| == 0 then "" else (if s[0] == c then "" else [s[0]]) + RemoveAll(s[1..], c)
  }

  /** `s.replace(",", ".")`: only the first occurrence. */
  function ReplaceFirst(s: string, c: char, d: char): string {
    if |s| == 0 then ""
    else if s[0] == c then [d] + s[1..]
    else [s[0]] + ReplaceFirst(s[1..], c, d)
  }

  /** `toNum(s)`: drop the thousands dots, read the first comma as the decimal
      point, then `parseFloat`; the empty string gives `None`. */
  function ToNum(s: string): Option<real> {
    if s == "" then None else ParseFloat(ReplaceFirst(RemoveAll(s, '.'), ',', '.'))
  }

  // ---------------------------------------------------------------------------
  // lines and headings

  /** A trimmed line, kept when it is not empty. */
  function KeepLine(t: string): (r: seq<string>)
    ensures |r| <= 1 && forall i :: 0 <= i < |r| ==> r[i] != ""
  {
    if t == "" then [] else [t]
  }

  /** `.map((l) => l.trim()).filter((l) => l.length)`. */
  function CleanLines(ls: seq<string>): (r: seq<string>)
    ensures forall i :: 0 <= i < |r| ==> r[i] != ""
    ensures |r| <= |ls|
  {
    if |ls| == 0 then [] else KeepLine(Trim(ls[0])) + CleanLines(ls[1..])
  }

  /** The trimmed, non-blank lines of the input. */
  function Lines(input: string): seq<string> {
    CleanLines(SplitLines(input))
  }

  predicate IsColon(c: char) {
    c == ':' || c == '\U{FF1A}'
  }

  /** The leftmost match of `[:：]\s*$` at `p` or later. */
  function ColonTail(s: string, p: nat): (r: Option<nat>)
    ensures r.Some? ==> p <= r.value < |s| && IsColon(s[r.value]) && AllSpace(s[r.value + 1..])
    decreases |s| - p
  {
    if p >= |s| then None
    else if IsColon(s[p]) && SpanEnd(s, p + 1, true) == |s| then Some(p)
    else ColonTail(s, p + 1)
  }

  /** `/^#\s+/` matches. */
  predicate HashHeading(s: string) {
    |s| >= 2 && s[0] == '#' && IsSpace(s[1])
  }

  /** `/[:：]\s*$/.test(s) || /^#\s+/.test(s)`. */
  predicate IsHeading(s: string) {
    ColonTail(s, 0).Some? || HashHeading(s)
  }

  /** `s.replace(/^#\s+/, "")`. */
  function DropHash(s: string): string {
    if HashHeading(s) then s[SpanEnd(s, 1, true)..] else s
  }

  /** `s.replace(/[:：]\s*$/, "")`. */
  function DropColon(s: string): string {
    match ColonTail(s, 0)
    case Some(p) => s[..p]
    case None => s
  }

  /** The title a heading line names. */
  function HeadingTitle(s: string): string {
    Trim(DropColon(DropHash(s)))
  }

  // ---------------------------------------------------------------------------
  // items

  /** The line with currency tokens removed, blank runs of two or more
      collapsed to one space, and trimmed: what the item patterns read. */
  function Clean(raw: string): string {
    Trim(CollapseRuns(StripCurrency(raw, 0), 2))
  }

  /** The item a non-heading line becomes. The patterns are tried in order
      `times`, `lead`, `trail`; a line none matches keeps its raw text as the
      description with quantity 1 and no price. */
  function ItemOf(raw: string): (it: ParsedItem)
    ensures it.currency == Some(if HasUsd(raw) then USD else GTQ)
  {
    var cy := Some(CurrencyHint(raw).GetOr(GTQ));
    var lc := Clean(raw);
    match MatchTimes(lc)
    case Some(m) => ParsedItem(Trim(m.desc), ToNum(m.qty), ToNum(m.price), cy)
    case None =>
      match MatchLead(lc)
      case Some(m) => ParsedItem(Trim(m.desc), ToNum(m.qty), ToNum(m.price), cy)
      case None =>
        match MatchTrail(lc)
        case Some(m) => ParsedItem(Trim(m.desc), Some(1.0), ToNum(m.price), cy)
        case None => ParsedItem(raw, Some(1.0), None, cy)
  }

  // ---------------------------------------------------------------------------
  // groups

  /** The item classifier the loop runs on every non-heading line; the parser
      uses `ItemOf`, the grouping facts below hold for any classifier. */
  type Classifier = string -> ParsedItem

  /** One line of the loop; the current group is always the last one. */
  function Step(gs: seq<ParsedGroup>, raw: string, item: Classifier): (r: seq<ParsedGroup>)
    requires |gs| >= 1
    ensures |gs| <= |r| <= |gs| + 1 && r[..|gs| - 1] == gs[..|gs| - 1]
  {
    if IsHeading(raw) then
      var title := HeadingTitle(raw);
      if title != "" then gs + [ParsedGroup(title, [])] else gs
    else
      var cur := gs[|gs| - 1];
      gs[..|gs| - 1] + [ParsedGroup(cur.title, cur.items + [item(raw)])]
  }

  /** The loop over the lines. */
  function Run(gs: seq<ParsedGroup>, lines: seq<string>, item: Classifier): (r: seq<ParsedGroup>)
    requires |gs| >= 1
    ensures |r| >= 1
    decreases |lines|
  {
    if |lines| == 0 then gs else Run(Step(gs, lines[0], item), lines[1..], item)
  }

  /** `groups.filter((g) => g.items.length > 0)`. */
  function KeepNonEmpty(gs: seq<ParsedGroup>): (r: seq<ParsedGroup>)
    ensures forall i :: 0 <= i < |r| ==> r[i].items != []
  {
    if |gs| == 0 then []
    else (if gs[0].items != [] then [gs[0]] else []) + KeepNonEmpty(gs[1..])
  }

  /** `parseFreeText(input)`. */
  function ParseFreeText(input: string): (r: seq<ParsedGroup>)
    ensures forall i :: 0 <= i < |r| ==> r[i].items != []
  {
    var lines := Lines(input);
    if |lines| == 0 then [] else KeepNonEmpty(Run([ParsedGroup("Items", [])], lines, ItemOf))
  }

  // ---------------------------------------------------------------------------
  // reference definitions

  /** The items the item lines become, in order; headings give none. */
  function ItemsOf(lines: seq<string>, item: Classifier): seq<ParsedItem> {
    if |lines| == 0 then []
    else (if IsHeading(lines[0]) then [] else [item(lines[0])]) + ItemsOf(lines[1..], item)
  }

  /** Every item of every group, in order. */
  function Flatten(gs: seq<ParsedGroup>): seq<ParsedItem> {
    if |gs| == 0 then [] else gs[0].items + Flatten(gs[1..])
  }

  /** No line is a heading. */
  predicate NoHeadings(lines: seq<string>) {
    forall i :: 0 <= i < |lines| ==> !IsHeading(lines[i])
  }

  // ---------------------------------------------------------------------------
  // lemmas: grouping

  lemma {:induction false} FlattenAppend(a: seq<ParsedGroup>, b: seq<ParsedGroup>)
    ensures Flatten(a + b) == Flatten(a) + Flatten(b)
    decreases |a|
  {
    if |a| == 0 {
      assert a + b == b;
    } else {
      assert (a + b)[0] == a[0];
      assert (a + b)[1..] == a[1..] + b;
      FlattenAppend(a[1..], b);
    }
  }

  lemma SplitLast<T>(s: seq<T>)
    requires |s| >= 1
    ensures s == s[..|s| - 1] + [s[|s| - 1]]
  {
  }

  lemma FlattenSnoc(gs: seq<ParsedGroup>, g: ParsedGroup)
    ensures Flatten(gs + [g]) == Flatten(gs) + g.items
  {
    FlattenAppend(gs, [g]);
    assert Flatten([g]) == g.items + Flatten([]);
  }

  lemma StepHeadingFlatten(gs: seq<ParsedGroup>, raw: string, item: Classifier)
    requires |gs| >= 1 && IsHeading(raw)
    ensures Flatten(Step(gs, raw, item)) == Flatten(gs)
  {
    if HeadingTitle(raw) != "" {
      var g := ParsedGroup(HeadingTitle(raw), []);
      FlattenSnoc(gs, g);
      assert Flatten(gs) + [] == Flatten(gs);
    }
  }

  lemma StepItemFlatten(gs: seq<ParsedGroup>, raw: string, item: Classifier)
    requires |gs| >= 1 && !IsHeading(raw)
    ensures Flatten(Step(gs, raw, item)) == Flatten(gs) + [item(raw)]
  {
    var n := |gs| - 1;
    var last := gs[n];
    var g := ParsedGroup(last.title, last.items + [item(raw)]);
    FlattenSnoc(gs[..n], g);
    SplitLast(gs);
    FlattenSnoc(gs[..n], last);
  }

  /** A heading adds no item; any other line adds exactly its own item, after
      all the items already read. */
  lemma StepFlatten(gs: seq<ParsedGroup>, raw: string, item: Classifier)
    requires |gs| >= 1
    ensures Flatten(Step(gs, raw, item)) == Flatten(gs) + (if IsHeading(raw) then [] else [item(raw)])
  {
    if IsHeading(raw) {
      StepHeadingFlatten(gs, raw, item);
      assert Flatten(gs) + [] == Flatten(gs);
    } else {
      StepItemFlatten(gs, raw, item);
    }
  }

  lemma {:induction false} RunFlatten(gs: seq<ParsedGroup>, lines: seq<string>, item: Classifier)
    requires |gs| >= 1
    ensures Flatten(Run(gs, lines, item)) == Flatten(gs) + ItemsOf(lines, item)
    decreases |lines|
  {
    if |lines| > 0 {
      StepFlatten(gs, lines[0], item);
      RunFlatten(Step(gs, lines[0], item), lines[1..], item);
    }
  }

  lemma {:induction false} KeepNonEmptyFlatten(gs: seq<ParsedGroup>)
    ensures Flatten(KeepNonEmpty(gs)) == Flatten(gs)
    decreases |gs|
  {
    if |gs| > 0 {
      var head := if gs[0].items != [] then [gs[0]] else [];
      KeepNonEmptyFlatten(gs[1..]);
      FlattenAppend(head, KeepNonEmpty(gs[1..]));
    }
  }

  /** Every item line gives exactly one item and headings give none: the
      items of all groups, read in order, are the items of the item lines. */
  lemma ParseItemsInOrder(input: string)
    ensures Flatten(ParseFreeText(input)) == ItemsOf(Lines(input), ItemOf)
  {
    var lines := Lines(input);
    if |lines| > 0 {
      var g0 := [ParsedGroup("Items", [])];
      RunFlatten(g0, lines, ItemOf);
      KeepNonEmptyFlatten(Run(g0, lines, ItemOf));
    }
  }

  /** The parse is empty exactly when no line is an item line, in particular
      for input without a non-blank line. */
  lemma ParseEmpty(input: string)
    ensures ParseFreeText(input) == [] <==> ItemsOf(Lines(input), ItemOf) == []
    ensures Lines(input) == [] ==> ParseFreeText(input) == []
  {
    ParseItemsInOrder(input);
    var r := ParseFreeText(input);
    if r != [] {
      assert r[0].items != [];
      assert Flatten(r) == r[0].items + Flatten(r[1..]);
    }
  }

  /** Every string of the list is blank. */
  predicate AllBlank(ls: seq<string>) {
    forall i :: 0 <= i < |ls| ==> AllSpace(ls[i])
  }

  lemma AllBlankCons(x: string, ls: seq<string>)
    requires AllSpace(x) && AllBlank(ls)
    ensures AllBlank([x] + ls)
  {
    forall i | 0 <= i < |[x] + ls|
      ensures AllSpace(([x] + ls)[i])
    {
      if i > 0 {
        assert ([x] + ls)[i] == ls[i - 1];
      }
    }
  }

  lemma AllSpaceParts(s: string, cur: string, n: nat)
    requires AllSpace(s) && AllSpace(cur) && 1 <= |s| && n <= |s|
    ensures AllSpace(s[n..]) && AllSpace(s[1..]) && AllSpace(cur + [s[0]])
  {
    assert forall j :: n <= j < |s| ==> s[n..][j - n] == s[j];
    assert forall j :: 1 <= j < |s| ==> s[1..][j - 1] == s[j];
    assert forall j :: 0 <= j < |cur| ==> (cur + [s[0]])[j] == cur[j];
  }

  /** Splitting blank text gives only blank pieces. */
  lemma {:induction false} SplitAccAllSpace(s: string, cur: string, sep: Separator)
    requires AllSpace(s) && AllSpace(cur)
    ensures AllBlank(SplitAcc(s, cur, sep))
    decreases |s|
  {
    if |s| > 0 {
      var n := MatchLen(sep, s);
      AllSpaceParts(s, cur, n);
      if n > 0 {
        SplitAccAllSpace(s[n..], "", sep);
        AllBlankCons(cur, SplitAcc(s[n..], "", sep));
      } else {
        SplitAccAllSpace(s[1..], cur + [s[0]], sep);
      }
    } else {
      assert AllBlank([cur]);
    }
  }

  lemma TrimAllSpace(s: string)
    requires AllSpace(s)
    ensures Trim(s) == ""
  {
    assert TrimStart(s) == "" by {
      TrimStartAllSpace(s);
    }
  }

  lemma {:induction false} TrimStartAllSpace(s: string)
    requires AllSpace(s)
    ensures TrimStart(s) == ""
    decreases |s|
  {
    if |s| > 0 {
      TrimStartAllSpace(s[1..]);
    }
  }

  lemma {:induction false} CleanLinesAllSpace(ls: seq<string>)
    requires AllBlank(ls)
    ensures CleanLines(ls) == []
    decreases |ls|
  {
    if |ls| > 0 {
      TrimAllSpace(ls[0]);
      CleanLinesAllSpace(ls[1..]);
    }
  }

  /** Blank input parses to no groups at all. */
  lemma ParseBlank(input: string)
    requires AllSpace(input)
    ensures ParseFreeText(input) == []
  {
    SplitAccAllSpace(input, "", LineBreak);
    CleanLinesAllSpace(SplitLines(input));
  }

  /** An item line appends its item to the current group. */
  lemma StepItem(gs: seq<ParsedGroup>, raw: string, item: Classifier)
    requires |gs| >= 1 && !IsHeading(raw)
    ensures var n := |gs| - 1; var r := Step(gs, raw, item);
      |r| == |gs| && r[..n] == gs[..n] && r[n] == ParsedGroup(gs[n].title, gs[n].items + [item(raw)])
  {
  }

  lemma NoHeadingsRest(lines: seq<string>)
    requires |lines| >= 1 && NoHeadings(lines)
    ensures !IsHeading(lines[0]) && NoHeadings(lines[1..])
  {
    forall i | 0 <= i < |lines[1..]| ensures !IsHeading(lines[1..][i]) {
      assert lines[1..][i] == lines[i + 1];
    }
  }

  /** Item lines after the current group only extend that group. */
  lemma {:induction false} RunItemLines(gs: seq<ParsedGroup>, lines: seq<string>, item: Classifier)
    requires |gs| >= 1 && NoHeadings(lines)
    ensures var n := |gs| - 1;
      Run(gs, lines, item) == gs[..n] + [ParsedGroup(gs[n].title, gs[n].items + ItemsOf(lines, item))]
    decreases |lines|
  {
    var n := |gs| - 1;
    if |lines| == 0 {
      assert gs == gs[..n] + [gs[n]];
      assert gs[n].items + [] == gs[n].items;
    } else {
      var raw := lines[0];
      NoHeadingsRest(lines);
      var gs' := Step(gs, raw, item);
      StepItem(gs, raw, item);
      RunItemLines(gs', lines[1..], item);
      assert ItemsOf(lines, item) == [item(raw)] + ItemsOf(lines[1..], item);
      assert gs[n].items + [item(raw)] + ItemsOf(lines[1..], item) == gs[n].items + ItemsOf(lines, item);
    }
  }

  /** A heading with a non-empty title opens a group that collects the item
      lines after it. */
  lemma HeadingOpensGroup(gs: seq<ParsedGroup>, h: string, rest: seq<string>, item: Classifier)
    requires |gs| >= 1 && IsHeading(h) && HeadingTitle(h) != "" && NoHeadings(rest)
    ensures Run(gs, [h] + rest, item) == gs + [ParsedGroup(HeadingTitle(h), ItemsOf(rest, item))]
  {
    var gs' := gs + [ParsedGroup(HeadingTitle(h), [])];
    assert ([h] + rest)[1..] == rest;
    RunItemLines(gs', rest, item);
    assert gs'[..|gs|] == gs;
    assert [] + ItemsOf(rest, item) == ItemsOf(rest, item);
  }

  /** A heading whose title is empty once stripped is skipped: the items after
      it stay in the current group. */
  lemma EmptyHeadingSkipped(gs: seq<ParsedGroup>, h: string, rest: seq<string>, item: Classifier)
    requires |gs| >= 1 && IsHeading(h) && HeadingTitle(h) == ""
    ensures Run(gs, [h] + rest, item) == Run(gs, rest, item)
  {
    assert ([h] + rest)[1..] == rest;
  }

  /** The implicit first group keeps its title and only grows. */
  lemma {:induction false} RunKeepsFirst(gs: seq<ParsedGroup>, lines: seq<string>, item: Classifier)
    requires |gs| >= 1
    ensures Run(gs, lines, item)[0].title == gs[0].title
    ensures gs[0].items <= Run(gs, lines, item)[0].items
    decreases |lines|
  {
    if |lines| > 0 {
      var gs' := Step(gs, lines[0], item);
      RunKeepsFirst(gs', lines[1..], item);
      if |gs| == 1 && !IsHeading(lines[0]) {
        assert gs'[0].items == gs[0].items + [item(lines[0])];
      } else {
        assert gs'[0] == gs[0];
      }
    }
  }

  /** The loop started on the implicit group, first line an item line. */
  lemma FirstGroupRun(lines: seq<string>, item: Classifier)
    requires |lines| >= 1 && !IsHeading(lines[0])
    ensures var r := KeepNonEmpty(Run([ParsedGroup("Items", [])], lines, item));
      |r| >= 1 && r[0].title == "Items" && r[0].items[0] == item(lines[0])
  {
    var g0 := [ParsedGroup("Items", [])];
    var gs' := Step(g0, lines[0], item);
    assert gs' == [ParsedGroup("Items", [item(lines[0])])] by {
      assert g0[..0] == [] && [] + [item(lines[0])] == [item(lines[0])];
    }
    var r := Run(g0, lines, item);
    assert r == Run(gs', lines[1..], item);
    assert r[0].title == "Items" && [item(lines[0])] <= r[0].items by {
      RunKeepsFirst(gs', lines[1..], item);
    }
    assert KeepNonEmpty(r)[0] == r[0];
  }

  /** When the first line is an item line, the first group is the implicit
      "Items" group and starts with that line's item. */
  lemma FirstGroupIsItems(input: string)
    requires |Lines(input)| >= 1 && !IsHeading(Lines(input)[0])
    ensures |ParseFreeText(input)| >= 1
    ensures ParseFreeText(input)[0].title == "Items"
    ensures ParseFreeText(input)[0].items[0] == ItemOf(Lines(input)[0])
  {
    FirstGroupRun(Lines(input), ItemOf);
  }

  // ---------------------------------------------------------------------------
  // lemmas: toNum

  lemma {:induction false} RemoveAllAbsent(s: string, c: char)
    requires c !in s
    ensures RemoveAll(s, c) == s
    decreases |s|
  {
    if |s| > 0 {
      assert c !in s[1..] by {
        assert forall x :: x in s[1..] ==> x in s;
      }
      RemoveAllAbsent(s[1..], c);
      assert s == [s[0]] + s[1..];
    }
  }

  lemma {:induction false} RemoveAllAppend(a: string, b: string, c: char)
    ensures RemoveAll(a + b, c) == RemoveAll(a, c) + RemoveAll(b, c)
    decreases |a|
  {
    if |a| == 0 {
      assert a + b == b;
    } else {
      assert (a + b)[0] == a[0];
      assert (a + b)[1..] == a[1..] + b;
      RemoveAllAppend(a[1..], b, c);
    }
  }

  lemma {:induction false} ReplaceFirstAbsent(s: string, c: char, d: char)
    requires c !in s
    ensures ReplaceFirst(s, c, d) == s
    decreases |s|
  {
    if |s| > 0 {
      assert c !in s[1..] by {
        assert forall x :: x in s[1..] ==> x in s;
      }
      ReplaceFirstAbsent(s[1..], c, d);
      assert s == [s[0]] + s[1..];
    }
  }

  /** Only the first `c` is replaced; what follows it is kept as it is. */
  lemma {:induction false} ReplaceFirstAt(a: string, b: string, c: char, d: char)
    requires c !in a
    ensures ReplaceFirst(a + [c] + b, c, d) == a + [d] + b
    decreases |a|
  {
    if |a| == 0 {
      assert a + [c] + b == [c] + b;
      assert ([c] + b)[1..] == b;
    } else {
      assert c !in a[1..] by {
        assert forall x :: x in a[1..] ==> x in a;
      }
      assert (a + [c] + b)[0] == a[0];
      assert (a + [c] + b)[1..] == a[1..] + [c] + b;
      ReplaceFirstAt(a[1..], b, c, d);
      assert a + [d] + b == [a[0]] + (a[1..] + [d] + b);
    }
  }

  lemma DigitsHaveNoMarks(s: string)
    requires AllDigits(s)
    ensures '.' !in s && ',' !in s && (s == "" || !IsSpace(s[0]))
  {
    forall i | 0 <= i < |s|
      ensures s[i] != '.' && s[i] != ','
    {
      assert IsDigit(s[i]);
    }
  }

  /** The digit run from `i` ends at `d` when `s[i..d]` are digits and `s[d]`
      is not. */
  lemma {:induction false} DigitRunUntil(s: string, i: nat, d: nat)
    requires i <= d <= |s| && AllDigits(s[i..d]) && (d == |s| || !IsDigit(s[d]))
    ensures DigitRunEnd(s, i) == d
    decreases d - i
  {
    if i < d {
      assert s[i..d][0] == s[i];
      assert s[i + 1..d] == s[i..d][1..];
      DigitRunUntil(s, i + 1, d);
    }
  }

  lemma DigitNotSpace(c: char)
    requires IsDigit(c)
    ensures !IsSpace(c) && c != '-' && c != '+'
  {
  }

  /** Text starting with a digit has no leading blank and no sign. */
  lemma DigitLead(u: string)
    requires u != "" && IsDigit(u[0])
    ensures TrimStart(u) == u && DropSign(u) == u && u[0] != '-'
  {
    DigitNotSpace(u[0]);
    TrimStartKeeps(u);
  }

  /** `parseFloat` of text with no leading blank or sign, given where its
      digit runs end and what they hold. */
  lemma ParseFloatAt(u: string, i: nat, f: nat, j: nat, a: string, b: string)
    requires TrimStart(u) == u && DropSign(u) == u && (u == "" || u[0] != '-')
    requires DigitRunEnd(u, 0) == i && f == (if i < |u| && u[i] == '.' then i + 1 else i)
    requires DigitRunEnd(u, f) == j && !(i == 0 && j == f)
    requires f <= j && u[..i] == a && u[f..j] == b && AllDigits(a) && AllDigits(b)
    ensures ParseFloat(u) == Some((DecimalValue(a) as real) + Fraction(b))
  {
  }

  /** The parts of "digits.digits". */
  lemma PointParts(a: string, b: string, u: string)
    requires AllDigits(a) && a != "" && u == a + "." + b
    ensures u[..|a|] == a && u[|a|] == '.' && u[|a| + 1..] == b && u[|a| + 1..|u|] == b
    ensures IsDigit(u[0])
  {
    assert u[0] == a[0];
  }

  /** Where the digit runs of "digits.digits" end. */
  lemma PointRuns(a: string, b: string, u: string)
    requires AllDigits(a) && AllDigits(b) && a != "" && u == a + "." + b
    ensures TrimStart(u) == u && DropSign(u) == u && u[0] != '-'
    ensures DigitRunEnd(u, 0) == |a| && u[|a|] == '.' && DigitRunEnd(u, |a| + 1) == |u|
    ensures u[..|a|] == a && u[|a| + 1..|u|] == b
  {
    PointParts(a, b, u);
    DigitLead(u);
    DigitRunUntil(u, 0, |a|);
    DigitRunUntil(u, |a| + 1, |u|);
  }

  /** `parseFloat` of digits, a '.' and more digits. */
  lemma ParseFloatDecimal(a: string, b: string)
    requires AllDigits(a) && AllDigits(b) && a != ""
    ensures ParseFloat(a + "." + b) == Some((DecimalValue(a) as real) + Fraction(b))
  {
    PointRuns(a, b, a + "." + b);
    ParseFloatAt(a + "." + b, |a|, |a| + 1, |a + "." + b|, a, b);
  }

  /** Where the digit run of a digit string ends. */
  lemma WholeRuns(a: string)
    requires AllDigits(a) && a != ""
    ensures TrimStart(a) == a && DropSign(a) == a && a[0] != '-'
    ensures DigitRunEnd(a, 0) == |a| && DigitRunEnd(a, |a|) == |a|
    ensures a[..|a|] == a && a[|a|..|a|] == ""
  {
    DigitLead(a);
    assert DigitRunEnd(a, 0) == |a| by {
      assert a[0..|a|] == a;
      DigitRunUntil(a, 0, |a|);
    }
  }

  /** `parseFloat` of digits alone. */
  lemma ParseFloatWhole(a: string)
    requires AllDigits(a) && a != ""
    ensures ParseFloat(a) == Some(DecimalValue(a) as real)
  {
    WholeRuns(a);
    ParseFloatAt(a, |a|, |a|, |a|, a, "");
    assert Fraction("") == 0.0;
  }

  /** A whole number reads as its decimal value. */
  lemma ToNumWhole(s: string)
    requires AllDigits(s) && s != ""
    ensures ToNum(s) == Some(DecimalValue(s) as real)
  {
    DigitsHaveNoMarks(s);
    RemoveAllAbsent(s, '.');
    ReplaceFirstAbsent(s, ',', '.');
    ParseFloatWhole(s);
  }

  /** Dropping every '.' from digits, a '.' and digits leaves the digits. */
  lemma RemoveDot(a: string, b: string)
    requires AllDigits(a) && AllDigits(b)
    ensures RemoveAll(a + "." + b, '.') == a + b
  {
    assert '.' !in a && '.' !in b by {
      DigitsHaveNoMarks(a);
      DigitsHaveNoMarks(b);
    }
    calc {
      RemoveAll(a + "." + b, '.');
    == { RemoveAllAppend(a + ".", b, '.'); }
      RemoveAll(a + ".", '.') + RemoveAll(b, '.');
    == { RemoveAllAppend(a, ".", '.'); }
      RemoveAll(a, '.') + RemoveAll(".", '.') + RemoveAll(b, '.');
    == { RemoveAllAbsent(a, '.'); RemoveAllAbsent(b, '.'); }
      a + RemoveAll(".", '.') + b;
    == { assert RemoveAll(".", '.') == ""; }
      a + "" + b;
    == { assert a + "" == a; }
      a + b;
    }
  }

  /** A comma is the decimal mark: "15,50" reads as 15.5. */
  lemma ToNumComma(a: string, b: string)
    requires AllDigits(a) && AllDigits(b) && a != ""
    ensures ToNum(a + "," + b) == Some((DecimalValue(a) as real) + Fraction(b))
  {
    DigitsHaveNoMarks(a);
    DigitsHaveNoMarks(b);
    RemoveAllAppend(a + ",", b, '.');
    RemoveAllAppend(a, ",", '.');
    RemoveAllAbsent(a, '.');
    RemoveAllAbsent(b, '.');
    assert RemoveAll(",", '.') == ",";
    ReplaceFirstAt(a, b, ',', '.');
    ParseFloatDecimal(a, b);
  }

  lemma DigitsAppend(a: string, b: string)
    requires AllDigits(a) && AllDigits(b)
    ensures AllDigits(a + b)
  {
    var ab := a + b;
    forall j | 0 <= j < |ab|
      ensures IsDigit(ab[j])
    {
      if j >= |a| {
        assert ab[j] == b[j - |a|];
      }
    }
  }

  /** A dot is a thousands separator and is dropped: "1.500" reads as 1500,
      and so does a dot meant as a decimal point, "12.50" reading as 1250. */
  lemma ToNumDot(a: string, b: string)
    requires AllDigits(a) && AllDigits(b) && a != ""
    ensures ToNum(a + "." + b) == Some(DecimalValue(a + b) as real)
  {
    var s := a + "." + b;
    var ab := a + b;
    assert s != "";
    RemoveDot(a, b);
    DigitsAppend(a, b);
    DigitsHaveNoMarks(ab);
    ReplaceFirstAbsent(ab, ',', '.');
    ParseFloatWhole(ab);
    assert ToNum(s) == ParseFloat(ReplaceFirst(RemoveAll(s, '.'), ',', '.'));
  }

  lemma RemoveDotComma(a: string, b: string, c: string)
    requires AllDigits(a) && AllDigits(b) && AllDigits(c)
    ensures RemoveAll(a + "." + b + "," + c, '.') == (a + b) + "," + c
  {
    var s := a + "." + b + "," + c;
    assert s == (a + "." + b) + ("," + c);
    assert RemoveAll(s, '.') == RemoveAll(a + "." + b, '.') + RemoveAll("," + c, '.') by {
      RemoveAllAppend(a + "." + b, "," + c, '.');
    }
    assert RemoveAll(a + "." + b, '.') == a + b by {
      RemoveDot(a, b);
    }
    assert RemoveAll("," + c, '.') == "," + c by {
      RemoveAllAppend(",", c, '.');
      assert RemoveAll(",", '.') == ",";
      DigitsHaveNoMarks(c);
      RemoveAllAbsent(c, '.');
    }
    assert (a + b) + ("," + c) == (a + b) + "," + c;
  }

  /** `toNum` only sees the text with its dots removed. */
  lemma ToNumSeesNoDots(s: string, t: string)
    requires s != "" && t != "" && RemoveAll(s, '.') == RemoveAll(t, '.')
    ensures ToNum(s) == ToNum(t)
  {
  }

  /** Digits, a comma and digits have no dot to drop. */
  lemma CommaTextKeeps(x: string, y: string)
    requires AllDigits(x) && AllDigits(y)
    ensures RemoveAll(x + "," + y, '.') == x + "," + y
  {
    DigitsHaveNoMarks(x);
    DigitsHaveNoMarks(y);
    assert '.' !in x + "," + y by {
      assert forall ch :: ch in x + "," + y ==> ch in x || ch == ',' || ch in y;
    }
    RemoveAllAbsent(x + "," + y, '.');
  }

  /** Thousands dots before a decimal comma are dropped: "1.500,50" reads as
      "1500,50" does, that is 1500 + 50/100 by `ToNumComma`. */
  lemma ToNumGrouped(a: string, b: string, c: string)
    requires AllDigits(a) && AllDigits(b) && AllDigits(c)
    ensures ToNum(a + "." + b + "," + c) == ToNum((a + b) + "," + c)
  {
    assert RemoveAll(a + "." + b + "," + c, '.') == (a + b) + "," + c by {
      RemoveDotComma(a, b, c);
    }
    assert RemoveAll((a + b) + "," + c, '.') == (a + b) + "," + c by {
      DigitsAppend(a, b);
      CommaTextKeeps(a + b, c);
    }
    ToNumSeesNoDots(a + "." + b + "," + c, (a + b) + "," + c);
  }

  // ---------------------------------------------------------------------------
  // lemmas: headings

  /** `[:：]\s*$` is found whenever some colon is followed only by blanks. */
  lemma {:induction false} ColonTailFinds(s: string, p: nat, q: nat)
    requires p <= q < |s| && IsColon(s[q]) && AllSpace(s[q + 1..])
    ensures ColonTail(s, p).Some?
    decreases q - p
  {
    forall j | q + 1 <= j < |s|
      ensures IsSpace(s[j])
    {
      assert s[q + 1..][j - (q + 1)] == s[j];
    }
    if p < q {
      ColonTailFinds(s, p + 1, q);
    }
  }

  /** A blank suffix that is not empty ends the text with a blank. */
  lemma AllSpaceReachesEnd(s: string, p: nat)
    requires p <= |s| && AllSpace(s[p..])
    ensures p < |s| ==> IsSpace(s[|s| - 1])
  {
    if p < |s| {
      assert s[p..][|s| - 1 - p] == s[|s| - 1];
    }
  }

  /** On a trimmed line, the colon form of a heading is a line whose last
      character is a colon. */
  lemma HeadingShape(l: string)
    requires l != "" && !IsSpace(l[|l| - 1])
    ensures IsHeading(l) <==> IsColon(l[|l| - 1]) || HashHeading(l)
  {
    if IsColon(l[|l| - 1]) {
      ColonTailFinds(l, 0, |l| - 1);
    }
    match ColonTail(l, 0)
    case Some(p) =>
      AllSpaceReachesEnd(l, p + 1);
    case None =>
  }

  /** The title of "w:" is `w` trimmed: only the final colon is removed. */
  lemma ColonHeadingTitle(w: string)
    requires !HashHeading(w + ":")
    ensures IsHeading(w + ":") && HeadingTitle(w + ":") == Trim(w)
  {
    var s := w + ":";
    ColonTailFinds(s, 0, |w|);
    var p := ColonTail(s, 0).value;
    AllSpaceReachesEnd(s, p + 1);
    assert p == |w|;
    assert DropHash(s) == s;
    assert s[..|w|] == w;
  }
}

=== FILE: patterns.dfy ===
/** The regular expressions of the free-text item parser, encoded as token
    recognisers and explicit searches.

    The three item patterns are
      times:  `(.+?)\s+(N)\s*(?:x|×|@)\s*(N)(?!\S)` (case-insensitive, unanchored)
      lead:   `^(N)\s+(.+?)\s+(N)$`
      trail:  `^(.+?)\s+(N)$`
    where N is `\d+(?:[.,]\d+)?`. Backtracking only has real choices at the
    lazy `(.+?)` groups, and for `lead` also at the first `\s+`, which may
    give blanks back to the description that follows it: every other
    quantifier is followed by something its own characters cannot match, so
    only its longest run can lead to a match. The searches below try the
    choices in the order the regex engine does, and the lemmas at the end
    say that the match found is the first one in that order. */
module Patterns {
  import opened Wrappers
  import opened Text
  import opened Format
  import opened Schema

  /** What `.` refuses: the ECMAScript line terminators. */
  predicate IsLineTerminator(c: char) {
    c == '\n' || c == '\r' || c == '\U{2028}' || c == '\U{2029}'
  }

  /** `.` matches every character of `s[a..e]`. */
  predicate AnyChars(s: string, a: nat, e: nat)
    requires a <= e <= |s|
  {
    forall j :: a <= j < e ==> !IsLineTerminator(s[j])
  }

  predicate IsDecimalMark(c: char) {
    c == '.' || c == ','
  }

  /** `(?:x|×|@)` under the `i` flag. */
  predicate IsTimes(c: char) {
    c == 'x' || c == 'X' || c == '\U{00D7}' || c == '@'
  }

  /** The end of the longest match of `\d+(?:[.,]\d+)?` at `k`; `None` when
      `s[k]` is not a digit. */
  function NumEnd(s: string, k: nat): (r: Option<nat>)
    requires k <= |s|
    ensures r.Some? <==> k < |s| && IsDigit(s[k])
    ensures r.Some? ==> k < r.value <= |s| && IsDigit(s[r.value - 1])
    ensures r.Some? ==> r.value == |s| || !IsDigit(s[r.value])
  {
    var d := DigitRunEnd(s, k);
    if d == k then None
    else if d + 1 < |s| && IsDecimalMark(s[d]) && IsDigit(s[d + 1]) then Some(DigitRunEnd(s, d + 1))
    else Some(d)
  }

  /** The spans of the two numbers a `times` match ends with. */
  datatype Spans = Spans(qtyStart: nat, qtyEnd: nat, priceStart: nat, priceEnd: nat)

  /** `\s+(N)\s*(?:x|×|@)\s*(N)(?!\S)` at `e`, the part of `times` after the
      description. */
  function TimesTail(s: string, e: nat): (r: Option<Spans>)
    requires e <= |s|
    ensures r.Some? ==> (e < r.value.qtyStart < r.value.qtyEnd <= r.value.priceStart
                         < r.value.priceEnd <= |s|)
  {
    var k := SpanEnd(s, e, true);
    if k == e then None
    else
      match NumEnd(s, k)
      case None => None
      case Some(n1) =>
        match SignAndPrice(s, n1)
        case None => None
        case Some((k2, n2)) => Some(Spans(k, n1, k2, n2))
  }

  /** `\s*(?:x|×|@)\s*(N)(?!\S)` at `n`, the part of `times` after the
      quantity. Gives the price's span. */
  function SignAndPrice(s: string, n: nat): (r: Option<(nat, nat)>)
    requires n <= |s|
    ensures r.Some? ==> n < r.value.0 < r.value.1 <= |s|
  {
    var o := SpanEnd(s, n, true);
    if o < |s| && IsTimes(s[o]) then
      var k2 := SpanEnd(s, o + 1, true);
      match NumEnd(s, k2)
      case None => None
      case Some(n2) => if n2 == |s| || IsSpace(s[n2]) then Some((k2, n2)) else None
    else None
  }

  /** `\s+(N)$` at `e`: blanks, then a number running to the end. Gives the
      number's span. */
  function PriceTail(s: string, e: nat): (r: Option<(nat, nat)>)
    requires e <= |s|
    ensures r.Some? ==> e < r.value.0 < r.value.1 == |s|
  {
    var k := SpanEnd(s, e, true);
    if k == e then None
    else
      match NumEnd(s, k)
      case None => None
      case Some(n) => if n == |s| then Some((k, n)) else None
  }

  /** Which pattern follows a lazy description group. */
  datatype TailKind = TimesPrice | EndPrice

  /** The part of the pattern after a lazy description group matches at `e`. */
  predicate TailOk(s: string, e: nat, kind: TailKind) {
    e <= |s|
    && match kind
       case TimesPrice => TimesTail(s, e).Some?
       case EndPrice => PriceTail(s, e).Some?
  }

  /** `TailOk` as the test a lazy group runs on each candidate end. */
  function TailAfter(s: string, kind: TailKind): nat -> bool {
    (y: nat) => TailOk(s, y, kind)
  }

  /** A lazy `(.+?)` starting at `b`: the shortest description, ending at `e`
      or later, after which the rest of the pattern (`ok`) matches. */
  function LazyEnd(s: string, b: nat, e: nat, ok: nat -> bool): (r: Option<nat>)
    requires b < e <= |s| + 1
    ensures r.Some? ==> e <= r.value <= |s| && ok(r.value)
    decreases |s| + 1 - e
  {
    if e > |s| || IsLineTerminator(s[e - 1]) then None
    else if ok(e) then Some(e)
    else LazyEnd(s, b, e + 1, ok)
  }

  /** A match of the lazy group at `s[a..e]` followed by the rest (`ok`). */
  predicate MatchAt(s: string, a: nat, e: nat, ok: nat -> bool) {
    a < e <= |s| && AnyChars(s, a, e) && ok(e)
  }

  /** An unanchored search: the leftmost start from `a` on, and at it the
      shortest description. */
  function FirstMatch(s: string, a: nat, ok: nat -> bool): (r: Option<(nat, nat)>)
    ensures r.Some? ==> a <= r.value.0 < r.value.1 <= |s| && ok(r.value.1)
    decreases |s| - a
  {
    if a >= |s| then None
    else
      match LazyEnd(s, a, a + 1, ok)
      case Some(e) => Some((a, e))
      case None => FirstMatch(s, a + 1, ok)
  }

  /** A `times` match with its description at `s[a..e]`. */
  predicate TimesAt(s: string, a: nat, e: nat) {
    MatchAt(s, a, e, TailAfter(s, TimesPrice))
  }

  /** A description at `s[b..e]` followed by blanks and a number that ends
      the text: the shape of `lead` after its quantity, and of `trail`. */
  predicate PriceAt(s: string, b: nat, e: nat) {
    MatchAt(s, b, e, TailAfter(s, EndPrice))
  }

  /** The first `\s+` of `lead` gives blanks back one by one: the description
      starts at `b`, then `b - 1`, down to just after the quantity at `n1`. */
  function GiveBack(s: string, n1: nat, b: nat, ok: nat -> bool): (r: Option<(nat, nat)>)
    requires n1 < b <= |s|
    ensures r.Some? ==> (n1 < r.value.0 <= b && r.value.0 < r.value.1 <= |s| && ok(r.value.1))
    decreases b
  {
    match LazyEnd(s, b, b + 1, ok)
    case Some(e) => Some((b, e))
    case None => if b - 1 > n1 then GiveBack(s, n1, b - 1, ok) else None
  }

  /** What a pattern captured: the description, the quantity text (empty for
      `trail`) and the price text. */
  datatype ItemMatch = ItemMatch(desc: string, qty: string, price: string)

  /** `s.match(times)`. */
  function MatchTimes(s: string): Option<ItemMatch> {
    match FirstMatch(s, 0, TailAfter(s, TimesPrice))
    case None => None
    case Some((a, e)) =>
      var t := TimesTail(s, e).value;
      Some(ItemMatch(s[a..e], s[t.qtyStart..t.qtyEnd], s[t.priceStart..t.priceEnd]))
  }

  /** `s.match(lead)`. */
  function MatchLead(s: string): Option<ItemMatch> {
    match NumEnd(s, 0)
    case None => None
    case Some(n1) =>
      var b := SpanEnd(s, n1, true);
      if b == n1 then None
      else
        match GiveBack(s, n1, b, TailAfter(s, EndPrice))
        case None => None
        case Some((d, e)) =>
          var t := PriceTail(s, e).value;
          Some(ItemMatch(s[d..e], s[..n1], s[t.0..t.1]))
  }

  /** `s.match(trail)`. */
  function MatchTrail(s: string): Option<ItemMatch> {
    if |s| == 0 then None
    else
      match LazyEnd(s, 0, 1, TailAfter(s, EndPrice))
      case None => None
      case Some(e) =>
        var t := PriceTail(s, e).value;
        Some(ItemMatch(s[..e], "", s[t.0..t.1]))
  }

  // ---------------------------------------------------------------------------
  // currency tokens

  /** ASCII upper case to lower case: the case folding of a regex with the
      `i` flag and no `u` flag, restricted to the letters it can affect here. */
  function FoldAscii(c: char): char {
    if 'A' <= c <= 'Z' then ((c as int) + 32) as char else c
  }

  /** `s` spells the lower-case literal `lit` at `p`, ignoring case. */
  predicate MatchesAt(s: string, p: nat, lit: string) {
    p + |lit| <= |s| && forall j :: 0 <= j < |lit| ==> FoldAscii(s[p + j]) == lit[j]
  }

  predicate WordAt(s: string, i: int) {
    0 <= i < |s| && IsWordChar(s[i])
  }

  /** `\b` at position `i`. */
  predicate Boundary(s: string, i: nat) {
    WordAt(s, i - 1) != WordAt(s, i)
  }

  /** `\b(Q|GTQ|USD|\$)\b` (case-insensitive) at `p`: the length of the token
      it removes. */
  function CurrencyTokenAt(s: string, p: nat): (r: Option<nat>)
    ensures r.Some? ==> 1 <= r.value && p + r.value <= |s|
  {
    if !Boundary(s, p) then None
    else if MatchesAt(s, p, "q") && Boundary(s, p + 1) then Some(1)
    else if MatchesAt(s, p, "gtq") && Boundary(s, p + 3) then Some(3)
    else if MatchesAt(s, p, "usd") && Boundary(s, p + 3) then Some(3)
    else if MatchesAt(s, p, "$") && Boundary(s, p + 1) then Some(1)
    else None
  }

  /** `s.replace(/\b(Q|GTQ|USD|\$)\b/gi, "")` from position `p` on. The
      boundaries are read in the original text, so removing one token does not
      create a boundary for the next. */
  function StripCurrency(s: string, p: nat): (r: string)
    requires p <= |s|
    ensures |r| <= |s| - p
    decreases |s| - p
  {
    if p == |s| then ""
    else
      match CurrencyTokenAt(s, p)
      case Some(n) => StripCurrency(s, p + n)
      case None => [s[p]] + StripCurrency(s, p + 1)
  }

  /** `\b(?:usd|\$)\b` (case-insensitive) matches at `p`. */
  predicate UsdAt(s: string, p: nat) {
    Boundary(s, p)
    && ((MatchesAt(s, p, "usd") && Boundary(s, p + 3)) || (MatchesAt(s, p, "$") && Boundary(s, p + 1)))
  }

  /** `USD_RE.test(s.slice(p))` read in place: a match at `p` or later. */
  function UsdFrom(s: string, p: nat): (r: bool)
    ensures r <==> exists q :: p <= q <= |s| && UsdAt(s, q)
    decreases |s| - p
  {
    if p > |s| then false else UsdAt(s, p) || UsdFrom(s, p + 1)
  }

  /** `USD_RE.test(s)`. */
  predicate HasUsd(s: string) {
    UsdFrom(s, 0)
  }

  /** `Q_RE.test(s)`: `(?:q|quetzal(?:es)?)` with the `i` flag matches any
      letter q, so it holds exactly when the text has one. `/Q\b/i` then adds
      nothing. */
  predicate HasQ(s: string) {
    'q' in s || 'Q' in s
  }

  /** The currency hint of a line: dollars when `USD_RE` matches, quetzales
      when a q appears, otherwise none. */
  function CurrencyHint(s: string): (r: Option<Currency>)
    ensures r == Some(USD) <==> HasUsd(s)
    ensures r == None <==> !HasUsd(s) && !HasQ(s)
  {
    if HasUsd(s) then Some(USD) else if HasQ(s) then Some(GTQ) else None
  }

  // ---------------------------------------------------------------------------
  // the searches find the first match

  /** The lazy group stops at the first end that lets the rest match, and
      finds none only when no end does. */
  lemma {:induction false} LazyEndSpec(s: string, b: nat, e: nat, ok: nat -> bool)
    requires b < e <= |s| + 1 && AnyChars(s, b, e - 1)
    ensures LazyEnd(s, b, e, ok).Some? ==>
      (AnyChars(s, b, LazyEnd(s, b, e, ok).value)
       && forall y: nat :: e <= y < LazyEnd(s, b, e, ok).value ==> !ok(y))
    ensures LazyEnd(s, b, e, ok).None? ==>
      forall y: nat :: e <= y <= |s| && AnyChars(s, b, y) ==> !ok(y)
    decreases |s| + 1 - e
  {
    if e > |s| {
    } else if IsLineTerminator(s[e - 1]) {
      forall y: nat | e <= y <= |s|
        ensures !AnyChars(s, b, y)
      {
        TerminatorBlocks(s, b, e - 1, y);
      }
    } else if ok(e) {
    } else {
      LazyEndSpec(s, b, e + 1, ok);
    }
  }

  /** `.` cannot cross a line terminator. */
  lemma TerminatorBlocks(s: string, b: nat, t: nat, y: nat)
    requires b <= t < y <= |s| && IsLineTerminator(s[t])
    ensures !AnyChars(s, b, y)
  {
  }

  /** The search finds the leftmost start, and at it the shortest
      description; when it finds nothing there is no match at all. */
  lemma {:induction false} FirstMatchSpec(s: string, a: nat, ok: nat -> bool)
    ensures FirstMatch(s, a, ok).Some? ==>
      var (x, y) := FirstMatch(s, a, ok).value;
      (MatchAt(s, x, y, ok)
       && (forall x': nat, y': nat :: a <= x' < x ==> !MatchAt(s, x', y', ok))
       && (forall y': nat :: y' < y ==> !MatchAt(s, x, y', ok)))
    ensures FirstMatch(s, a, ok).None? ==> forall x': nat, y': nat :: a <= x' ==> !MatchAt(s, x', y', ok)
    decreases |s| - a
  {
    if a < |s| {
      LazyEndSpec(s, a, a + 1, ok);
      if LazyEnd(s, a, a + 1, ok).None? {
        FirstMatchSpec(s, a + 1, ok);
      }
    }
  }

  /** The description keeps the longest blank run before it when it can,
      and takes blanks back only when no description fits after the longer
      run. */
  lemma {:induction false} GiveBackSpec(s: string, n1: nat, b: nat, ok: nat -> bool)
    requires n1 < b <= |s|
    ensures GiveBack(s, n1, b, ok).Some? ==>
      var (x, y) := GiveBack(s, n1, b, ok).value;
      (MatchAt(s, x, y, ok)
       && (forall x': nat, y': nat :: x < x' <= b ==> !MatchAt(s, x', y', ok))
       && (forall y': nat :: y' < y ==> !MatchAt(s, x, y', ok)))
    ensures GiveBack(s, n1, b, ok).None? ==>
      forall x': nat, y': nat :: n1 < x' <= b ==> !MatchAt(s, x', y', ok)
    decreases b
  {
    LazyEndSpec(s, b, b + 1, ok);
    if LazyEnd(s, b, b + 1, ok).None? && b - 1 > n1 {
      GiveBackSpec(s, n1, b - 1, ok);
    }
  }

  /** `trail` matches exactly when some description from the start is
      followed by blanks and a final number, and takes the shortest. */
  lemma TrailSpec(s: string)
    ensures MatchTrail(s).Some? ==> exists e: nat :: (PriceAt(s, 0, e)
      && MatchTrail(s).value.desc == s[..e]
      && forall y: nat :: y < e ==> !PriceAt(s, 0, y))
    ensures MatchTrail(s).None? ==> forall y: nat :: !PriceAt(s, 0, y)
  {
    if |s| > 0 {
      LazyEndSpec(s, 0, 1, TailAfter(s, EndPrice));
    }
  }
}

=== FILE: rows.dfy ===
/** The invoice list: rows as the database returns them, the status default,
    the status labels and the title each row is shown under. */
module Rows {
  import opened Wrappers
  import opened Text

  datatype Status = Draft | Quote | Invoice | Paid

  /** A row as selected, every column nullable. */
  datatype RowRaw = RowRaw(
    id: string,
    status: Option<Status>,
    createdAt: Option<string>,
    clientName: Option<string>,
    eventName: Option<string>,
    number: Option<string>)

  /** A row once its status is defaulted. */
  datatype InvoiceRow = InvoiceRow(
    id: string,
    status: Status,
    createdAt: Option<string>,
    clientName: Option<string>,
    eventName: Option<string>,
    number: Option<string>)

  /** `r.status ?? "draft"`, every other column copied. */
  function Normalize(r: RowRaw): InvoiceRow {
    InvoiceRow(r.id, r.status.GetOr(Draft), r.createdAt, r.clientName, r.eventName, r.number)
  }

  /** `rows.map(...)`. */
  function NormalizeRows(rows: seq<RowRaw>): (r: seq<InvoiceRow>)
    ensures |r| == |rows|
    decreases |rows|
  {
    if |rows| == 0 then [] else [Normalize(rows[0])] + NormalizeRows(rows[1..])
  }

  /** The row as it would be selected again. */
  function Raw(r: InvoiceRow): RowRaw {
    RowRaw(r.id, Some(r.status), r.createdAt, r.clientName, r.eventName, r.number)
  }

  function RawRows(rows: seq<InvoiceRow>): (r: seq<RowRaw>)
    ensures |r| == |rows|
    decreases |rows|
  {
    if |rows| == 0 then [] else [Raw(rows[0])] + RawRows(rows[1..])
  }

  /** `STATUS_LABEL`. */
  function StatusLabel(s: Status): string {
    match s
    case Draft => "Borrador"
    case Quote => "Propuesta"
    case Invoice => "Factura"
    case Paid => "Pagada"
  }

  /** The status a label stands for, if any. */
  function LabelStatus(l: string): (r: Option<Status>)
    ensures r.Some? ==> StatusLabel(r.value) == l
  {
    if l == "Borrador" then Some(Draft)
    else if l == "Propuesta" then Some(Quote)
    else if l == "Factura" then Some(Invoice)
    else if l == "Pagada" then Some(Paid)
    else None
  }

  /** `v?.trim()` when that is non-empty, the way `||` reads it. */
  function Present(v: Option<string>): (r: Option<string>)
    ensures r.Some? <==> v.Some? && Trim(v.value) != ""
    ensures r.Some? ==> r.value == Trim(v.value)
  {
    if v.Some? && Trim(v.value) != "" then Some(Trim(v.value)) else None
  }

  const Untitled: string := "Sin título"

  /** `a?.trim() || b?.trim() || ... || fallback`. */
  function FirstPresent(vs: seq<Option<string>>, fallback: string): string
    decreases |vs|
  {
    if |vs| == 0 then fallback
    else match Present(vs[0])
      case Some(t) => t
      case None => FirstPresent(vs[1..], fallback)
  }

  /** The columns the title is taken from, in order of preference. */
  function TitleSources(r: InvoiceRow): (vs: seq<Option<string>>)
    ensures |vs| == 3
  {
    [r.eventName, r.clientName, r.number]
  }

  /** The title a row is listed under: never empty and never starting or
      ending with white space. */
  function DisplayTitle(r: InvoiceRow): (t: string)
    ensures t != "" && !IsSpace(t[0]) && !IsSpace(t[|t| - 1])
  {
    var t := FirstPresent(TitleSources(r), Untitled);
    FirstPresentShape(TitleSources(r), Untitled);
    t
  }

  // ---------------------------------------------------------------------------
  // lemmas

  /** Trimmed non-empty text neither starts nor ends with white space. */
  lemma TrimShape(s: string)
    requires Trim(s) != ""
    ensures var t := Trim(s); !IsSpace(t[0]) && !IsSpace(t[|t| - 1])
  {
    var a := TrimEnd(s);
    var t := TrimStart(a);
    assert t == a[|a| - |t|..];
    assert t[|t| - 1] == a[|a| - 1];
  }

  lemma {:induction false} FirstPresentShape(vs: seq<Option<string>>, fallback: string)
    requires fallback != "" && !IsSpace(fallback[0]) && !IsSpace(fallback[|fallback| - 1])
    ensures var t := FirstPresent(vs, fallback); t != "" && !IsSpace(t[0]) && !IsSpace(t[|t| - 1])
    decreases |vs|
  {
    if |vs| > 0 {
      match Present(vs[0])
      case Some(t) => TrimShape(vs[0].value);
      case None => FirstPresentShape(vs[1..], fallback);
    }
  }

  /** The first value whose trimmed form is non-empty is the one used,
      trimmed. */
  lemma {:induction false} FirstPresentPicks(vs: seq<Option<string>>, fallback: string, i: nat)
    requires i < |vs| && vs[i].Some? && Trim(vs[i].value) != ""
    requires forall j :: 0 <= j < i ==> Present(vs[j]).None?
    ensures FirstPresent(vs, fallback) == Trim(vs[i].value)
    decreases i
  {
    if i > 0 {
      FirstPresentPicks(vs[1..], fallback, i - 1);
    }
  }

  /** With nothing present, the fallback is used. */
  lemma {:induction false} FirstPresentNone(vs: seq<Option<string>>, fallback: string)
    requires forall j :: 0 <= j < |vs| ==> Present(vs[j]).None?
    ensures FirstPresent(vs, fallback) == fallback
    decreases |vs|
  {
    if |vs| > 0 {
      FirstPresentNone(vs[1..], fallback);
    }
  }

  /** The title comes from the first source that is present. */
  lemma DisplayTitlePick(r: InvoiceRow, i: nat)
    requires i < 3 && Present(TitleSources(r)[i]).Some?
    requires forall j :: 0 <= j < i ==> Present(TitleSources(r)[j]).None?
    ensures DisplayTitle(r) == Trim(TitleSources(r)[i].value)
  {
    FirstPresentPicks(TitleSources(r), Untitled, i);
  }

  lemma DisplayTitleEvent(r: InvoiceRow)
    ensures Present(r.eventName).Some? ==> DisplayTitle(r) == Trim(r.eventName.value)
  {
    if Present(r.eventName).Some? {
      DisplayTitlePick(r, 0);
    }
  }

  lemma DisplayTitleClient(r: InvoiceRow)
    ensures Present(r.eventName).None? && Present(r.clientName).Some? ==> DisplayTitle(r) == Trim(r.clientName.value)
  {
    if Present(r.eventName).None? && Present(r.clientName).Some? {
      DisplayTitlePick(r, 1);
    }
  }

  lemma DisplayTitleNumber(r: InvoiceRow)
    ensures Present(r.eventName).None? && Present(r.clientName).None? && Present(r.number).Some?
      ==> DisplayTitle(r) == Trim(r.number.value)
  {
    if Present(r.eventName).None? && Present(r.clientName).None? && Present(r.number).Some? {
      DisplayTitlePick(r, 2);
    }
  }

  /** The title is the event name, else the client name, else the number,
      each taken trimmed and only when that leaves something. */
  lemma DisplayTitleChain(r: InvoiceRow)
    ensures Present(r.eventName).Some? ==> DisplayTitle(r) == Trim(r.eventName.value)
    ensures Present(r.eventName).None? && Present(r.clientName).Some? ==> DisplayTitle(r) == Trim(r.clientName.value)
    ensures Present(r.eventName).None? && Present(r.clientName).None? && Present(r.number).Some?
      ==> DisplayTitle(r) == Trim(r.number.value)
  {
    DisplayTitleEvent(r);
    DisplayTitleClient(r);
    DisplayTitleNumber(r);
  }

  /** Null or blank event name, client name and number give "Sin título". */
  lemma DisplayTitleUntitled(r: InvoiceRow)
    requires Present(r.eventName).None? && Present(r.clientName).None? && Present(r.number).None?
    ensures DisplayTitle(r) == Untitled
  {
    FirstPresentNone(TitleSources(r), Untitled);
  }

  /** Normalising keeps the rows, their order and every column; only a
      missing status becomes "draft". */
  lemma {:induction false} NormalizeRowsSpec(rows: seq<RowRaw>)
    ensures forall i :: 0 <= i < |rows| ==>
      var n := NormalizeRows(rows)[i];
      n.id == rows[i].id && n.createdAt == rows[i].createdAt && n.clientName == rows[i].clientName
      && n.eventName == rows[i].eventName && n.number == rows[i].number
      && (rows[i].status.None? ==> n.status == Draft)
      && (rows[i].status.Some? ==> n.status == rows[i].status.value)
    decreases |rows|
  {
    if |rows| > 0 {
      NormalizeRowsSpec(rows[1..]);
      forall i | 0 < i < |rows|
        ensures NormalizeRows(rows)[i] == NormalizeRows(rows[1..])[i - 1]
      {
      }
    }
  }

  /** A row with its status present normalises back to itself. */
  lemma {:induction false} NormalizeRowsRoundTrip(rows: seq<InvoiceRow>)
    ensures NormalizeRows(RawRows(rows)) == rows
    decreases |rows|
  {
    if |rows| > 0 {
      NormalizeRowsRoundTrip(rows[1..]);
      assert RawRows(rows)[1..] == RawRows(rows[1..]);
    }
  }

  /** Every status has its own label, and the label gives the status back. */
  lemma StatusLabels(s: Status, t: Status)
    ensures LabelStatus(StatusLabel(s)) == Some(s)
    ensures s != t ==> StatusLabel(s) != StatusLabel(t)
  {
  }
}

=== FILE: schema.dfy ===
/** The invoice document: money, line items, groups and the invoice record,
    with the constraints its schema puts on them. Amounts are reals. */
module Schema {
  import opened Wrappers

  datatype Currency = GTQ | USD

  /** The only locale an invoice can carry, "es-GT". */
  datatype Locale = EsGT

  datatype Money = Money(amount: real, currency: Currency)

  /** The quantity is a JavaScript number; the schema asks for a whole one. */
  datatype LineItem = LineItem(id: string, qty: real, desc: string, unit: Money, notes: Option<string>)

  datatype Group = Group(id: string, title: string, items: seq<LineItem>)

  datatype Meta = Meta(issuedAt: string, locale: Locale, number: Option<string>, series: Option<string>)

  datatype Client = Client(name: string, contact: Option<string>, dpi: Option<string>)

  datatype Event = Event(name: Option<string>, date: Option<string>, location: Option<string>)

  /** One bank account; `kind` is the account type ("MONETARIA", ...). */
  datatype Account = Account(bank: string, kind: string, account: string, name: string)

  datatype Bank = Bank(gtq: Option<Account>, usd: Option<Account>)

  /** The optional second currency shown beside the quetzal totals. */
  datatype Secondary = Secondary(code: Currency, rateNote: Option<string>)

  datatype Invoice = Invoice(
    id: string,
    meta: Meta,
    client: Client,
    event: Option<Event>,
    groups: seq<Group>,
    taxRate: real,
    currency: Currency,
    secondary: Option<Secondary>,
    bank: Option<Bank>,
    terms: Option<string>,
    notes: Option<string>)

  /** An amount is never negative. */
  predicate ValidMoney(m: Money) {
    m.amount >= 0.0
  }

  predicate IsWhole(x: real) {
    x.Floor as real == x
  }

  /** A quantity is a non-negative whole number and the unit price is valid. */
  predicate ValidItem(it: LineItem) {
    it.qty >= 0.0 && IsWhole(it.qty) && ValidMoney(it.unit)
  }

  predicate ValidGroup(g: Group) {
    forall i :: 0 <= i < |g.items| ==> ValidItem(g.items[i])
  }

  predicate ValidRate(rate: real) {
    0.0 <= rate <= 0.25
  }

  /** Everything the schema demands of an invoice: valid groups, a tax rate in
      [0, 0.25], quetzales as the currency, and dollars as the only possible
      second currency. */
  predicate ValidInvoice(inv: Invoice) {
    && (forall g :: g in inv.groups ==> ValidGroup(g))
    && ValidRate(inv.taxRate)
    && inv.currency == GTQ
    && (inv.secondary.Some? ==> inv.secondary.value.code == USD)
  }

  /** The demo invoice; `today` is the issue date the runtime clock supplies. */
  function ExampleInvoice(today: string): (inv: Invoice)
    ensures ValidInvoice(inv)
    ensures |inv.groups| == 2 && |inv.groups[0].items| == 2 && |inv.groups[1].items| == 1
  {
    var it1 := LineItem("it-1", 16.0, "Mesas cocteleras mantel negro", Money(75.0, GTQ), None);
    var it2 := LineItem("it-2", 70.0, "Bancos metálicos Tolix", Money(20.0, GTQ), None);
    var it3 := LineItem("it-3", 1.0, "Transporte y personal apoyo montaje", Money(1500.0, GTQ), None);
    assert ValidItem(it1) && ValidItem(it2) && ValidItem(it3);
    var g1 := Group("grp-1", "Mobiliario", [it1, it2]);
    var g2 := Group("grp-2", "Logística", [it3]);
    assert ValidGroup(g1) && ValidGroup(g2);
    Invoice(
      "inv-demo-1",
      Meta(today, EsGT, None, None),
      Client("FAUSTO CASTILLO", None, None),
      Some(Event(Some("FERCO Z10"), Some("2025-05-15"), Some("Guatemala"))),
      [g1, g2],
      0.0,
      GTQ,
      Some(Secondary(USD, Some("CAMBIO Q.8"))),
      Some(Bank(
        Some(Account("BI", "MONETARIA", "1940035790", "ASHLEY AYALA CORDON")),
        Some(Account("BI", "MONETARIA USD", "1940063082", "ASHLEY AYALA CORDON")))),
      Some("Precios más IVA / IMPUESTOS.\nPara confirmar el servicio pagar 100% antes de iniciar."),
      Some("Propuesta según cambios y ajustes."))
  }
}

=== FILE: text.dfy ===
/** String primitives the invoice code takes from JavaScript: the `\s` and `\d`
    character classes, `split` on the few separators it uses, `join`, `trim`,
    the whitespace-collapsing `replace` calls, and `split(/\s+/)` into words. */
module Text {

  /** ECMAScript WhiteSpace and LineTerminator code points: the `\s` class and
      what `String.prototype.trim` removes. */
  predicate IsSpace(c: char) {
    || c == ' ' || c == '\t' || c == '\n' || c == '\r' || c == '\U{000B}' || c == '\U{000C}'
    || c == '\U{00A0}' || c == '\U{1680}' || ('\U{2000}' <= c <= '\U{200A}')
    || c == '\U{2028}' || c == '\U{2029}' || c == '\U{202F}' || c == '\U{205F}'
    || c == '\U{3000}' || c == '\U{FEFF}'
  }

  /** `\d`: an ASCII decimal digit. */
  predicate IsDigit(c: char) {
    '0' <= c <= '9'
  }

  /** `\w`: the ASCII word characters; `\b` sits between a word character and
      anything else (or the ends of the string). */
  predicate IsWordChar(c: char) {
    ('a' <= c <= 'z') || ('A' <= c <= 'Z') || IsDigit(c) || c == '_'
  }

  predicate NoSpace(s: string) {
    forall i :: 0 <= i < |s| ==> !IsSpace(s[i])
  }

  predicate AllSpace(s: string) {
    forall i :: 0 <= i < |s| ==> IsSpace(s[i])
  }

  predicate AllDigits(s: string) {
    forall i :: 0 <= i < |s| ==> IsDigit(s[i])
  }

  /** The characters of `s` that are not blank, in their original order. */
  function Strip(s: string): (r: string)
    ensures NoSpace(r)
    ensures |r| <= |s|
  {
    if |s| == 0 then "" else (if IsSpace(s[0]) then "" else [s[0]]) + Strip(s[1..])
  }

  /** `ss.join("")`. */
  function Concat(ss: seq<string>): string {
    if |ss| == 0 then "" else ss[0] + Concat(ss[1..])
  }

  /** `ss.join(sep)`: separators only between neighbours. */
  function Join(ss: seq<string>, sep: string): string {
    if |ss| == 0 then ""
    else if |ss| == 1 then ss[0]
    else ss[0] + sep + Join(ss[1..], sep)
  }

  /** The end of the run, starting at `i`, of characters whose blankness is `blank`. */
  function SpanEnd(s: string, i: nat, blank: bool): (k: nat)
    requires i <= |s|
    ensures i <= k <= |s|
    ensures forall j :: i <= j < k ==> IsSpace(s[j]) == blank
    ensures k == |s| || IsSpace(s[k]) != blank
    decreases |s| - i
  {
    if i < |s| && IsSpace(s[i]) == blank then SpanEnd(s, i + 1, blank) else i
  }

  /** `s.split(/\s+/).filter(Boolean)`: the maximal runs of non-blank characters. */
  function Words(s: string): (ws: seq<string>)
    ensures forall i :: 0 <= i < |ws| ==> ws[i] != "" && NoSpace(ws[i])
    decreases |s|
  {
    if |s| == 0 then []
    else if IsSpace(s[0]) then Words(s[1..])
    else
      var k := SpanEnd(s, 0, false);
      [s[..k]] + Words(s[k..])
  }

  /** Words are what `Words` returns: non-empty and without blanks. */
  predicate AreWords(ws: seq<string>) {
    forall i :: 0 <= i < |ws| ==> ws[i] != "" && NoSpace(ws[i])
  }

  /** `s.trimStart()`. */
  function TrimStart(s: string): (r: string)
    ensures |r| <= |s| && r == s[|s| - |r|..]
    ensures AllSpace(s[..|s| - |r|])
    ensures r == "" || !IsSpace(r[0])
    decreases |s|
  {
    if |s| > 0 && IsSpace(s[0]) then TrimStart(s[1..]) else s
  }

  /** `s.trimEnd()`. */
  function TrimEnd(s: string): (r: string)
    ensures |r| <= |s| && r == s[..|r|]
    ensures AllSpace(s[|r|..])
    ensures r == "" || !IsSpace(r[|r| - 1])
    decreases |s|
  {
    if |s| > 0 && IsSpace(s[|s| - 1]) then TrimEnd(s[..|s| - 1]) else s
  }

  /** `s.trim()`. */
  function Trim(s: string): string {
    TrimEnd(TrimStart(s))
  }

  /** `s.replace(/\s+/g, " ")` when `minRun` is 1 and `s.replace(/\s{2,}/g, " ")`
      when it is 2: every maximal blank run at least `minRun` long becomes one
      space, shorter runs and everything else are kept. */
  function CollapseRuns(s: string, minRun: nat): string
    decreases |s|
  {
    if |s| == 0 then ""
    else if IsSpace(s[0]) then
      var k := SpanEnd(s, 0, true);
      (if k >= minRun then " " else s[..k]) + CollapseRuns(s[k..], minRun)
    else
      var k := SpanEnd(s, 0, false);
      s[..k] + CollapseRuns(s[k..], minRun)
  }

  /** `s.replace(/\s+/g, " ").trim()`: the words of `s` separated by single spaces. */
  function Squeeze(s: string): string {
    Trim(CollapseRuns(s, 1))
  }

  // ---------------------------------------------------------------------------
  // split

  /** The separators the code splits on: `/\r?\n/`, `/\r?\n\r?\n/`, `"-"` and `"::"`. */
  datatype Separator = LineBreak | BlankLine | Dash | DoubleColon

  /** Length of a `\r?\n` match at the start of `s`, 0 when there is none. */
  function NewlineLen(s: string): (n: nat)
    ensures n <= |s|
  {
    if |s| >= 2 && s[0] == '\r' && s[1] == '\n' then 2
    else if |s| >= 1 && s[0] == '\n' then 1
    else 0
  }

  /** Length of the separator match at the start of `s`, 0 when there is none. */
  function MatchLen(sep: Separator, s: string): (n: nat)
    ensures n <= |s|
  {
    match sep
    case LineBreak => NewlineLen(s)
    case BlankLine =>
      var a := NewlineLen(s);
      if a == 0 then 0
      else
        var b := NewlineLen(s[a..]);
        if b == 0 then 0 else a + b
    case Dash => if |s| >= 1 && s[0] == '-' then 1 else 0
    case DoubleColon => if |s| >= 2 && s[0] == ':' && s[1] == ':' then 2 else 0
  }

  /** The separator as it reads in text without carriage returns. */
  function Literal(sep: Separator): string {
    match sep
    case LineBreak => "\n"
    case BlankLine => "\n\n"
    case Dash => "-"
    case DoubleColon => "::"
  }

  /** `String.prototype.split` scanning `s` left to right; `cur` is the piece
      read so far. */
  function SplitAcc(s: string, cur: string, sep: Separator): (r: seq<string>)
    ensures |r| >= 1
    decreases |s|
  {
    if |s| == 0 then [cur]
    else
      var n := MatchLen(sep, s);
      if n > 0 then [cur] + SplitAcc(s[n..], "", sep)
      else SplitAcc(s[1..], cur + [s[0]], sep)
  }

  /** `s.split(sep)`. */
  function Split(s: string, sep: Separator): seq<string> {
    SplitAcc(s, "", sep)
  }

  // ---------------------------------------------------------------------------
  // lemmas

  /** Text that does not start with a blank is its own `trimStart`. */
  lemma TrimStartKeeps(u: string)
    requires u == "" || !IsSpace(u[0])
    ensures TrimStart(u) == u
  {
  }

  lemma {:induction false} StripAppend(a: string, b: string)
    ensures Strip(a + b) == Strip(a) + Strip(b)
    decreases |a|
  {
    if |a| == 0 {
      assert a + b == b;
    } else {
      var h := if IsSpace(a[0]) then "" else [a[0]];
      calc {
        Strip(a + b);
      == { assert (a + b)[0] == a[0] && (a + b)[1..] == a[1..] + b; }
        h + Strip(a[1..] + b);
      == { StripAppend(a[1..], b); }
        h + (Strip(a[1..]) + Strip(b));
      ==
        (h + Strip(a[1..])) + Strip(b);
      }
    }
  }

  lemma {:induction false} StripNoSpace(s: string)
    requires NoSpace(s)
    ensures Strip(s) == s
    decreases |s|
  {
    if |s| > 0 {
      StripNoSpace(s[1..]);
    }
  }

  lemma {:induction false} StripAllSpace(s: string)
    requires AllSpace(s)
    ensures Strip(s) == ""
    decreases |s|
  {
    if |s| > 0 {
      StripAllSpace(s[1..]);
    }
  }

  /** Gluing the words back together gives exactly the non-blank characters. */
  lemma {:induction false} WordsConcat(s: string)
    ensures Concat(Words(s)) == Strip(s)
    decreases |s|
  {
    if |s| == 0 {
    } else if IsSpace(s[0]) {
      WordsConcat(s[1..]);
    } else {
      var k := SpanEnd(s, 0, false);
      var ws := Words(s);
      assert ws == [s[..k]] + Words(s[k..]);
      assert ws[1..] == Words(s[k..]);
      WordsConcat(s[k..]);
      assert s == s[..k] + s[k..];
      StripAppend(s[..k], s[k..]);
      StripNoSpace(s[..k]);
    }
  }

  /** A text has no words exactly when it is blank. */
  lemma {:induction false} WordsEmpty(s: string)
    ensures Words(s) == [] <==> AllSpace(s)
    decreases |s|
  {
    if |s| > 0 {
      if IsSpace(s[0]) {
        WordsEmpty(s[1..]);
        if AllSpace(s[1..]) {
          assert forall i :: 0 <= i < |s| ==> i == 0 || s[i] == s[1..][i - 1];
        }
      }
    }
  }

  /** Leading blanks do not change the words. */
  lemma {:induction false} WordsSkipBlank(a: string, b: string)
    requires AllSpace(a)
    ensures Words(a + b) == Words(b)
    decreases |a|
  {
    if |a| > 0 {
      assert (a + b)[1..] == a[1..] + b;
      WordsSkipBlank(a[1..], b);
    } else {
      assert a + b == b;
    }
  }

  /** Trailing blanks do not change the words. */
  lemma {:induction false} WordsDropBlank(a: string, b: string)
    requires AllSpace(b)
    ensures Words(a + b) == Words(a)
    decreases |a|
  {
    if |a| == 0 {
      assert a + b == b;
      WordsEmpty(b);
    } else if IsSpace(a[0]) {
      assert (a + b)[1..] == a[1..] + b;
      WordsDropBlank(a[1..], b);
    } else {
      var k := SpanEnd(a, 0, false);
      SpanEndPrefix(a, b, 0);
      assert (a + b)[..k] == a[..k];
      assert (a + b)[k..] == a[k..] + b;
      WordsDropBlank(a[k..], b);
    }
  }

  /** A non-blank run ends where the first string ends, if the second starts blank. */
  lemma {:induction false} SpanEndPrefix(a: string, b: string, i: nat)
    requires i <= |a|
    requires b == "" || IsSpace(b[0])
    ensures SpanEnd(a + b, i, false) == SpanEnd(a, i, false)
    decreases |a| - i
  {
    if i < |a| {
      assert (a + b)[i] == a[i];
      if !IsSpace(a[i]) {
        SpanEndPrefix(a, b, i + 1);
      }
    } else if |b| > 0 {
      assert (a + b)[i] == b[0];
    }
  }

  /** A word followed by a blank (or nothing) is the first word. */
  lemma {:induction false} WordsCons(w: string, y: string)
    requires w != "" && NoSpace(w)
    requires y == "" || IsSpace(y[0])
    ensures Words(w + y) == [w] + Words(y)
  {
    var s := w + y;
    assert s[0] == w[0];
    var k := SpanEnd(s, 0, false);
    SpanEndPrefix(w, y, 0);
    SpanEndOfWord(w, 0);
    assert k == |w|;
    assert s[..k] == w;
    assert s[k..] == y;
  }

  lemma {:induction false} SpanEndOfWord(w: string, i: nat)
    requires i <= |w| && NoSpace(w)
    ensures SpanEnd(w, i, false) == |w|
    decreases |w| - i
  {
    if i < |w| {
      SpanEndOfWord(w, i + 1);
    }
  }

  /** Splitting a space-joined list of words gives the words back. */
  lemma {:induction false} WordsOfJoin(ws: seq<string>)
    requires AreWords(ws)
    ensures Words(Join(ws, " ")) == ws
    decreases |ws|
  {
    if |ws| == 0 {
    } else if |ws| == 1 {
      WordsCons(ws[0], "");
      assert ws[0] + "" == ws[0];
    } else {
      var rest := Join(ws[1..], " ");
      WordsOfJoin(ws[1..]);
      assert Join(ws, " ") == ws[0] + (" " + rest);
      WordsCons(ws[0], " " + rest);
      assert (" " + rest)[1..] == rest;
      assert Words(" " + rest) == Words(rest);
    }
  }

  /** Leading blanks do not change the words. */
  lemma WordsTrimStart(s: string)
    ensures Words(TrimStart(s)) == Words(s)
  {
    var t := TrimStart(s);
    var lead := s[..|s| - |t|];
    assert s == lead + t;
    WordsSkipBlank(lead, t);
  }

  /** Trailing blanks do not change the words. */
  lemma WordsTrimEnd(t: string)
    ensures Words(TrimEnd(t)) == Words(t)
  {
    var u := TrimEnd(t);
    var trail := t[|u|..];
    assert t == u + trail;
    WordsDropBlank(u, trail);
  }

  /** Trimming does not change the words. */
  lemma WordsTrim(s: string)
    ensures Words(Trim(s)) == Words(s)
  {
    WordsTrimStart(s);
    WordsTrimEnd(TrimStart(s));
  }

  /** Collapsing blank runs does not change the words. */
  lemma {:induction false} WordsCollapse(s: string, minRun: nat)
    ensures Words(CollapseRuns(s, minRun)) == Words(s)
    decreases |s|
  {
    if |s| == 0 {
    } else if IsSpace(s[0]) {
      var k := SpanEnd(s, 0, true);
      var head := if k >= minRun then " " else s[..k];
      assert AllSpace(head);
      WordsCollapse(s[k..], minRun);
      WordsSkipBlank(head, CollapseRuns(s[k..], minRun));
      assert s == s[..k] + s[k..];
      WordsSkipBlank(s[..k], s[k..]);
    } else {
      var k := SpanEnd(s, 0, false);
      var rest := CollapseRuns(s[k..], minRun);
      WordsCollapse(s[k..], minRun);
      CollapseStartsBlank(s[k..], minRun);
      WordsCons(s[..k], rest);
      assert s == s[..k] + s[k..];
      WordsCons(s[..k], s[k..]);
    }
  }

  lemma CollapseStartsBlank(s: string, minRun: nat)
    requires s == "" || IsSpace(s[0])
    ensures var c := CollapseRuns(s, minRun); c == "" || IsSpace(c[0])
  {
  }

  /** Squeezing whitespace keeps the words, so every later `split(/\s+/)` agrees. */
  lemma WordsSqueeze(s: string)
    ensures Words(Squeeze(s)) == Words(s)
  {
    WordsTrim(CollapseRuns(s, 1));
    WordsCollapse(s, 1);
  }

  /** A separator match in text without carriage returns is the literal separator. */
  lemma MatchIsLiteral(sep: Separator, s: string)
    requires '\r' !in s
    requires MatchLen(sep, s) > 0
    ensures s[..MatchLen(sep, s)] == Literal(sep)
  {
    if sep == BlankLine {
      assert s[0] == '\n';
      assert s[1..][0] == '\n';
    }
  }

  lemma JoinCons(x: string, rest: seq<string>, sep: string)
    requires |rest| >= 1
    ensures Join([x] + rest, sep) == x + sep + Join(rest, sep)
  {
    assert ([x] + rest)[1..] == rest;
  }

  /** Joining the pieces with the separator rebuilds the text, when the text
      has no carriage returns (so every match is the literal separator). */
  lemma {:induction false} SplitAccJoin(s: string, cur: string, sep: Separator)
    requires '\r' !in s
    ensures Join(SplitAcc(s, cur, sep), Literal(sep)) == cur + s
    decreases |s|
  {
    if |s| > 0 {
      var n := MatchLen(sep, s);
      if n > 0 {
        SplitAccJoinMatch(s, cur, sep, n);
      } else {
        assert SplitAcc(s, cur, sep) == SplitAcc(s[1..], cur + [s[0]], sep);
        assert '\r' !in s[1..] by {
          assert forall c :: c in s[1..] ==> c in s;
        }
        SplitAccJoin(s[1..], cur + [s[0]], sep);
        assert cur + [s[0]] + s[1..] == cur + s;
      }
    }
  }

  lemma {:induction false} SplitAccJoinMatch(s: string, cur: string, sep: Separator, n: nat)
    requires '\r' !in s
    requires n == MatchLen(sep, s) && n > 0
    ensures Join(SplitAcc(s, cur, sep), Literal(sep)) == cur + s
    decreases |s|, 0
  {
    var tail := s[n..];
    var rest := SplitAcc(tail, "", sep);
    assert SplitAcc(s, cur, sep) == [cur] + rest;
    assert '\r' !in tail by {
      assert forall c :: c in tail ==> c in s;
    }
    SplitAccJoin(tail, "", sep);
    MatchIsLiteral(sep, s);
    JoinStep(cur, Literal(sep), rest, tail, s);
  }

  lemma JoinStep(cur: string, lit: string, rest: seq<string>, tail: string, s: string)
    requires |rest| >= 1 && Join(rest, lit) == tail
    requires |lit| <= |s| && s[..|lit|] == lit && s[|lit|..] == tail
    ensures Join([cur] + rest, lit) == cur + s
  {
    assert lit + tail == s by {
      assert s == s[..|lit|] + s[|lit|..];
    }
    calc {
      Join([cur] + rest, lit);
    == { JoinCons(cur, rest, lit); }
      cur + lit + tail;
    ==
      cur + (lit + tail);
    }
  }

  lemma SplitJoin(s: string, sep: Separator)
    requires '\r' !in s
    ensures Join(Split(s, sep), Literal(sep)) == s
  {
    SplitAccJoin(s, "", sep);
  }

  /** Lines produced by `split(/\r?\n/)` contain no line feed. */
  lemma {:induction false} SplitAccNoNewline(s: string, cur: string)
    requires '\n' !in cur
    ensures forall i :: 0 <= i < |SplitAcc(s, cur, LineBreak)| ==> '\n' !in SplitAcc(s, cur, LineBreak)[i]
    decreases |s|
  {
    if |s| > 0 {
      var n := MatchLen(LineBreak, s);
      if n > 0 {
        SplitAccNoNewline(s[n..], "");
      } else {
        SplitAccNoNewline(s[1..], cur + [s[0]]);
      }
    }
  }
}

=== FILE: totals.dfy ===
/** `groupTotalQ` and `invoiceTotalsQ`: left folds over items and groups, and
    a tax rounded to cents with `Math.round(x)` read as `floor(x + 0.5)`. */
module Totals {
  import opened Schema

  /** What one item contributes: quantity times unit price. */
  function LineTotal(it: LineItem): real {
    it.qty * it.unit.amount
  }

  /** `items.reduce((sum, it) => sum + it.qty * it.unit.amount, acc)`. */
  function FoldItems(items: seq<LineItem>, acc: real): real
    decreases |items|
  {
    if |items| == 0 then acc else FoldItems(items[1..], acc + LineTotal(items[0]))
  }

  /** `groupTotalQ(group)`. */
  function GroupTotal(g: Group): real {
    FoldItems(g.items, 0.0)
  }

  /** The plain sum of the line totals, the reference the folds are checked
      against. */
  function SumItems(items: seq<LineItem>): real
    decreases |items|
  {
    if |items| == 0 then 0.0 else LineTotal(items[0]) + SumItems(items[1..])
  }

  /** Every item of every group, groups in order. */
  function AllItems(groups: seq<Group>): (r: seq<LineItem>)
    ensures |groups| == 0 ==> r == []
    decreases |groups|
  {
    if |groups| == 0 then [] else groups[0].items + AllItems(groups[1..])
  }

  /** `groups.reduce((s, g) => s + groupTotalQ(g), acc)`. */
  function FoldGroups(groups: seq<Group>, acc: real): real
    decreases |groups|
  {
    if |groups| == 0 then acc else FoldGroups(groups[1..], acc + GroupTotal(groups[0]))
  }

  /** `Math.round(x)`: the nearest integer, halves rounded up. */
  function Round(x: real): (n: int)
    ensures x - 0.5 < n as real <= x + 0.5
  {
    (x + 0.5).Floor
  }

  datatype Totals = Totals(subtotal: real, tax: real, total: real)

  /** A whole number of cents. */
  predicate IsCents(x: real) {
    ((x * 100.0).Floor as real) == x * 100.0
  }

  /** `Math.round(subtotal * rate * 100) / 100`. */
  function Tax(subtotal: real, rate: real): (t: real)
    ensures IsCents(t)
    ensures -0.005 <= t - subtotal * rate <= 0.005
  {
    var k := Round(subtotal * rate * 100.0);
    assert (k as real) / 100.0 * 100.0 == k as real;
    (k as real) / 100.0
  }

  /** `invoiceTotalsQ(inv)`. */
  function InvoiceTotals(inv: Invoice): (t: Totals)
    ensures IsCents(t.tax) && -0.005 <= t.tax - t.subtotal * inv.taxRate <= 0.005
    ensures t.total == t.subtotal + t.tax
  {
    var subtotal := FoldGroups(inv.groups, 0.0);
    var tax := Tax(subtotal, inv.taxRate);
    Totals(subtotal, tax, subtotal + tax)
  }

  // ---------------------------------------------------------------------------
  // lemmas

  lemma {:induction false} FoldItemsSum(items: seq<LineItem>, acc: real)
    ensures FoldItems(items, acc) == acc + SumItems(items)
    decreases |items|
  {
    if |items| > 0 {
      FoldItemsSum(items[1..], acc + LineTotal(items[0]));
    }
  }

  /** `groupTotalQ` is the sum of quantity times price over the group's items,
      0 for a group without items. */
  lemma GroupTotalSum(g: Group)
    ensures GroupTotal(g) == SumItems(g.items)
    ensures g.items == [] ==> GroupTotal(g) == 0.0
  {
    FoldItemsSum(g.items, 0.0);
  }

  lemma {:induction false} SumItemsAppend(a: seq<LineItem>, b: seq<LineItem>)
    ensures SumItems(a + b) == SumItems(a) + SumItems(b)
    decreases |a|
  {
    if |a| > 0 {
      assert (a + b)[0] == a[0];
      assert (a + b)[1..] == a[1..] + b;
      assert SumItems(a + b) == LineTotal(a[0]) + SumItems(a[1..] + b);
      SumItemsAppend(a[1..], b);
    } else {
      assert a + b == b;
    }
  }

  lemma {:induction false} FoldGroupsSum(groups: seq<Group>, acc: real)
    ensures FoldGroups(groups, acc) == acc + SumItems(AllItems(groups))
    decreases |groups|
  {
    if |groups| > 0 {
      var g := groups[0];
      FoldGroupsSum(groups[1..], acc + GroupTotal(g));
      GroupTotalSum(g);
      SumItemsAppend(g.items, AllItems(groups[1..]));
    }
  }

  /** The subtotal is the sum, without rounding, of quantity times price over
      every item of every group. */
  lemma SubtotalSum(inv: Invoice)
    ensures InvoiceTotals(inv).subtotal == SumItems(AllItems(inv.groups))
  {
    FoldGroupsSum(inv.groups, 0.0);
  }

  lemma {:induction false} SumItemsNonNegative(items: seq<LineItem>)
    requires forall i :: 0 <= i < |items| ==> ValidItem(items[i])
    ensures SumItems(items) >= 0.0
    decreases |items|
  {
    if |items| > 0 {
      var it := items[0];
      assert ValidItem(it);
      assert LineTotal(it) >= 0.0 by {
        ProductNonNegative(it.qty, it.unit.amount);
      }
      SumItemsNonNegative(items[1..]);
    }
  }

  lemma ProductNonNegative(x: real, y: real)
    requires x >= 0.0 && y >= 0.0
    ensures x * y >= 0.0
  {
  }

  lemma {:induction false} AllItemsValid(groups: seq<Group>)
    requires forall g :: g in groups ==> ValidGroup(g)
    ensures forall i :: 0 <= i < |AllItems(groups)| ==> ValidItem(AllItems(groups)[i])
    decreases |groups|
  {
    if |groups| > 0 {
      assert groups[0] in groups;
      assert forall g :: g in groups[1..] ==> g in groups;
      AllItemsValid(groups[1..]);
      var a := groups[0].items;
      var b := AllItems(groups[1..]);
      assert AllItems(groups) == a + b;
      forall i | 0 <= i < |a + b|
        ensures ValidItem((a + b)[i])
      {
        if i >= |a| {
          assert (a + b)[i] == b[i - |a|];
        }
      }
    }
  }

  /** For a valid invoice subtotal, tax and total are non-negative and the
      total is at least the subtotal. */
  lemma TotalsNonNegative(inv: Invoice)
    requires ValidInvoice(inv)
    ensures var t := InvoiceTotals(inv);
      t.subtotal >= 0.0 && t.tax >= 0.0 && t.total >= t.subtotal
  {
    SubtotalSum(inv);
    AllItemsValid(inv.groups);
    SumItemsNonNegative(AllItems(inv.groups));
    var s := InvoiceTotals(inv).subtotal;
    ProductNonNegative(s, inv.taxRate);
    assert s * inv.taxRate * 100.0 >= 0.0;
  }

  /** A zero rate gives no tax and a total equal to the subtotal. */
  lemma ZeroRate(inv: Invoice)
    requires inv.taxRate == 0.0
    ensures InvoiceTotals(inv).tax == 0.0
    ensures InvoiceTotals(inv).total == InvoiceTotals(inv).subtotal
  {
    var s := InvoiceTotals(inv).subtotal;
    assert s * 0.0 * 100.0 == 0.0;
    assert Round(0.0) == 0;
  }

  /** A subtotal of 1000 at 12% carries 120 of tax, 1120 in all. */
  lemma TwelvePercent(inv: Invoice)
    requires inv.taxRate == 0.12 && SumItems(AllItems(inv.groups)) == 1000.0
    ensures InvoiceTotals(inv) == Totals(1000.0, 120.0, 1120.0)
  {
    SubtotalSum(inv);
    assert 1000.0 * 0.12 * 100.0 == 12000.0;
    assert Round(12000.0) == 12000;
  }

  /** The demo invoice totals 16 x 75 + 70 x 20 + 1500 = 4100 without tax. */
  lemma ExampleTotals(today: string)
    ensures InvoiceTotals(ExampleInvoice(today)) == Totals(4100.0, 0.0, 4100.0)
  {
    var inv := ExampleInvoice(today);
    var g0 := inv.groups[0];
    var g1 := inv.groups[1];
    assert inv.groups[1..] == [g1];
    assert GroupTotal(g0) == 2600.0 by {
      assert g0.items[1..][1..] == [];
    }
    assert GroupTotal(g1) == 1500.0 by {
      assert g1.items[1..] == [];
    }
    assert FoldGroups(inv.groups, 0.0) == 4100.0;
    ZeroRate(inv);
  }
}

=== FILE: wrap.dfy ===
/** Line wrapping for the invoice PDF: `wrapText` packs words by character
    count, `breakTokenByWidth` and `wrapByWidth` pack them by measured width.
    The measure is a parameter: the font files are not part of this model, so
    every property here holds for every measure. */
module Wrap {
  import opened Text

  // ---------------------------------------------------------------------------
  // wrapText: greedy packing by character count

  /** The loop of `wrapText`: `line` is the line being filled, the result is
      every line pushed from here on. */
  function WrapWords(words: seq<string>, line: string, maxChars: nat): seq<string>
    decreases |words|
  {
    if |words| == 0 then (if line != "" then [line] else [])
    else
      var w := words[0];
      var candidate := if line != "" then line + " " + w else w;
      if |candidate| > maxChars then
        (if line != "" then [line] else []) + WrapWords(words[1..], w, maxChars)
      else
        WrapWords(words[1..], candidate, maxChars)
  }

  /** `wrapText(text, maxChars)`. */
  function WrapText(text: string, maxChars: nat): seq<string> {
    WrapWords(Words(text), "", maxChars)
  }

  /** Joins two texts with one space, dropping the space next to an empty side. */
  function Glue(a: string, b: string): string {
    if a == "" then b else if b == "" then a else a + " " + b
  }

  /** The text up to its first blank. */
  function FirstWord(s: string): string {
    s[..SpanEnd(s, 0, false)]
  }

  /** Each line but the first would overflow if it were appended, after a space,
      to the line before it. */
  predicate GreedyLines(r: seq<string>, maxChars: nat) {
    forall i :: 1 <= i < |r| ==> |r[i - 1]| + 1 + |FirstWord(r[i])| > maxChars
  }

  lemma GlueAssoc(a: string, b: string, c: string)
    ensures Glue(a, Glue(b, c)) == Glue(Glue(a, b), c)
  {
    if a != "" && b != "" && c != "" {
      assert a + " " + (b + " " + c) == a + " " + b + " " + c;
    }
  }

  lemma JoinWordsCons(ws: seq<string>)
    requires |ws| >= 1 && AreWords(ws)
    ensures Join(ws, " ") == Glue(ws[0], Join(ws[1..], " "))
    ensures Join(ws, " ") != ""
  {
    if |ws| >= 2 {
      JoinWordsCons(ws[1..]);
    }
  }

  lemma JoinLinesCons(x: string, rest: seq<string>)
    requires x != "" && forall i :: 0 <= i < |rest| ==> rest[i] != ""
    ensures Join([x] + rest, " ") == Glue(x, Join(rest, " "))
    decreases |rest|
  {
    if |rest| >= 1 {
      assert ([x] + rest)[1..] == rest;
      NonEmptyJoin(rest);
    }
  }

  lemma NonEmptyJoin(ls: seq<string>)
    requires |ls| >= 1 && forall i :: 0 <= i < |ls| ==> ls[i] != ""
    ensures Join(ls, " ") != ""
  {
  }

  lemma {:induction false} WrapWordsNonEmptyLines(words: seq<string>, line: string, maxChars: nat)
    requires AreWords(words)
    ensures forall i :: 0 <= i < |WrapWords(words, line, maxChars)| ==> WrapWords(words, line, maxChars)[i] != ""
    decreases |words|
  {
    if |words| > 0 {
      WrapWordsNonEmptyLines(words[1..], words[0], maxChars);
      var w := words[0];
      var candidate := if line != "" then line + " " + w else w;
      WrapWordsNonEmptyLines(words[1..], candidate, maxChars);
    }
  }

  /** The lines, re-joined by single spaces, are the words joined by single spaces
      (after whatever the current line already holds). */
  lemma {:induction false} WrapWordsJoin(words: seq<string>, line: string, maxChars: nat)
    requires AreWords(words)
    ensures Join(WrapWords(words, line, maxChars), " ") == Glue(line, Join(words, " "))
    decreases |words|
  {
    if |words| > 0 {
      var w := words[0];
      var rest := words[1..];
      var candidate := if line != "" then line + " " + w else w;
      JoinWordsCons(words);
      assert words == [w] + rest;
      assert Join(words, " ") == Glue(w, Join(rest, " "));
      assert candidate == Glue(line, w);
      if |candidate| > maxChars {
        var tail := WrapWords(rest, w, maxChars);
        WrapWordsJoin(rest, w, maxChars);
        WrapWordsNonEmptyLines(rest, w, maxChars);
        if line != "" {
          assert WrapWords(words, line, maxChars) == [line] + tail;
          JoinLinesCons(line, tail);
        } else {
          assert WrapWords(words, line, maxChars) == tail;
        }
      } else {
        assert WrapWords(words, line, maxChars) == WrapWords(rest, candidate, maxChars);
        WrapWordsJoin(rest, candidate, maxChars);
        GlueAssoc(line, w, Join(rest, " "));
      }
    }
  }

  /** A line longer than `maxChars` is a single word of the input. */
  lemma {:induction false} WrapWordsBound(words: seq<string>, line: string, maxChars: nat, all: seq<string>)
    requires forall i :: 0 <= i < |words| ==> words[i] in all
    requires |line| <= maxChars || line in all
    ensures forall l :: l in WrapWords(words, line, maxChars) ==> |l| <= maxChars || l in all
    decreases |words|
  {
    if |words| > 0 {
      var w := words[0];
      var candidate := if line != "" then line + " " + w else w;
      if |candidate| > maxChars {
        WrapWordsBound(words[1..], w, maxChars, all);
      } else {
        WrapWordsBound(words[1..], candidate, maxChars, all);
      }
    }
  }

  lemma FirstWordExtend(a: string, b: string)
    ensures FirstWord(a + " " + b) == FirstWord(a)
  {
    var k := SpanEnd(a, 0, false);
    assert a + " " + b == a + (" " + b);
    SpanEndPrefix(a, " " + b, 0);
    assert (a + (" " + b))[..k] == a[..k];
  }

  lemma FirstWordOfWord(w: string)
    requires NoSpace(w)
    ensures FirstWord(w) == w
  {
    SpanEndOfWord(w, 0);
  }

  /** The first line carries on from the current one, so it starts with its first word. */
  lemma {:induction false} WrapWordsHead(words: seq<string>, line: string, maxChars: nat)
    requires AreWords(words) && line != ""
    ensures |WrapWords(words, line, maxChars)| >= 1
    ensures FirstWord(WrapWords(words, line, maxChars)[0]) == FirstWord(line)
    decreases |words|
  {
    if |words| > 0 {
      var w := words[0];
      var candidate := line + " " + w;
      if |candidate| <= maxChars {
        WrapWordsHead(words[1..], candidate, maxChars);
        FirstWordExtend(line, w);
      }
    }
  }

  /** Greedy: a line ends only where the next word would push it past `maxChars`. */
  lemma {:induction false} WrapWordsGreedy(words: seq<string>, line: string, maxChars: nat)
    requires AreWords(words)
    ensures GreedyLines(WrapWords(words, line, maxChars), maxChars)
    decreases |words|
  {
    if |words| > 0 {
      var w := words[0];
      var rest := words[1..];
      var candidate := if line != "" then line + " " + w else w;
      if |candidate| > maxChars {
        WrapWordsGreedy(rest, w, maxChars);
        var tail := WrapWords(rest, w, maxChars);
        if line != "" {
          WrapWordsHead(rest, w, maxChars);
          FirstWordOfWord(w);
          var r := [line] + tail;
          assert WrapWords(words, line, maxChars) == r;
          assert forall i :: 1 <= i < |r| ==> r[i] == tail[i - 1];
        } else {
          assert WrapWords(words, line, maxChars) == tail;
        }
      } else {
        assert WrapWords(words, line, maxChars) == WrapWords(rest, candidate, maxChars);
        WrapWordsGreedy(rest, candidate, maxChars);
      }
    }
  }

  /** `wrapText` never emits an empty line. */
  lemma WrapTextNonEmptyLines(text: string, maxChars: nat)
    ensures forall i :: 0 <= i < |WrapText(text, maxChars)| ==> WrapText(text, maxChars)[i] != ""
  {
    WrapWordsNonEmptyLines(Words(text), "", maxChars);
  }

  /** `wrapText` loses and adds nothing: its lines joined by single spaces are
      the words of the text joined by single spaces. */
  lemma WrapTextJoin(text: string, maxChars: nat)
    ensures Join(WrapText(text, maxChars), " ") == Join(Words(text), " ")
  {
    WrapWordsJoin(Words(text), "", maxChars);
  }

  /** `wrapText` gives no lines exactly for blank input. */
  lemma WrapTextEmpty(text: string, maxChars: nat)
    ensures WrapText(text, maxChars) == [] <==> AllSpace(text)
  {
    var ws := Words(text);
    WordsEmpty(text);
    WrapTextJoin(text, maxChars);
    if ws != [] {
      JoinWordsCons(ws);
    }
  }

  /** A `wrapText` line over the limit is one word of the text. */
  lemma WrapTextBound(text: string, maxChars: nat)
    ensures forall l :: l in WrapText(text, maxChars) ==> |l| <= maxChars || l in Words(text)
  {
    WrapWordsBound(Words(text), "", maxChars, Words(text));
  }

  /** `wrapText` is greedy: each line plus a space plus the next line's first
      word would exceed `maxChars`. */
  lemma WrapTextGreedy(text: string, maxChars: nat)
    ensures GreedyLines(WrapText(text, maxChars), maxChars)
  {
    WrapWordsGreedy(Words(text), "", maxChars);
  }

  /** Collapsing whitespace first (`replace(/\s+/g, " ").trim()`) never changes
      what `wrapText` produces. */
  lemma WrapTextSqueeze(text: string, maxChars: nat)
    ensures WrapText(Squeeze(text), maxChars) == WrapText(text, maxChars)
  {
    WordsSqueeze(text);
  }

  // ---------------------------------------------------------------------------
  // breakTokenByWidth and wrapByWidth: greedy packing by measured width

  /** `measure(text, size, bold)`: the advance width of `text` in the active font. */
  type Measure = (string, real, bool) -> real

  /** A column to fill: its width and the font size and weight used in it. */
  datatype Column = Column(maxWidth: real, size: real, bold: bool)

  predicate Fits(m: Measure, col: Column, s: string) {
    m(s, col.size, col.bold) <= col.maxWidth
  }

  /** The character loop of `breakTokenByWidth`; `cur` is the piece being filled. */
  function BreakChars(chars: string, cur: string, m: Measure, col: Column): seq<string>
    decreases |chars|
  {
    if |chars| == 0 then (if cur != "" then [cur] else [])
    else
      var next := cur + [chars[0]];
      if Fits(m, col, next) then BreakChars(chars[1..], next, m, col)
      else (if cur != "" then [cur] else []) + BreakChars(chars[1..], [chars[0]], m, col)
  }

  /** `breakTokenByWidth(token, maxWidth, size, bold)`. */
  function BreakTokenByWidth(token: string, m: Measure, col: Column): (pieces: seq<string>)
    ensures |pieces| >= 1
  {
    var r := BreakChars(token, "", m, col);
    if |r| > 0 then r else [token]
  }

  /** A piece that fits, or a single character that cannot be split further. */
  predicate Piece(m: Measure, col: Column, s: string) {
    s != "" && (Fits(m, col, s) || |s| == 1)
  }

  lemma ConcatSnoc(ss: seq<string>, x: string)
    ensures Concat(ss + [x]) == Concat(ss) + x
  {
    if |ss| > 0 {
      assert (ss + [x])[1..] == ss[1..] + [x];
      ConcatSnoc(ss[1..], x);
    }
  }

  lemma ConcatCons(x: string, ss: seq<string>)
    ensures Concat([x] + ss) == x + Concat(ss)
  {
    assert ([x] + ss)[1..] == ss;
  }

  /** The pieces glue back to the characters read. */
  lemma {:induction false} BreakCharsConcat(chars: string, cur: string, m: Measure, col: Column)
    ensures Concat(BreakChars(chars, cur, m, col)) == cur + chars
    decreases |chars|
  {
    if |chars| > 0 {
      var c := chars[0];
      assert chars == [c] + chars[1..];
      var next := cur + [c];
      if Fits(m, col, next) {
        BreakCharsConcat(chars[1..], next, m, col);
      } else {
        var tail := BreakChars(chars[1..], [c], m, col);
        BreakCharsConcat(chars[1..], [c], m, col);
        if cur != "" {
          assert BreakChars(chars, cur, m, col) == [cur] + tail;
          ConcatCons(cur, tail);
        } else {
          assert BreakChars(chars, cur, m, col) == tail;
        }
      }
    }
  }

  /** Every piece is non-empty and fits or is a single character. */
  lemma {:induction false} BreakCharsPieces(chars: string, cur: string, m: Measure, col: Column)
    requires cur == "" || Piece(m, col, cur)
    ensures forall p :: p in BreakChars(chars, cur, m, col) ==> Piece(m, col, p)
    decreases |chars|
  {
    if |chars| > 0 {
      var next := cur + [chars[0]];
      if Fits(m, col, next) {
        BreakCharsPieces(chars[1..], next, m, col);
      } else {
        BreakCharsPieces(chars[1..], [chars[0]], m, col);
      }
    }
  }

  lemma {:induction false} BreakCharsHead(chars: string, cur: string, m: Measure, col: Column)
    requires cur != ""
    ensures |BreakChars(chars, cur, m, col)| >= 1
    ensures BreakChars(chars, cur, m, col)[0] != ""
    ensures BreakChars(chars, cur, m, col)[0][0] == cur[0]
    decreases |chars|
  {
    if |chars| > 0 {
      var next := cur + [chars[0]];
      if Fits(m, col, next) {
        BreakCharsHead(chars[1..], next, m, col);
      }
    }
  }

  /** Each piece but the first is non-empty, and its first character would not
      have fitted at the end of the piece before it. */
  predicate GreedyPieces(m: Measure, col: Column, r: seq<string>) {
    forall i :: 1 <= i < |r| ==> r[i] != "" && !Fits(m, col, r[i - 1] + r[i][..1])
  }

  /** Greedy: a piece ends only where its next character would not fit. */
  lemma {:induction false} BreakCharsGreedy(chars: string, cur: string, m: Measure, col: Column)
    requires cur == "" || Piece(m, col, cur)
    ensures GreedyPieces(m, col, BreakChars(chars, cur, m, col))
    decreases |chars|
  {
    if |chars| > 0 {
      var c := chars[0];
      var next := cur + [c];
      if Fits(m, col, next) {
        assert BreakChars(chars, cur, m, col) == BreakChars(chars[1..], next, m, col);
        BreakCharsGreedy(chars[1..], next, m, col);
      } else {
        var tail := BreakChars(chars[1..], [c], m, col);
        BreakCharsGreedy(chars[1..], [c], m, col);
        BreakCharsPieces(chars[1..], [c], m, col);
        if cur != "" {
          BreakCharsHead(chars[1..], [c], m, col);
          var r := [cur] + tail;
          assert BreakChars(chars, cur, m, col) == r;
          assert tail[0][..1] == [c];
          assert r[1] != "" && !Fits(m, col, r[0] + r[1][..1]);
          forall i | 2 <= i < |r|
            ensures r[i] != "" && !Fits(m, col, r[i - 1] + r[i][..1])
          {
            assert r[i] == tail[i - 1] && r[i - 1] == tail[i - 2];
          }
        } else {
          assert BreakChars(chars, cur, m, col) == tail;
        }
      }
    }
  }

  /** `breakTokenByWidth` splits a token into pieces that glue back to it; each
      piece fits the column or is one character, and each piece but the last
      would stop fitting with the next character added. */
  lemma BreakTokenSpec(token: string, m: Measure, col: Column)
    ensures var r := BreakTokenByWidth(token, m, col);
      && Concat(r) == token
      && (token == "" ==> r == [""])
      && (token != "" ==> forall p :: p in r ==> Piece(m, col, p))
      && GreedyPieces(m, col, r)
  {
    var pieces := BreakChars(token, "", m, col);
    BreakCharsConcat(token, "", m, col);
    BreakCharsPieces(token, "", m, col);
    BreakCharsGreedy(token, "", m, col);
    if token != "" {
      assert |pieces| > 0;
    }
  }

  /** The state of `wrapByWidth`: lines pushed so far and the line being filled. */
  datatype Wrapping = Wrapping(lines: seq<string>, line: string)

  /** Places one word or chunk, as both branches of the loop in `wrapByWidth` do:
      start the line with it, or append it after a space if the result still
      fits, else push the line and start a new one with it. */
  function Place(st: Wrapping, piece: string, m: Measure, col: Column): Wrapping {
    if st.line == "" then Wrapping(st.lines, piece)
    else
      var trial := st.line + " " + piece;
      if Fits(m, col, trial) then Wrapping(st.lines, trial)
      else Wrapping(st.lines + [st.line], piece)
  }

  function PlaceAll(st: Wrapping, pieces: seq<string>, m: Measure, col: Column): Wrapping
    decreases |pieces|
  {
    if |pieces| == 0 then st else PlaceAll(Place(st, pieces[0], m, col), pieces[1..], m, col)
  }

  /** The word loop of `wrapByWidth`: a word wider than the column is broken
      into chunks first, each chunk placed like a word. */
  function WrapLoop(st: Wrapping, words: seq<string>, m: Measure, col: Column): Wrapping
    decreases |words|
  {
    if |words| == 0 then st else WrapLoop(WordStep(st, words[0], m, col), words[1..], m, col)
  }

  /** One word of the loop: a word wider than the column is broken into
      chunks first, each chunk placed like a word. */
  function WordStep(st: Wrapping, w: string, m: Measure, col: Column): Wrapping {
    if !Fits(m, col, w) then PlaceAll(st, BreakTokenByWidth(w, m, col), m, col)
    else Place(st, w, m, col)
  }

  /** `wrapByWidth(text, maxWidth, size, bold)`. */
  function WrapByWidth(text: string, m: Measure, col: Column): (lines: seq<string>)
    ensures |lines| >= 1
  {
    var st := WrapLoop(Wrapping([], ""), Words(text), m, col);
    var lines := if st.line != "" then st.lines + [st.line] else st.lines;
    if |lines| > 0 then lines else [""]
  }

  /** Every pushed line and the current line are well-formed pieces. */
  predicate GoodState(m: Measure, col: Column, st: Wrapping) {
    && (forall l :: l in st.lines ==> Piece(m, col, l))
    && (st.line == "" || Piece(m, col, st.line))
  }

  /** The non-blank characters laid out so far. */
  function Ink(st: Wrapping): string {
    Strip(Concat(st.lines) + st.line)
  }

  lemma PlaceGood(st: Wrapping, piece: string, m: Measure, col: Column)
    requires GoodState(m, col, st) && Piece(m, col, piece)
    ensures GoodState(m, col, Place(st, piece, m, col))
    ensures Place(st, piece, m, col).line != ""
  {
  }

  lemma PlaceInk(st: Wrapping, piece: string, m: Measure, col: Column)
    ensures Ink(Place(st, piece, m, col)) == Ink(st) + Strip(piece)
  {
    var a := Concat(st.lines);
    var r := Place(st, piece, m, col);
    if st.line == "" {
      assert r == Wrapping(st.lines, piece);
      assert a + "" == a;
      StripAppend(a, piece);
    } else if Fits(m, col, st.line + " " + piece) {
      assert r == Wrapping(st.lines, st.line + " " + piece);
      assert a + (st.line + " " + piece) == (a + st.line) + (" " + piece);
      StripAppend(a + st.line, " " + piece);
      StripLeadingSpace(piece);
    } else {
      assert r == Wrapping(st.lines + [st.line], piece);
      ConcatSnoc(st.lines, st.line);
      StripAppend(a + st.line, piece);
    }
  }

  lemma StripLeadingSpace(s: string)
    ensures Strip(" " + s) == Strip(s)
  {
    assert (" " + s)[1..] == s;
  }

  lemma {:induction false} PlaceAllFacts(st: Wrapping, pieces: seq<string>, m: Measure, col: Column)
    requires GoodState(m, col, st)
    requires forall p :: p in pieces ==> Piece(m, col, p)
    ensures GoodState(m, col, PlaceAll(st, pieces, m, col))
    ensures Ink(PlaceAll(st, pieces, m, col)) == Ink(st) + Strip(Concat(pieces))
    ensures |pieces| > 0 || st.line != "" ==> PlaceAll(st, pieces, m, col).line != ""
    decreases |pieces|
  {
    if |pieces| > 0 {
      var p := pieces[0];
      var st' := Place(st, p, m, col);
      PlaceGood(st, p, m, col);
      PlaceInk(st, p, m, col);
      PlaceAllFacts(st', pieces[1..], m, col);
      InkCons(Ink(st), p, pieces);
    }
  }

  /** Ink of the first piece, then of the rest, is ink of all the pieces. */
  lemma InkCons(ink: string, p: string, pieces: seq<string>)
    requires |pieces| >= 1 && pieces[0] == p
    ensures (ink + Strip(p)) + Strip(Concat(pieces[1..])) == ink + Strip(Concat(pieces))
  {
    assert pieces == [p] + pieces[1..];
    ConcatCons(p, pieces[1..]);
    StripAppend(p, Concat(pieces[1..]));
  }

  /** A word step keeps the state well-formed, adds the word's ink and leaves
      a current line. */
  lemma WordStepFacts(st: Wrapping, w: string, m: Measure, col: Column)
    requires GoodState(m, col, st) && w != "" && NoSpace(w)
    ensures GoodState(m, col, WordStep(st, w, m, col))
    ensures Ink(WordStep(st, w, m, col)) == Ink(st) + Strip(w)
    ensures WordStep(st, w, m, col).line != ""
  {
    if !Fits(m, col, w) {
      BreakTokenSpec(w, m, col);
      PlaceAllFacts(st, BreakTokenByWidth(w, m, col), m, col);
      assert |BreakTokenByWidth(w, m, col)| > 0;
    } else {
      PlaceGood(st, w, m, col);
      PlaceInk(st, w, m, col);
    }
  }

  lemma {:induction false} WrapLoopFacts(st: Wrapping, words: seq<string>, m: Measure, col: Column)
    requires GoodState(m, col, st) && AreWords(words)
    ensures GoodState(m, col, WrapLoop(st, words, m, col))
    ensures Ink(WrapLoop(st, words, m, col)) == Ink(st) + Strip(Concat(words))
    ensures |words| > 0 || st.line != "" ==> WrapLoop(st, words, m, col).line != ""
    decreases |words|
  {
    if |words| > 0 {
      var w := words[0];
      WordStepFacts(st, w, m, col);
      WrapLoopFacts(WordStep(st, w, m, col), words[1..], m, col);
      InkCons(Ink(st), w, words);
    }
  }

  /** `wrapByWidth` returns `[""]` exactly for blank input; otherwise every line
      is non-empty and fits the column or is a single character. */
  lemma WrapByWidthLines(text: string, m: Measure, col: Column)
    ensures var r := WrapByWidth(text, m, col);
      && (r == [""] <==> AllSpace(text))
      && (!AllSpace(text) ==> forall l :: l in r ==> Piece(m, col, l))
  {
    var ws := Words(text);
    WordsEmpty(text);
    WrapLoopFacts(Wrapping([], ""), ws, m, col);
    var st := WrapLoop(Wrapping([], ""), ws, m, col);
    if ws != [] {
      var lines := st.lines + [st.line];
      assert WrapByWidth(text, m, col) == lines;
      assert lines[|lines| - 1] != "";
    }
  }

  /** `wrapByWidth` keeps every non-blank character of the input, in order:
      removing blanks from the concatenated lines gives those of the text. */
  lemma WrapByWidthInk(text: string, m: Measure, col: Column)
    ensures Strip(Concat(WrapByWidth(text, m, col))) == Strip(text)
  {
    var ws := Words(text);
    WrapLoopFacts(Wrapping([], ""), ws, m, col);
    WordsConcat(text);
    var st := WrapLoop(Wrapping([], ""), ws, m, col);
    assert Ink(Wrapping([], "")) == "";
    StripNoSpace(Strip(text));
    assert Ink(st) == Strip(Concat(ws)) == Strip(text);
    if st.line != "" {
      assert WrapByWidth(text, m, col) == st.lines + [st.line];
      ConcatSnoc(st.lines, st.line);
      assert Strip(Concat(st.lines + [st.line])) == Ink(st);
    } else {
      assert Concat(st.lines) + "" == Concat(st.lines);
      if |st.lines| == 0 {
        assert Strip(Concat([""])) == "";
      }
    }
  }
}

=== FILE: wrappers.dfy ===
/** The absent-or-present values of the invoice code: a TypeScript optional
    field or `undefined` result becomes `None`, a present value `Some(v)`. */
module Wrappers {

  datatype Option<+T> = None | Some(value: T) {

    /** Returns the value in Some, or `default` when None (the `??` operator). */
    function GetOr(default: T): T {
      match this
      case Some(v) => v
      case None => default
    }
  }
}
